=== FILE: README.md ===
# CPUID decoding, capture and replay, in Dafny

This project models the pure decoding layer of the Go CPUID library
`earentir/cpuid`, its snapshot capture and replay, the 32-bit C snapshot
writer, the ARM identification, and the feature-flag scan of the older
command-line front end, and proves properties of that model.

The CPUID instruction (and, on ARM, the MIDR read) is an uninterpreted
*register source* `q: (leaf, subleaf) -> Regs`; every decoder reads its
registers from `q`. Registers are `bv32`, so Go's `uint32` shifts, masks
and wrap-around carry over exactly. Leaf and subleaf counters are `u32`
(integers in 0..2^32-1). The source's sentinel loops count subleaves in a
32-bit variable with no other bound: when no subleaf ever meets the stop
test, the counter wraps and the loop runs forever. The model returns
`Run<T>`, and `Diverges` stands for exactly that case.

Files, one module each:

- `types.dfy`: registers, sources, the `CPUIDEntry` record, byte split.
- `text.dfy`: `string([]byte)`, ASCII `ToUpper`, `Contains`, `TrimSpace`, `sort.Strings`.
- `numerals.dfy`: `%d`/`%u`/`%X` numerals and reading them back.
- `sweep.dfy`: the sentinel-terminated subleaf loop shared by four callers.
- `register_source.dfy`: live/replay choice, snapshot lookup, maximum leaves, hybrid leaf 1AH.
- `identity.dfy`: vendor ID, vendor name, brand string, processor signature.
- `features.dfy`: queries over the feature catalog.
- `cache.dfy`: cache leaf decode, the cache walk, the vendor dispatch.
- `topology.dfy`: `GetProcessorInfo`, including the core and thread counts.
- `tlb.dfy`: AMD and Intel TLB description.
- `capture.dfy`: the leaf and subleaf sweep of `CaptureData`.
- `writer.dfy`: the C writer's growable array and its JSON text.
- `arm.dfy`: the ARM build's maximum leaves, MIDR fields and vendor names.
- `oldapp.dfy`: the older front end's bit scan, signature formulas and AMD counts.

Some things are modelled as the code does them, even where the vendor
manuals differ:

- The hyper-threading test of `GetProcessorInfo` reads bit 28 of leaf 01H
  EBX, not EDX (`Topology.HttThreads`).
- The cache walks stop at the first subleaf whose type code is outside
  1..3, not only at type 0 (`Cache.Enumerate`).
- Both AMD L1 TLB entries of a kind use the one associativity field of
  bits 8-15 (`Tlb.AmdL1`).
- The AMD counts come from leaves 8000_001EH and 8000_0008H when leaf
  8000_001EH exists. Otherwise, with leaf 01H, they are half the logical
  processors rounded up, with two threads per core. The source's inner
  test for leaf 8000_0008H (cpuid_info.go:106) always holds once leaf
  8000_001EH exists, so its zero default is never reached. The model keeps
  that test and its dead `else 0` (`Topology.AmdCounts`).
- Core and thread counts are integers in 0..2^32-1, and the core count of
  leaf 0BH is the unsigned quotient of the two level counts.

Go maps that the source ranges over (the feature catalog) are
association lists with distinct keys. Their order stands for the
unspecified iteration order, so every order-dependent result is stated
up to that order: as a multiset, or as a sorted result that provably does
not depend on it.

## Model

| member | source | states |
|---|---|---|
| Types.Record | cpuid_capture.go:48-55 | A recorded entry carries the queried leaf and subleaf and exactly the four registers the source answers there |
| Types.Int32ToBytes | cpuid.go:78-80 | Four bytes, least significant first, that reassemble into the register (the older front end's `int32ToBytes`, cpuidcmd/oldapp/main.go lines 292-294, is the same split) |
| Types.BytesRoundTrip | cpuid.go:78-80 | Any four bytes are the split of the register they assemble into, so the split loses nothing |
| Text.TrimSpace | cpuid_info.go:43 | The result is a contiguous piece of the input, and everything cut from either side is white space. It neither starts nor ends with white space, and it is empty exactly when the input is all white space |
| Text.TrimSpaceKeeps | cpuid_info.go:43 | Text without white space at either end is left unchanged |
| Text.TrimSpacePadded | cpuid_info.go:43 | Trimming text padded with white space around a core that starts and ends with non-space gives back exactly that core |
| Text.SortStrings | cpuid_features.go:13 | A sorted permutation of its input |
| Text.SortedUnique | cpuid_features.go:13 | Two sorted sequences holding the same strings are equal, so a sorted listing does not depend on the order the strings were collected in |
| Text.DistinctCounts | cpuid_features.go:9-11 | A sequence has no repeats exactly when no element occurs in it more than once as a multiset |
| Numerals.Decimal | cpuid_info.go:71-76 | The `%d` rendering is a non-empty decimal numeral whose value is the number |
| Numerals.Hex | cpuid_arm.go:35-36 | The `%X` rendering is a non-empty hexadecimal numeral whose value is the number |
| Numerals.NumeralInjective | cpuid_info.go:71-76 | Different numbers have different renderings |
| Numerals.ReadNumeralOf | cpuid_arm.go:35-36 | A rendered number reads back as that number when the next character is not a digit |
| Numerals.ReadLabelledOf | writers/32bit/cpuidwrt.c:104 | A label followed by a rendered number reads back as the number and the rest |
| Sweep.Scan | cpuid_cache.go:32-38 | The loop from subleaf j records consecutive subleaves, none of which meets the stop test. The subleaf after the last one recorded meets it, and the loop diverges exactly when no subleaf from j on does |
| Sweep.ConsecutiveSpan | cpuid_tlb.go:111-139 | Loop output covers exactly the subleaves from the start up to the stopping one, in strictly increasing order, without wrapping |
| Sweep.ScanFromZero | cpuid_capture.go:33-57 | Started at 0, the loop records subleaves 0..k-1, where k is the first that meets the stop test. It diverges exactly when none does |
| RegisterSource.Lookup | cpuid.go:14-21 | The registers of the first entry recorded for (leaf, subleaf); zeros when none is |
| RegisterSource.Replay | cpuid.go:7-22 | A snapshot that fails to load answers zeros, and a loaded one answers by first-match lookup |
| RegisterSource.WithMode | cpuid.go:25-37 | The live source when not offline. Offline, the named snapshot, or "cpuid_data.json" when the name is empty |
| RegisterSource.LookupFaithful | cpuid.go:14-21 | Replaying a snapshot whose entries record what a source answers gives that source's answer for every recorded query, and zeros for the others |
| RegisterSource.MaxFunctions | cpuid.go:40-48 | EAX of leaf 0 and EAX of leaf 8000_0000H of the chosen source |
| RegisterSource.DecodeHybrid | cpuid.go:51-75 | Not hybrid exactly when bit 0 is clear, with every other field zero or empty. Otherwise the native model ID and core type are bytes and the name follows the core type |
| RegisterSource.HybridRoundTrip | cpuid.go:59-63 | A hybrid EAX built from a native model ID and a core type decodes to exactly those |
| RegisterSource.IntelHybrid | cpuid.go:51-75 | Reads EAX of leaf 1AH, subleaf 0, from the chosen source. Hybrid exactly when bit 0 is set, and otherwise the empty record. When hybrid, the native model ID is bits 24-31, the core type is bits 16-23, and the name follows the core type |
| RegisterSource.IntelHybridRoundTrip | cpuid.go:51-75 | A source whose leaf 1AH EAX reports a hybrid part with any model ID and core type gives exactly that part, whatever the low bits hold |
| RegisterSource.CoreTypeNames | cpuid.go:66-73 | "P-core" is named exactly for core type 1 and "E-core" exactly for 2 |
| Identity.VendorId | cpuid_info.go:10-16 | Twelve characters: EBX, then EDX, then ECX of leaf 0, each least significant byte first (the older front end's `getVendorID`, cpuidcmd/oldapp/main.go lines 347-354, builds the same text) |
| Identity.VendorIdRoundTrip | cpuid_info.go:10-16 | Any twelve bytes are the vendor ID of the leaf 0 registers that spell them |
| Identity.VendorName | cpuid_info.go:20-29 | "Intel" exactly for "GenuineIntel", "AMD" exactly for "AuthenticAMD", otherwise "Unknown" |
| Identity.GenuineIntel | cpuid_info.go:20-29 | The registers of a genuine Intel part spell "GenuineIntel" and are named "Intel" |
| Identity.BrandString | cpuid_info.go:33-46 | Empty below leaf 8000_0004H. Otherwise a contiguous piece of the 48 brand bytes with only white space cut from either side and no white space left at either end, empty exactly when the bytes are all white space |
| Identity.LeafRoundTrip | cpuid_info.go:37-41 | The sixteen bytes of a brand leaf are EAX, EBX, ECX and EDX, little endian, and any sixteen bytes arise this way |
| Identity.BrandRoundTrip | cpuid_info.go:34-43 | Any 48 brand bytes without surrounding white space come back unchanged as the brand string |
| Identity.PaddedBrandRoundTrip | cpuid_info.go:34-43 | A 48-byte brand padded with white space on either side, as Intel right-justifies it, comes back as exactly the text between the padding |
| Identity.DecodeSignature | cpuid_info.go:52-57 | Stepping, model, family and extended model are below 16, the type below 4, the extended family below 256 |
| Identity.SignatureRoundTrip | cpuid_info.go:52-57 | Fields within their widths encode and decode back to themselves |
| Identity.SignatureKeepsFields | cpuid_info.go:52-57 | Decoding keeps every bit of EAX except the reserved bits 14-15 and 28-31 |
| Identity.EffectiveModel | cpuid_info.go:60-63 | The low nibble is the model. The high nibble is the extended model for families 6 and 0FH, and zero otherwise |
| Identity.EffectiveFamily | cpuid_info.go:65-68 | The family itself unless it is 0FH, in which case 0FH plus the extended family |
| Identity.EffectiveValuesDiffer | cpuid_info.go:60-68 | The effective model differs from the model exactly when the family is 6 or 0FH and the extended model is non-zero. The effective family differs exactly when the family is 0FH and the extended family is non-zero |
| Identity.ModelData | cpuid_info.go:49-81 | Each raw field as a decimal numeral denoting its value, and the effective model and family |
| Features.AllCategories | cpuid_features.go:7-16 | Sorted, without duplicates, and holding exactly the catalog's keys |
| Features.CategoriesIndependentOfOrder | cpuid_features.go:9-13 | Two catalogs with the same keys list the same categories, whatever the map order |
| Features.FindStored | cpuid_features.go:50 | Looking up a stored key finds its own entry |
| Features.DetailEntry | cpuid_features.go:25-38 | Name and description are copied. The vendor is "both" exactly for "common" (or "both"), and any other vendor is copied. "equivalent" is present exactly when the equivalent name is non-empty |
| Features.SetDetails | cpuid_features.go:23-41 | One detail map per feature of the set, in the set's order |
| Features.Detailed | cpuid_features.go:19-46 | The keys are exactly the sets' display names |
| Features.DetailedLastWins | cpuid_features.go:42 | When several sets share a display name, the last one written is what the key holds |
| Features.KnownFeatures | cpuid_features.go:49-60 | None exactly for an unknown category. Otherwise the names of that set's features |
| Features.SelectRegister | cpuid_features.go:75-85 | Selector 0 to 3 picks EAX to EDX, and any other selector reads 0 |
| Features.SetBits | cpuid_features.go:87-93 | Every feature whose bit is set is reported, and every reported name belongs to a feature whose bit is set |
| Features.SetBitsAreNames | cpuid_features.go:87-93 | The reported names are a sub-multiset of the set's names |
| Features.SetBitsExact | cpuid_features.go:87-93 | With unique names, a feature is reported exactly when its bit is set |
| Features.SupportedFeatures | cpuid_features.go:63-94 | None for an unknown category or a set whose condition fails. Otherwise the set bits of the selected register of the set's leaf |
| Features.SupportedAreKnown | cpuid_features.go:63-94 | The supported features of a category are among its known features |
| Features.BadSelectorReportsNothing | cpuid_features.go:75-93 | With a selector outside 0 to 3, no feature is reported |
| Features.BitOf | cpuid_features.go:104-110 | Finds a bit exactly when the set has a feature of that name, and the bit found is that feature's |
| Features.IsFeatureSupported | cpuid_features.go:97-136 | True only when some applicable set has the feature with its bit set |
| Features.UniqueNameDecides | cpuid_features.go:97-136 | When exactly one feature anywhere has the name, the answer is that set's condition together with the feature's bit |
| Cache.CacheTypeName | cpuid_cache.go:102-113 | 1, 2 and 3 name Data, Instruction and Unified, each exactly; every other code is "Unknown" (the older front end's `getCacheTypeString`, cpuidcmd/oldapp/main.go lines 221-231, is the same mapping) |
| Cache.WritePolicyName | cpuid_cache.go:75-85 | Codes 0, 1, 2, 3 give Write Back, Write Through, Write Protected, Unknown, each exactly |
| Cache.DecodeCache | cpuid_cache.go:60-100 | The level is at most 7, and the type follows EAX bits 0-4. Line size, ways, cores sharing and processor IDs lie in their +1 ranges. The two flags are bits 8 and 9, and the policy follows bits 10-11. Sets wrap to 0 exactly for ECX = 2^32-1. The size in KB is the product of line size, partitions, ways and sets, reduced modulo 2^32 as `uint32` arithmetic wraps, divided by 1024 |
| Cache.GeometryRoundTrip | cpuid_cache.go:62-90 | Registers built from any field values decode to exactly those values (plus one where the source adds one), and to the size their wrapped product gives. This holds whatever EAX bits 12-13 and EDX hold, which the decoder ignores |
| Cache.ThirtyTwoKilobytes | cpuid_cache.go:64-90 | 64-byte lines, one partition, 8 ways and 64 sets make a 32 KB level-1 data cache |
| Cache.CacheStops | cpuid_cache.go:33-36 | The walk stops at a subleaf exactly when its type code is not 1, 2 or 3 |
| Cache.Enumerate | cpuid_cache.go:31-39 | Subleaves 0..k-1 decoded in order, where k is the first subleaf whose type is unknown. Every entry is Data, Instruction or Unified, and the walk diverges exactly when every subleaf is a cache |
| Cache.AmdCaches | cpuid_cache.go:26-40 | Empty below leaf 8000_001DH, otherwise the walk of that leaf |
| Cache.IntelCaches | cpuid_cache.go:43-57 | Empty below leaf 04H, otherwise the walk of that leaf |
| Cache.CacheInfoOf | cpuid_cache.go:10-23 | "AMD" in the upper-cased vendor ID wins, then "INTEL". Otherwise there are no caches and an error, and neither walk runs. An error always comes with an empty list |
| Cache.IntelDispatch | cpuid_cache.go:11-19 | "GENUINEINTEL" contains "INTEL" and not "AMD", so it goes to the Intel walk |
| Cache.AmdDispatch | cpuid_cache.go:12-15 | "AuthenticAMD" goes to the AMD walk |
| Topology.LevelType | cpuid_info.go:121 | The level type is ECX bits 8-15: a byte that, shifted back to bit 8, is exactly those bits of ECX |
| Topology.LevelCount | cpuid_info.go:126 | The level count is EBX bits 0-15: at most FFFFH, and together with EBX's upper half it rebuilds EBX |
| Topology.LevelRoundTrip | cpuid_info.go:121-126 | A subleaf built from any level type and count reads back as exactly those, whatever the other bits hold |
| Topology.TopologyStops | cpuid_info.go:121-124 | The leaf 0BH loop stops exactly at a level type of 0 |
| Topology.CountLevelsIsLast | cpuid_info.go:119-132 | The loop's result is the count of the last level-1 subleaf and of the last level-2 subleaf, each defaulting to the value before the loop |
| Topology.LeafBReference | cpuid_info.go:116-132 | The leaf 0BH scan gives the last thread-level and core-level counts, 0 when absent |
| Topology.HttThreads | cpuid_info.go:146-151 | 2 exactly when bit 28 of leaf 01H EBX is set, 1 exactly when it is clear |
| Topology.CoresAndThreads | cpuid_info.go:134-137 | With both counts non-zero, the threads are the thread-level count and the cores are the quotient of the core-level count by it: cores times threads is at most the total, and one more core would exceed it. Otherwise both are 0 |
| Topology.LeafBCountsMeaning | cpuid_info.go:116-138 | The leaf 0BH step diverges exactly when leaf 0BH exists and every subleaf has a non-zero level type. When it ends, it gives the reference reading of the last thread and core levels. Below leaf 0BH it gives (0, 0) |
| Topology.OlderIntelCounts | cpuid_info.go:146-162 | The fallback: cores minus one is leaf 04H EAX bits 26-31 when leaf 04H exists, else one core; threads from the HTT bit |
| Topology.IntelCounts | cpuid_info.go:115-162 | Diverges exactly when leaf 0BH exists and no subleaf ends it. When leaf 0BH ends, its reading is kept if it gives a core, and otherwise the older-processor fallback is used. Below leaf 0BH the fallback is used directly. With leaf 01H present there is at least one core, and below it both counts are 0 |
| Topology.AmdCounts | cpuid_info.go:99-114 | With leaf 8000_001EH, cores minus one is ECX bits 0-7 of leaf 8000_0008H and threads minus one is EBX bits 8-15 of leaf 8000_001EH, both in 1..256. Otherwise, with leaf 01H, two threads and half the logical processors rounded up. Without leaf 01H, zeros |
| Topology.AmdCountsRoundTrip | cpuid_info.go:101-109 | A processor whose two fields hold any cores-1 and threads-1 reports exactly those counts, whatever its other bits hold |
| Topology.BasicInfo | cpuid_info.go:86-96 | Logical processors and APIC ID from leaf 01H EBX bits 16-23 and 24-31. Address widths from leaf 8000_0008H when present, else zero |
| Topology.ProcessorInfoOf | cpuid_info.go:84-173 | The basic fields always. AMD counts for AMD, Intel counts for Intel, zeros for any other vendor. It diverges only through the Intel leaf 0BH loop |
| Tlb.AmdL1 | cpuid_tlb.go:26-50 | Exactly two data and two instruction entries, "2MB/4MB" then "4KB", with counts from bits 16-23 and 24-31. Both entries use the associativity of bits 8-15 |
| Tlb.AmdL2 | cpuid_tlb.go:53-78 | Two data and two instruction entries, "2MB/4MB" then "4KB", with counts from bits 16-27 and 28-31 and the associativity of bits 12-15 |
| Tlb.AmdL1RoundTrip | cpuid_tlb.go:26-50 | Leaf 8000_0005H registers built from any counts and associativity codes describe exactly those four entries, whatever the low bytes and ECX and EDX hold |
| Tlb.AmdL2RoundTrip | cpuid_tlb.go:56-78 | Leaf 8000_0006H registers built from any counts and codes describe exactly those four entries |
| Tlb.AmdL3RoundTrip | cpuid_tlb.go:81-89 | From leaf 8000_0019H on, an EAX built from any 1 GB count and code gives exactly that one level-3 data entry |
| Tlb.AmdTlb | cpuid_tlb.go:20-93 | Vendor "AMD" and L1 always. L2 only from leaf 8000_0006H. L3 holds one "1GB" data entry only from leaf 8000_0019H, and never without L2. Unified lists are empty |
| Tlb.PageSizeName | cpuid_tlb.go:146-163 | The low nibble 1..5 names 4KB, 2MB, 4MB, 1GB and 256MB, each exactly. 0FH is "Reserved", and anything else is "Unknown" |
| Tlb.TlbTypeName | cpuid_tlb.go:178-191 | 0..3 name Invalid, Data, Instruction and Unified, each exactly, and larger values name Unknown |
| Tlb.TlbTypeNeverUnknown | cpuid_tlb.go:126 | A 2-bit type field never yields "Unknown" |
| Tlb.AddEntry | cpuid_tlb.go:166-175 | Appends to the list of its kind, changes nothing else, and ignores any other kind |
| Tlb.StructuredEntry | cpuid_tlb.go:119-123 | The entry count minus one is EBX bits 16-27, so it lies in 1..4096. The page size follows EBX, and the associativity text is that of EBX shifted right by 8 |
| Tlb.RouteAllIsReference | cpuid_tlb.go:125-136 | The loop's routing equals appending to each level, in subleaf order, the entries of that level and kind. Entries of other levels or kinds are dropped |
| Tlb.TlbStops | cpuid_tlb.go:115-117 | The leaf 18H loop stops exactly when EDX bits 0-4 are not 1 |
| Tlb.IntelTlb | cpuid_tlb.go:96-143 | Below leaf 02H, vendor "Intel" and nothing else. Then the descriptor result, followed by the routed leaf 18H entries when that leaf exists. It diverges exactly when every leaf 18H subleaf is a TLB entry |
| Tlb.TlbInfoOf | cpuid_tlb.go:7-17 | AMD first, then Intel, otherwise an empty record and an error |
| Capture.StopRuleMeaning | cpuid_capture.go:36-47 | Leaves 04H and 8000_001DH stop on cache type 0, 0BH on EAX = 0, 0DH on all registers 0, never at subleaf 0 |
| Capture.LeafRows | cpuid_capture.go:32-69 | An unswept leaf gives its subleaf 0 only. A swept leaf gives subleaves 0..k-1, where k > 0 is the first that stops, and it diverges exactly when none stops |
| Capture.LeafSweep | cpuid_capture.go:30-70 | Every row records what the source answers, the leaves stay in range, and the rows are in strictly increasing (leaf, subleaf) order starting at the first leaf. Unswept leaves are recorded only at subleaf 0 |
| Capture.SweepCovers | cpuid_capture.go:30-70 | Every leaf in range is recorded at subleaf 0 |
| Capture.SweepEnds | cpuid_capture.go:30 | A sweep that ends over a non-empty range has a maximum below 2^32-1, and every leaf in the range ends |
| Capture.SweepEndsIf | cpuid_capture.go:30 | With a maximum below 2^32-1 and every leaf ending, the sweep ends |
| Capture.CaptureEntries | cpuid_capture.go:24-105 | Every captured entry holds exactly the source's registers at its (leaf, subleaf) |
| Capture.CaptureSplit | cpuid_capture.go:72-105 | The standard sweep up to leaf 0's EAX, followed by the extended sweep up to leaf 8000_0000H's EAX |
| Capture.CaptureCovers | cpuid_capture.go:30-70 | Every standard leaf up to the maximum is captured at subleaf 0 |
| Capture.CaptureWithoutExtended | cpuid_capture.go:74-75 | With a maximum extended leaf below 8000_0000H, only the standard sweep is captured |
| Capture.CaptureOrdered | cpuid_capture.go:24-105 | When the standard maximum is below 8000_0000H, the capture is in strictly increasing (leaf, subleaf) order, so no pair is recorded twice |
| Capture.CaptureReplays | cpuid_capture.go:48-55 | Replaying the capture answers the source's registers for every captured query, and zeros otherwise. Every standard leaf in range at subleaf 0 replays exactly |
| Writer.Append | writers/32bit/cpuidwrt.c:31-47 | Stores the entry at index count, keeps the earlier entries, and doubles the capacity exactly when the array was full. Count stays within a capacity of 64 doubled |
| Writer.Collect | writers/32bit/cpuidwrt.c:31-47 | Appending a sequence of entries yields exactly that sequence in a valid array |
| Writer.Emit | writers/32bit/cpuidwrt.c:101-114 | The header, one line per entry, and the footer |
| Writer.PrintAll | writers/32bit/cpuidwrt.c:102-113 | The lines written one after another |
| Writer.ReadEntryOf | writers/32bit/cpuidwrt.c:103-110 | An entry line reads back as leaf, subleaf, eax, ebx, ecx and edx, in that order |
| Writer.ReadLinesOf | writers/32bit/cpuidwrt.c:102-114 | The entry lines and the closing text read back as the entries. A comma follows every line but the last |
| Writer.JsonRoundTrip | writers/32bit/cpuidwrt.c:101-114 | The printed file reads back as exactly the entries it was printed from, for any count including zero |
| Writer.WriterMain | writers/32bit/cpuidwrt.c:50-120 | Exit 1 and no file when `__get_cpuid(0, ...)` fails, that is, when CPUID is absent or leaf 0 reports a maximum of 0, or when the file does not open. When leaf 0 answers, the file opens and the sweep ends, exit 0 with a file that reads back as the capture of the answers the writer's queries see, with ECX taken as 0. Exit 0 happens only then. It diverges exactly when the sweep does |
| Arm.ArmReportsNoLeafData | cpuid_arm.go:16-18 | With maxima (1, 0) the brand string is empty and both cache walks report nothing |
| Arm.DecodeMidr | cpuid_arm.go:29-34 | Implementer 8 bits, part 12 bits, the other fields 4 bits |
| Arm.MidrRoundTrip | cpuid_arm.go:29-34 | Fields within their widths encode and decode back to themselves |
| Arm.MidrKeepsAllBits | cpuid_arm.go:29-34 | The five fields together hold every bit of the register |
| Arm.ReadMidrWith | cpuid_arm.go:35-36 | The labelled field text reads back as the five fields |
| Arm.VendorId | cpuid_arm.go:28-37 | The text reads back as exactly the decoded MIDR fields, with nothing after them |
| Arm.ImplementerNameIsTable | cpuid_arm.go:60-76 | A name exactly for the eight listed codes, and the listed one |
| Arm.UnknownName | cpuid_arm.go:77-79 | "Unknown (" followed by text that reads back as the five fields, then ")" |
| Arm.VendorName | cpuid_arm.go:47-81 | "Apple" exactly for implementer 41H with part D03H. A listed implementer otherwise gets its table name, and any other gets "Unknown (" with its fields |
| Arm.ArmImplementerIsArm | cpuid_arm.go:84-87 | Implementer 41H passes the ARM test under both of its names |
| Arm.OnlyImplementer41IsArm | cpuid_arm.go:47-87 | `isARM` holds exactly when the implementer is 41H. No other table name, and no upper-cased "Unknown (...)" text, contains "ARM" or "APPLE" |
| OldApp.Flagged | cpuidcmd/oldapp/main.go:361-369 | Every listed bit is below the bound, set, and with (or without) a feature entry as asked |
| OldApp.PrintFeatureFlags | cpuidcmd/oldapp/main.go:357-374 | The recognised names are sorted, and a name is among them exactly when a set bit carries it. "Bit i" is reported exactly for set bits without an entry, in ascending order. Every set bit lands in exactly one list, and clear bits in neither |
| OldApp.FlaggedExactly | cpuidcmd/oldapp/main.go:361-369 | A bit is listed exactly when it is below the bound, set, and has (or lacks) an entry |
| OldApp.FlaggedAscending | cpuidcmd/oldapp/main.go:361-369 | Listed bits ascend strictly |
| OldApp.FlaggedCount | cpuidcmd/oldapp/main.go:362 | The two lists together are as long as the number of set bits |
| OldApp.BitLabelInjective | cpuidcmd/oldapp/main.go:366 | Different bits get different "Bit i" labels |
| OldApp.UnrecognizedExactly | cpuidcmd/oldapp/main.go:362-367 | "Bit i" appears exactly for a set bit i without an entry |
| OldApp.RecognizedExactly | cpuidcmd/oldapp/main.go:362-371 | A name is recognised exactly when some set bit carries a feature of that name |
| OldApp.BasicInfoAgrees | cpuidcmd/oldapp/main.go:69-77 | The basic report's effective model and family are the library's |
| OldApp.ProcessorInfoModelAgrees | cpuidcmd/oldapp/main.go:311 | The processor-info model equals the effective model exactly when the family is 6 or 0FH, or the extended model is 0 |
| OldApp.ProcessorInfoFamilyAgrees | cpuidcmd/oldapp/main.go:312 | The processor-info family equals the effective family exactly when the extended family is 0 |
| OldApp.FamilyTenDiverges | cpuidcmd/oldapp/main.go:312 | For signature 00100F00H the basic report shows family 10H and the processor-info report 1FH |
| OldApp.ModelFiveDiverges | cpuidcmd/oldapp/main.go:311 | For signature 00010500H (family 5, extended model 1) the basic report shows model 0 and the processor-info report 10H |
| OldApp.OldAmdCounts | cpuidcmd/oldapp/main.go:171-183 | Present exactly for AMD with leaf 8000_0008H. Cores and threads lie in 1..256 and are ECX bits 0-7 and 8-15 plus one |
| OldApp.OldAmdCountsAgainstLibrary | cpuidcmd/oldapp/main.go:177-182 | Against the library with leaf 8000_001EH, the core counts agree. The thread counts agree exactly when bits 8-15 of the two registers they come from agree |

## Left out

- The CPUID instruction, the ARM system-register read and `__get_cpuid` are not modelled. They are the register source `q`. Whether the CPUID instruction exists is a parameter of `Writer.WriterMain`. The helper's other failure, a leaf 0 maximum of 0, is modelled.
- The writer's messages on standard output and standard error (cpuidwrt.c:51, :96 and :117) are not modelled. Only the exit status and the file are.
- JSON encoding and decoding, and file I/O, are not modelled. A snapshot load is an `Option<seq<Entry>>`, or a function from file name to that. The C writer's output is modelled as text, with a reader for that text as its inverse.
- `isAMD`/`isIntel` (not part of this model) are boolean parameters.
- `getAssociativity`, `getIntelAssociativity` and `processIntelDescriptors` (not part of this model) are function parameters, and their contents are not guessed.
- The feature catalog `cpuFeaturesList` (not part of this model) is a parameter.
- `Features.SetBits`: Go's map iteration order is unspecified, so the result is stated by membership and multiset rather than as a sequence.
- Feature-bit keys are natural numbers. Go's `map[int]Feature` also allows negative keys, and for those `regValue >> bit` panics at run time (cpuid_features.go:89 and :129). The panic is not modelled.
- `Features.IsFeatureSupported` returns at the first applicable set holding the name. Which set that is depends on map order, so without unique names only soundness is stated.
- `Text.ToUpper`, `Text.TrimSpace`: ASCII only. The strings involved are bytes from registers or fixed ASCII text, and Unicode case mapping and white space are not modelled.
- `Numerals.Decimal`, `Numerals.Hex`: only the `%d`, `%u` and `%X` renderings the model needs. Other `Sprintf` formats are not modelled.
- `Writer.WriterMain`: the writer calls `__get_cpuid(leaf, ...)` for every leaf it does not sweep (cpuidwrt.c:70 and :88), and that call never sets ECX. For a leaf indexed by subleaf, such as 07H, 0FH, 10H, 12H, 14H, 17H or 18H, the recorded subleaf-0 entry is the answer for whatever ECX held, while `CaptureData` passes 0 (cpuid_capture.go:60). The model records the subleaf-0 answer.
- `Writer.WriterMain`: the writer ignores the return value of `__get_cpuid(0x80000000, ...)` (cpuidwrt.c:76). When that leaf is above the processor's extended maximum, the call fails and `maxExtended` is uninitialised. The model takes EAX of leaf 8000_0000H as the maximum.
- `Writer.Append`: `malloc`/`realloc` failure and the exit on out-of-memory are not modelled.
- `GotEnoughCores` is not modelled. It queries the live processor, and it calls `GetMaxFunctions` without the arguments that cpuid.go declares.
- `writers/16bit/cpuidwrt.c` is not modelled. It relies on platform-defined 16-bit truncation and an external assembly routine, and it deliberately emits a trailing comma.
- `writers/32bit/c/cpuidwriter.c` is not modelled. It is one query plus a binary write.
- `cpuidcmd/main.go` and every printing path of the older front end are not modelled. This includes its cache, TLB and hybrid printouts and its per-set loop in `printProcessorInfo`.
- The older front end's cache loop is not modelled. It stops on type 0 only, unlike the library's walk.
- The nil-versus-empty distinction of Go slices is not modelled: both are the empty sequence.

## Findings

| source | as written | input that shows it | evidently intended | confidence | as-written member | corrected member |
|---|---|---|---|---|---|---|
| cpuidcmd/oldapp/main.go:312 | family + (extended family << 4), for every family | EAX 00100F00H (family 0FH, extended family 1) shows family 1FH instead of 10H | family + extended family, for family 0FH only, as in the same file's lines 74-77 and in the library | high, not executed | OldApp.FamilyTenDiverges | Identity.EffectiveFamily |
| cpuidcmd/oldapp/main.go:311 | model + (extended model << 4), for every family | EAX 00010500H (family 5, extended model 1) shows model 10H instead of 0 | extended model added only for families 6 and 0FH, as in lines 69-72 and in the library | medium, not executed | OldApp.ModelFiveDiverges | Identity.EffectiveModel |

=== FILE: arm.dfy ===
/** The ARM identification of `cpuid_arm.go`: the fields of the Main ID
    Register (MIDR) that the ARM build reads in place of leaf 0, the text
    `GetVendorID` makes of them, the implementer names of `GetVendorName`
    and the `isARM` test. The register read itself is the source `q`
    queried at (0, 0). */
module Arm {
  import opened Types
  import opened Text
  import Numerals
  import Identity
  import Cache

  /** `GetMaxFunctions` on ARM: no leaf enumeration, so fixed values. */
  const ArmMaxFunctions: (u32, u32) := (1, 0)

  /** With these maxima every extended-leaf decoder reports nothing and the
      leaf-04H cache walk does not run: the brand string is empty and both
      cache lists are empty, whatever the source answers. */
  lemma ArmReportsNoLeafData(q: Source)
    ensures Identity.BrandString(q, ArmMaxFunctions.1) == ""
    ensures Cache.AmdCaches(q, ArmMaxFunctions.1) == Returns([])
    ensures Cache.IntelCaches(q, ArmMaxFunctions.0) == Returns([])
  {
  }

  // ---------------------------------------------------------------------
  // MIDR fields

  datatype Midr = Midr(implementer: bv32, variant: bv32, arch: bv32, part: bv32, revision: bv32)

  /** Field widths: 8 bits implementer, 12 bits part, 4 bits the others. */
  predicate ValidMidr(m: Midr)
  {
    m.implementer < 0x100 && m.variant < 0x10 && m.arch < 0x10 && m.part < 0x1000 && m.revision < 0x10
  }

  /** Bits 24-31 implementer, 20-23 variant, 16-19 architecture, 4-15 part
      number, 0-3 revision. */
  function DecodeMidr(a: bv32): (m: Midr)
    ensures ValidMidr(m)
  {
    Midr((a >> 24) & 0xFF, (a >> 20) & 0xF, (a >> 16) & 0xF, (a >> 4) & 0xFFF, a & 0xF)
  }

  /** The register with the given fields. */
  function EncodeMidr(m: Midr): bv32
  {
    (m.implementer << 24) | (m.variant << 20) | (m.arch << 16) | (m.part << 4) | m.revision
  }

  lemma MidrRoundTrip(m: Midr)
    requires ValidMidr(m)
    ensures DecodeMidr(EncodeMidr(m)) == m
  {
  }

  /** The five fields cover the register: decoding loses no bit. */
  lemma MidrKeepsAllBits(a: bv32)
    ensures EncodeMidr(DecodeMidr(a)) == a
  {
  }

  // ---------------------------------------------------------------------
  // The field text, "Implementer: 0x41, Variant: 0x0, ..."

  /** A label, then a field as `%X`, then `rest`. */
  function HexField(lit: string, x: bv32, rest: string): string
  {
    Numerals.Labelled(lit, ToU32(x), 16, rest)
  }

  const ImplementerLabel := "Implementer: 0x"
  const VariantLabel := ", Variant: 0x"
  const ArchLabel := ", Arch: 0x"
  const PartLabel := ", Part: 0x"
  const RevLabel := ", Rev: 0x"

  /** The five labelled fields in order, then `end`. */
  function MidrWith(m: Midr, end: string): string
  {
    HexField(ImplementerLabel, m.implementer,
      HexField(VariantLabel, m.variant,
        HexField(ArchLabel, m.arch,
          HexField(PartLabel, m.part,
            HexField(RevLabel, m.revision, end)))))
  }

  /** The literal `lit`, then a 32-bit hexadecimal number. */
  function ReadHexField(lit: string, s: string): (r: Option<(bv32, string)>)
    ensures r.Some? ==> |r.value.1| < |s|
  {
    match Numerals.ReadLabelled(lit, s, 16)
    case Some((n, rest)) => if n <= MaxU32 then Some((n as bv32, rest)) else None
    case None => None
  }

  /** Reads the five labelled fields back, and returns what follows them. */
  function ReadMidr(s: string): Option<(Midr, string)>
  {
    var implementer := ReadHexField(ImplementerLabel, s);
    if implementer.None? then None else
    var variant := ReadHexField(VariantLabel, implementer.value.1);
    if variant.None? then None else
    var rest := ReadMidrLow(variant.value.1);
    if rest.None? then None else
    var (arch, part, revision, after) := rest.value;
    Some((Midr(implementer.value.0, variant.value.0, arch, part, revision), after))
  }

  /** The architecture, part and revision fields. */
  function ReadMidrLow(s: string): Option<(bv32, bv32, bv32, string)>
  {
    var arch := ReadHexField(ArchLabel, s);
    if arch.None? then None else
    var part := ReadHexField(PartLabel, arch.value.1);
    if part.None? then None else
    var revision := ReadHexField(RevLabel, part.value.1);
    if revision.None? then None else
    Some((arch.value.0, part.value.0, revision.value.0, revision.value.1))
  }

  lemma ReadHexFieldOf(lit: string, x: bv32, t: string)
    requires |t| == 0 || Numerals.DigitValue(t[0]) >= 16
    ensures ReadHexField(lit, HexField(lit, x, t)) == Some((x, t))
  {
    Numerals.ReadLabelledOf(lit, ToU32(x), 16, t);
  }

  /** A field followed by another field: the number stops where the next
      label begins. */
  lemma ReadThenField(lit: string, x: bv32, next: string, y: bv32, rest: string)
    requires |next| > 0 && Numerals.DigitValue(next[0]) >= 16
    ensures ReadHexField(lit, HexField(lit, x, HexField(next, y, rest))) == Some((x, HexField(next, y, rest)))
  {
    Numerals.LabelledStart(next, ToU32(y), 16, rest);
    ReadHexFieldOf(lit, x, HexField(next, y, rest));
  }

  /** The labels after the first start with a comma, which is no digit. */
  lemma LaterLabelsStartApart()
    ensures |VariantLabel| > 0 && Numerals.DigitValue(VariantLabel[0]) >= 16
    ensures |ArchLabel| > 0 && Numerals.DigitValue(ArchLabel[0]) >= 16
    ensures |PartLabel| > 0 && Numerals.DigitValue(PartLabel[0]) >= 16
    ensures |RevLabel| > 0 && Numerals.DigitValue(RevLabel[0]) >= 16
  {
    assert Numerals.DigitValue(',') >= 16;
  }

  lemma ReadMidrLowWith(m: Midr, t: string)
    requires |t| == 0 || Numerals.DigitValue(t[0]) >= 16
    ensures ReadMidrLow(HexField(ArchLabel, m.arch, HexField(PartLabel, m.part, HexField(RevLabel, m.revision, t))))
            == Some((m.arch, m.part, m.revision, t))
  {
    LaterLabelsStartApart();
    ReadThenField(ArchLabel, m.arch, PartLabel, m.part, HexField(RevLabel, m.revision, t));
    ReadThenField(PartLabel, m.part, RevLabel, m.revision, t);
    ReadHexFieldOf(RevLabel, m.revision, t);
  }

  /** The field text reads back as the fields, whatever follows that does
      not start with a hexadecimal digit. */
  lemma ReadMidrWith(m: Midr, t: string)
    requires |t| == 0 || Numerals.DigitValue(t[0]) >= 16
    ensures ReadMidr(MidrWith(m, t)) == Some((m, t))
  {
    var t2 := HexField(ArchLabel, m.arch, HexField(PartLabel, m.part, HexField(RevLabel, m.revision, t)));
    LaterLabelsStartApart();
    ReadThenField(ImplementerLabel, m.implementer, VariantLabel, m.variant, t2);
    ReadThenField(VariantLabel, m.variant, ArchLabel, m.arch, HexField(PartLabel, m.part, HexField(RevLabel, m.revision, t)));
    ReadMidrLowWith(m, t);
  }

  /** `GetVendorID`: the text of the five MIDR fields; it reads back as
      exactly those fields, with nothing after them. */
  function VendorId(q: Source): (s: string)
    ensures ReadMidr(s) == Some((DecodeMidr(q(0, 0).a), ""))
  {
    var m := DecodeMidr(q(0, 0).a);
    ReadMidrWith(m, "");
    MidrWith(m, "")
  }

  // ---------------------------------------------------------------------
  // Vendor names

  /** The implementer codes `GetVendorName` knows, with their names. */
  const Implementers: seq<(bv32, string)> := [
    (0x41, "ARM Ltd."), (0x42, "Broadcom"), (0x43, "Cavium"), (0x44, "DEC"),
    (0x4E, "NVIDIA"), (0x50, "APM"), (0x51, "Qualcomm"), (0x56, "Marvell")
  ]

  predicate KnownImplementer(code: bv32)
  {
    exists k | 0 <= k < |Implementers| :: Implementers[k].0 == code
  }

  /** Part D03H of implementer 41H is taken for Apple silicon. */
  predicate IsApple(m: Midr)
  {
    m.implementer == 0x41 && m.part == 0xD03
  }

  const UnknownPrefix := "Unknown ("

  /** The name the implementer table gives a code, if any. */
  function ImplementerName(code: bv32): Option<string>
  {
    match code
    case 0x41 => Some("ARM Ltd.")
    case 0x42 => Some("Broadcom")
    case 0x43 => Some("Cavium")
    case 0x44 => Some("DEC")
    case 0x4E => Some("NVIDIA")
    case 0x50 => Some("APM")
    case 0x51 => Some("Qualcomm")
    case 0x56 => Some("Marvell")
    case _ => None
  }

  /** The `switch` agrees with the table: a name exactly for the listed
      codes, and the listed name. */
  lemma ImplementerNameIsTable(code: bv32)
    ensures ImplementerName(code).Some? <==> KnownImplementer(code)
    ensures forall k | 0 <= k < |Implementers| && Implementers[k].0 == code :: ImplementerName(code) == Some(Implementers[k].1)
  {
    if ImplementerName(code).Some? {
      var k := if code == 0x41 then 0 else if code == 0x42 then 1 else if code == 0x43 then 2 else if code == 0x44 then 3
               else if code == 0x4E then 4 else if code == 0x50 then 5 else if code == 0x51 then 6 else 7;
      assert Implementers[k].0 == code;
    }
  }

  /** The unknown-implementer name: the prefix, the field text, ")". */
  function UnknownName(m: Midr): (name: string)
    ensures UnknownPrefix <= name && ReadMidr(name[|UnknownPrefix|..]) == Some((m, ")"))
  {
    assert Numerals.DigitValue(')') >= 16;
    ReadMidrWith(m, ")");
    var name := UnknownPrefix + MidrWith(m, ")");
    assert name[|UnknownPrefix|..] == MidrWith(m, ")");
    name
  }

  /** `GetVendorName`: "Apple" first, then the implementer table, otherwise
      "Unknown (" followed by the field text and ")". */
  function VendorName(q: Source): (name: string)
    ensures var m := DecodeMidr(q(0, 0).a);
            && (name == "Apple" <==> IsApple(m))
            && (forall k | 0 <= k < |Implementers| && Implementers[k].0 == m.implementer && !IsApple(m) ::
                  name == Implementers[k].1)
            && (!KnownImplementer(m.implementer) ==>
                  && UnknownPrefix <= name
                  && ReadMidr(name[|UnknownPrefix|..]) == Some((m, ")")))
  {
    var m := DecodeMidr(q(0, 0).a);
    ImplementerNameIsTable(m.implementer);
    ImplementerNameIsTable(0x41);
    if IsApple(m) then "Apple"
    else
      match ImplementerName(m.implementer)
      case Some(name) =>
        assert name != "Apple";
        name
      case None => UnknownName(m)
  }

  /** `isARM`: the upper-cased vendor name mentions ARM or Apple. */
  predicate IsArm(q: Source)
  {
    var name := ToUpper(VendorName(q));
    Contains(name, "ARM") || Contains(name, "APPLE")
  }

  /** Implementer 41H counts as ARM whichever name it gets, "Apple" or
      "ARM Ltd.". */
  lemma ArmImplementerIsArm(q: Source)
    requires DecodeMidr(q(0, 0).a).implementer == 0x41
    ensures IsArm(q)
  {
    var m := DecodeMidr(q(0, 0).a);
    var name := VendorName(q);
    if IsApple(m) {
      assert ToUpper(name) == "APPLE";
      ContainsPrefix(ToUpper(name), "APPLE");
    } else {
      ImplementerNameIsTable(0x41);
      assert name == "ARM Ltd.";
      assert ToUpper(name)[..3] == "ARM";
      ContainsPrefix(ToUpper(name), "ARM");
    }
  }

  /** Conversely, no other implementer counts as ARM: no other table name
      and no "Unknown (...)" text, whose fields are upper-case hexadecimal
      between fixed labels, contains "ARM" or "APPLE" once upper-cased. */
  lemma OnlyImplementer41IsArm(q: Source)
    ensures IsArm(q) <==> DecodeMidr(q(0, 0).a).implementer == 0x41
  {
    var m := DecodeMidr(q(0, 0).a);
    if m.implementer == 0x41 {
      ArmImplementerIsArm(q);
    } else {
      var name := VendorName(q);
      NameAvoidsPairs(m, name);
      NoPairNotContains(name, "ARM");
      NoPairNotContains(name, "APPLE");
    }
  }

  /** Upper-cased, the characters at `i` and `i + 1` are "RM" or "PP", a
      pair that "ARM" and "APPLE" each hold. */
  predicate PairAt(s: string, i: nat)
    requires i + 1 < |s|
  {
    (UpperChar(s[i]) == 'R' && UpperChar(s[i + 1]) == 'M') || (UpperChar(s[i]) == 'P' && UpperChar(s[i + 1]) == 'P')
  }

  predicate AvoidsArmPairs(s: string)
  {
    forall i: nat | i + 1 < |s| :: !PairAt(s, i)
  }

  /** The same check position by position, which the verifier evaluates
      on a literal. */
  predicate AvoidsFrom(s: string, i: nat)
    decreases |s| - i
  {
    i + 1 >= |s| || (!PairAt(s, i) && AvoidsFrom(s, i + 1))
  }

  lemma {:induction false} AvoidsFromAll(s: string, i: nat)
    requires AvoidsFrom(s, i)
    ensures forall j: nat | i <= j && j + 1 < |s| :: !PairAt(s, j)
    decreases |s| - i
  {
    if i + 1 < |s| {
      AvoidsFromAll(s, i + 1);
    }
  }

  lemma NoPairNotContains(s: string, sub: string)
    requires AvoidsArmPairs(s) && (sub == "ARM" || sub == "APPLE")
    ensures !Contains(ToUpper(s), sub)
  {
    if Contains(ToUpper(s), sub) {
      var u := ToUpper(s);
      var i :| 0 <= i <= |u| - |sub| && OccursAt(u, sub, i);
      assert u[i + 1] == u[i..i + |sub|][1] == sub[1];
      assert u[i + 2] == u[i..i + |sub|][2] == sub[2];
      assert PairAt(s, i + 1);
    }
  }

  /** Neither "R" nor "P" ends `s` once upper-cased, so no pair straddles
      the join. */
  predicate EndsApart(s: string)
  {
    |s| > 0 && UpperChar(s[|s| - 1]) != 'R' && UpperChar(s[|s| - 1]) != 'P'
  }

  lemma JoinAvoids(a: string, b: string)
    requires AvoidsArmPairs(a) && AvoidsArmPairs(b) && EndsApart(a)
    ensures AvoidsArmPairs(a + b)
  {
    var s := a + b;
    forall i: nat | i + 1 < |s| ensures !PairAt(s, i) {
      if i + 1 < |a| {
        assert s[i] == a[i] && s[i + 1] == a[i + 1];
        assert !PairAt(a, i);
      } else if i + 1 == |a| {
        assert s[i] == a[|a| - 1];
      } else {
        assert s[i] == b[i - |a|] && s[i + 1] == b[i + 1 - |a|];
        assert !PairAt(b, i - |a|);
      }
    }
  }

  /** A hexadecimal numeral holds no letter beyond F. */
  lemma NumeralAvoids(x: bv32)
    ensures AvoidsArmPairs(Numerals.Numeral(ToU32(x), 16)) && EndsApart(Numerals.Numeral(ToU32(x), 16))
  {
    var d := Numerals.Numeral(ToU32(x), 16);
    forall i | 0 <= i < |d| ensures UpperChar(d[i]) != 'R' && UpperChar(d[i]) != 'P' {
      assert Numerals.DigitValue(d[i]) < 16;
    }
  }

  lemma HexFieldAvoids(lit: string, x: bv32, rest: string)
    requires AvoidsArmPairs(lit) && EndsApart(lit) && AvoidsArmPairs(rest)
    ensures AvoidsArmPairs(HexField(lit, x, rest))
  {
    var d := Numerals.Numeral(ToU32(x), 16);
    NumeralAvoids(x);
    JoinAvoids(d, rest);
    JoinAvoids(lit, d + rest);
    assert HexField(lit, x, rest) == lit + (d + rest);
  }

  /** The fixed labels of the unknown-implementer text. */
  lemma LabelsAvoid()
    ensures AvoidsArmPairs(UnknownPrefix) && AvoidsArmPairs(ImplementerLabel) && AvoidsArmPairs(VariantLabel)
    ensures EndsApart(UnknownPrefix) && EndsApart(ImplementerLabel) && EndsApart(VariantLabel)
    ensures AvoidsArmPairs(ArchLabel) && AvoidsArmPairs(PartLabel) && AvoidsArmPairs(RevLabel)
    ensures EndsApart(ArchLabel) && EndsApart(PartLabel) && EndsApart(RevLabel)
    ensures AvoidsArmPairs(")")
  {
    FirstLabelsAvoid();
    LaterLabelsAvoid();
  }

  lemma FirstLabelsAvoid()
    ensures AvoidsArmPairs(UnknownPrefix) && AvoidsArmPairs(ImplementerLabel) && AvoidsArmPairs(VariantLabel)
    ensures EndsApart(UnknownPrefix) && EndsApart(ImplementerLabel) && EndsApart(VariantLabel)
  {
    AvoidsFromAll(UnknownPrefix, 0);
    AvoidsFromAll(ImplementerLabel, 0);
    AvoidsFromAll(VariantLabel, 0);
  }

  lemma LaterLabelsAvoid()
    ensures AvoidsArmPairs(ArchLabel) && AvoidsArmPairs(PartLabel) && AvoidsArmPairs(RevLabel)
    ensures EndsApart(ArchLabel) && EndsApart(PartLabel) && EndsApart(RevLabel)
    ensures AvoidsArmPairs(")")
  {
    AvoidsFromAll(ArchLabel, 0);
    AvoidsFromAll(PartLabel, 0);
    AvoidsFromAll(RevLabel, 0);
  }

  /** The table names other than those of implementer 41H. */
  lemma TableNamesAvoid()
    ensures AvoidsArmPairs("Broadcom") && AvoidsArmPairs("Cavium") && AvoidsArmPairs("DEC")
    ensures AvoidsArmPairs("NVIDIA") && AvoidsArmPairs("APM") && AvoidsArmPairs("Qualcomm")
    ensures AvoidsArmPairs("Marvell")
  {
    AvoidsFromAll("Broadcom", 0);
    AvoidsFromAll("Cavium", 0);
    AvoidsFromAll("DEC", 0);
    AvoidsFromAll("NVIDIA", 0);
    AvoidsFromAll("APM", 0);
    AvoidsFromAll("Qualcomm", 0);
    AvoidsFromAll("Marvell", 0);
  }

  /** Every name but those of implementer 41H avoids both pairs. */
  lemma NameAvoidsPairs(m: Midr, name: string)
    requires m.implementer != 0x41
    requires name == (match ImplementerName(m.implementer) case Some(n) => n case None => UnknownName(m))
    ensures AvoidsArmPairs(name)
  {
    if ImplementerName(m.implementer).None? {
      LabelsAvoid();
      var rev := HexField(RevLabel, m.revision, ")");
      var part := HexField(PartLabel, m.part, rev);
      var arch := HexField(ArchLabel, m.arch, part);
      var variant := HexField(VariantLabel, m.variant, arch);
      HexFieldAvoids(RevLabel, m.revision, ")");
      HexFieldAvoids(PartLabel, m.part, rev);
      HexFieldAvoids(ArchLabel, m.arch, part);
      HexFieldAvoids(VariantLabel, m.variant, arch);
      HexFieldAvoids(ImplementerLabel, m.implementer, variant);
      JoinAvoids(UnknownPrefix, MidrWith(m, ")"));
    } else {
      TableNamesAvoid();
    }
  }
}

=== FILE: cache.dfy ===
/** Cache enumeration (`cpuid_cache.go`): the bit-field decode of one
    deterministic-cache-parameters subleaf, which has the same layout in
    Intel leaf 04H (Intel SDM Volume 2A, CPUID) and AMD leaf 8000_001DH
    (AMD64 Architecture Programmer's Manual Volume 3, appendix E); the
    subleaf loop that stops at the first subleaf whose type is not a cache;
    and the dispatch on the vendor identification string. */
module Cache {
  import opened Types
  import opened Text
  import Sweep

  const IntelCacheLeaf: u32 := 4
  const AmdCacheLeaf: u32 := 0x8000_001D

  /** `getCacheTypeString`. */
  function CacheTypeName(code: bv32): (name: string)
    ensures name == "Data" <==> code == 1
    ensures name == "Instruction" <==> code == 2
    ensures name == "Unified" <==> code == 3
    ensures name == "Unknown" <==> code == 0 || code > 3
  {
    if code == 1 then "Data"
    else if code == 2 then "Instruction"
    else if code == 3 then "Unified"
    else "Unknown"
  }

  /** The write-policy text of EAX bits 10-11. */
  function WritePolicyName(code: bv32): (name: string)
    requires code < 4
    ensures name == "Write Back" <==> code == 0
    ensures name == "Write Through" <==> code == 1
    ensures name == "Write Protected" <==> code == 2
    ensures name == "Unknown" <==> code == 3
  {
    if code == 0 then "Write Back"
    else if code == 1 then "Write Through"
    else if code == 2 then "Write Protected"
    else "Unknown"
  }

  /** `CPUCacheInfo`. */
  datatype CacheInfo = CacheInfo(level: bv32, cacheType: string, sizeKB: u32, ways: bv32, lineSizeBytes: bv32,
                                 totalSets: bv32, maxCoresSharing: bv32, selfInitializing: bool,
                                 fullyAssociative: bool, maxProcessorIds: bv32, writePolicy: string)

  /** EBX bits 12-21 plus one: the physical line partitions. */
  function Partitions(r: Regs): (p: int)
    ensures 1 <= p <= 1024
  {
    ((r.b >> 12) & 0x3FF) as int + 1
  }

  /** The product of four 32-bit factors as Go's `uint32` multiplication
      gives it: reduced modulo 2^32. */
  function WrappedProduct(w: int, x: int, y: int, z: int): (p: int)
    ensures 0 <= p < 0x1_0000_0000
  {
    w * x * y * z % 0x1_0000_0000
  }

  /** `GetCPUCacheDetails` applied to the registers of one subleaf. */
  function DecodeCache(r: Regs): (c: CacheInfo)
    ensures c.level <= 7
    ensures c.cacheType == CacheTypeName(r.a & 0x1F)
    ensures 1 <= c.lineSizeBytes <= 4096 && 1 <= c.ways <= 1024
    ensures 1 <= c.maxCoresSharing <= 4096 && 1 <= c.maxProcessorIds <= 64
    ensures c.selfInitializing <==> r.a & 0x100 != 0
    ensures c.fullyAssociative <==> r.a & 0x200 != 0
    ensures c.writePolicy == WritePolicyName((r.a >> 10) & 3)
    ensures c.totalSets == 0 <==> r.c == 0xFFFF_FFFF
    ensures c.sizeKB < 0x40_0000
    ensures c.sizeKB
              == WrappedProduct(c.lineSizeBytes as int, Partitions(r), c.ways as int, c.totalSets as int) / 1024
  {
    var a := r.a;
    var b := r.b;
    var line, ways, sets := (b & 0xFFF) + 1, ((b >> 22) & 0x3FF) + 1, r.c + 1;
    CacheInfo(
      level := (a >> 5) & 0x7,
      cacheType := CacheTypeName(a & 0x1F),
      sizeKB := WrappedProduct(line as int, Partitions(r), ways as int, sets as int) / 1024,
      ways := ways,
      lineSizeBytes := line,
      totalSets := sets,
      maxCoresSharing := ((a >> 14) & 0xFFF) + 1,
      selfInitializing := (a >> 8) & 1 != 0,
      fullyAssociative := (a >> 9) & 1 != 0,
      maxProcessorIds := ((a >> 26) & 0x3F) + 1,
      writePolicy := WritePolicyName((a >> 10) & 0x3))
  }

  /** The structural fields a subleaf describes, each as reported (counts
      minus one, as the leaf stores them). */
  datatype Geometry = Geometry(typeCode: bv32, level: bv32, selfInit: bool, fullyAssoc: bool, policy: bv32,
                               coresMinus1: bv32, idsMinus1: bv32, lineMinus1: bv32, partitionsMinus1: bv32,
                               waysMinus1: bv32, setsMinus1: bv32)

  predicate ValidGeometry(g: Geometry)
  {
    && g.typeCode < 0x20 && g.level < 8 && g.policy < 4 && g.coresMinus1 < 0x1000 && g.idsMinus1 < 0x40
    && g.lineMinus1 < 0x1000 && g.partitionsMinus1 < 0x400 && g.waysMinus1 < 0x400
  }

  /** The registers of a subleaf with geometry `g`. EAX bits 12-13 are
      taken from `spare` and EDX is `d`; the decoder reads neither. */
  function GeometryRegs(g: Geometry, spare: bv32, d: bv32): Regs
  {
    var a := g.typeCode | (g.level << 5) | (if g.selfInit then 0x100 else 0) | (if g.fullyAssoc then 0x200 else 0)
             | (g.policy << 10) | (spare & 0x3000) | (g.coresMinus1 << 14) | (g.idsMinus1 << 26);
    var b := g.lineMinus1 | (g.partitionsMinus1 << 12) | (g.waysMinus1 << 22);
    Regs(a, b, g.setsMinus1, d)
  }

  lemma EaxRoundTrip(g: Geometry, spare: bv32, d: bv32)
    requires ValidGeometry(g)
    ensures var a := GeometryRegs(g, spare, d).a;
            && a & 0x1F == g.typeCode && (a >> 5) & 7 == g.level
            && (a & 0x100 != 0 <==> g.selfInit) && (a & 0x200 != 0 <==> g.fullyAssoc)
            && (a >> 10) & 3 == g.policy && (a >> 14) & 0xFFF == g.coresMinus1 && (a >> 26) & 0x3F == g.idsMinus1
  {
  }

  lemma EbxRoundTrip(g: Geometry, spare: bv32, d: bv32)
    requires ValidGeometry(g)
    ensures var b := GeometryRegs(g, spare, d).b;
            b & 0xFFF == g.lineMinus1 && (b >> 12) & 0x3FF == g.partitionsMinus1 && (b >> 22) & 0x3FF == g.waysMinus1
  {
  }

  /** Decoding recovers every structural field of the subleaf: each count
      is the stored value plus one, whatever EAX bits 12-13 and EDX hold. */
  lemma GeometryRoundTrip(g: Geometry, spare: bv32, d: bv32)
    requires ValidGeometry(g)
    ensures var c := DecodeCache(GeometryRegs(g, spare, d));
            && c.level == g.level && c.cacheType == CacheTypeName(g.typeCode)
            && c.selfInitializing == g.selfInit && c.fullyAssociative == g.fullyAssoc
            && c.writePolicy == WritePolicyName(g.policy)
            && c.maxCoresSharing == g.coresMinus1 + 1 && c.maxProcessorIds == g.idsMinus1 + 1
            && c.lineSizeBytes == g.lineMinus1 + 1 && c.ways == g.waysMinus1 + 1
            && c.totalSets == g.setsMinus1 + 1
            && c.sizeKB == WrappedProduct((g.lineMinus1 + 1) as int, g.partitionsMinus1 as int + 1,
                                          (g.waysMinus1 + 1) as int, (g.setsMinus1 + 1) as int) / 1024
  {
    EaxRoundTrip(g, spare, d);
    EbxRoundTrip(g, spare, d);
    assert Partitions(GeometryRegs(g, spare, d)) == g.partitionsMinus1 as int + 1;
  }

  /** A 32 KB, 8-way, 64-byte-line level-1 data cache with 64 sets. */
  lemma ThirtyTwoKilobytes()
    ensures var c := DecodeCache(Regs(0x21, 0x01C0_003F, 63, 0));
            c.cacheType == "Data" && c.level == 1 && c.lineSizeBytes == 64 && c.ways == 8
            && c.totalSets == 64 && c.sizeKB == 32
  {
  }

  // ---------------------------------------------------------------------
  // Enumeration

  /** The loops of `GetAMDCache` and `GetIntelCache` stop at the first
      subleaf (subleaf 0 included) whose type decodes to "Unknown". */
  const CacheStop: (u32, Regs) -> bool := (s: u32, r: Regs) => CacheTypeName(r.a & 0x1F) == "Unknown"

  predicate IsCache(r: Regs)
  {
    CacheTypeName(r.a & 0x1F) != "Unknown"
  }

  lemma CacheStops(q: Source, leaf: u32)
    ensures forall s: u32 :: Sweep.StopsAt(q, leaf, CacheStop, s) <==> !IsCache(q(leaf, s))
  {
  }

  /** The subleaf loop over one cache leaf: the decoded subleaves 0, 1, ...
      before the first one that is not a data, instruction or unified
      cache; `Diverges` when every subleaf is one. */
  function Enumerate(q: Source, leaf: u32): (r: Run<seq<CacheInfo>>)
    ensures r.Diverges? <==> forall s: u32 :: IsCache(q(leaf, s))
    ensures r.Returns? ==>
              && |r.value| <= MaxU32
              && !IsCache(q(leaf, |r.value|))
              && forall k | 0 <= k < |r.value| :: r.value[k] == DecodeCache(q(leaf, k)) && IsCache(q(leaf, k))
    ensures r.Returns? ==> forall k | 0 <= k < |r.value| :: r.value[k].cacheType in {"Data", "Instruction", "Unified"}
  {
    CacheScan(q, leaf);
    match Sweep.Scan(q, leaf, CacheStop, 0)
    case Diverges => Diverges
    case Returns(rows) => Returns(DecodeRows(q, leaf, |rows|))
  }

  /** The subleaf scan of a cache leaf, stated with `IsCache`. */
  lemma CacheScan(q: Source, leaf: u32)
    ensures Sweep.Scan(q, leaf, CacheStop, 0).Diverges? <==> forall s: u32 :: IsCache(q(leaf, s))
    ensures Sweep.Scan(q, leaf, CacheStop, 0).Returns? ==>
              var n := |Sweep.Scan(q, leaf, CacheStop, 0).value|;
              && n <= MaxU32 && !IsCache(q(leaf, n))
              && forall k: u32 | k < n :: IsCache(q(leaf, k))
  {
    Sweep.ScanFromZero(q, leaf, CacheStop);
    CacheStops(q, leaf);
  }

  /** The decoded subleaves 0 to `n - 1` of one leaf, in order. */
  function DecodeRows(q: Source, leaf: u32, n: nat): (r: seq<CacheInfo>)
    requires n <= MaxU32 && forall k: u32 | k < n :: IsCache(q(leaf, k))
    ensures |r| == n
    ensures forall k | 0 <= k < n :: r[k] == DecodeCache(q(leaf, k)) && r[k].cacheType in {"Data", "Instruction", "Unified"}
  {
    KnownCacheTypes(q, leaf, n);
    seq(n, (k: int) requires 0 <= k < n => DecodeCache(q(leaf, k)))
  }

  lemma KnownCacheTypes(q: Source, leaf: u32, n: nat)
    requires n <= MaxU32 && forall k: u32 | k < n :: IsCache(q(leaf, k))
    ensures forall k: u32 | k < n :: DecodeCache(q(leaf, k)).cacheType in {"Data", "Instruction", "Unified"}
  {
    forall k: u32 | k < n ensures DecodeCache(q(leaf, k)).cacheType in {"Data", "Instruction", "Unified"} {
      var name := DecodeCache(q(leaf, k)).cacheType;
      assert name != "Unknown";
      assert name == "Data" || name == "Instruction" || name == "Unified";
    }
  }

  /** `GetAMDCache`: nothing when leaf 8000_001DH is not implemented. */
  function AmdCaches(q: Source, maxExtFunc: u32): (r: Run<seq<CacheInfo>>)
    ensures maxExtFunc < AmdCacheLeaf ==> r == Returns([])
    ensures maxExtFunc >= AmdCacheLeaf ==> r == Enumerate(q, AmdCacheLeaf)
  {
    if maxExtFunc < AmdCacheLeaf then Returns([]) else Enumerate(q, AmdCacheLeaf)
  }

  /** `GetIntelCache`: nothing when leaf 04H is not implemented. */
  function IntelCaches(q: Source, maxFunc: u32): (r: Run<seq<CacheInfo>>)
    ensures maxFunc < IntelCacheLeaf ==> r == Returns([])
    ensures maxFunc >= IntelCacheLeaf ==> r == Enumerate(q, IntelCacheLeaf)
  {
    if maxFunc < IntelCacheLeaf then Returns([]) else Enumerate(q, IntelCacheLeaf)
  }

  // ---------------------------------------------------------------------
  // Vendor dispatch

  predicate NamesAmd(vendorId: string)
  {
    Contains(ToUpper(vendorId), "AMD")
  }

  predicate NamesIntel(vendorId: string)
  {
    Contains(ToUpper(vendorId), "INTEL")
  }

  const UnsupportedVendor := "Unknown/Unsupported CPU vendor"

  /** `GetCacheInfo`: the caches and the error, if any. A vendor string
      naming AMD wins over one naming Intel; one naming neither yields no
      caches and an error, without querying either cache leaf. */
  function CacheInfoOf(q: Source, maxFunc: u32, maxExtFunc: u32, vendorId: string)
    : (r: Run<(seq<CacheInfo>, Option<string>)>)
    ensures NamesAmd(vendorId) ==>
              r == match AmdCaches(q, maxExtFunc) { case Diverges => Diverges case Returns(cs) => Returns((cs, None)) }
    ensures !NamesAmd(vendorId) && NamesIntel(vendorId) ==>
              r == match IntelCaches(q, maxFunc) { case Diverges => Diverges case Returns(cs) => Returns((cs, None)) }
    ensures !NamesAmd(vendorId) && !NamesIntel(vendorId) ==> r == Returns(([], Some(UnsupportedVendor)))
    ensures r.Returns? && r.value.1.Some? ==> r.value.0 == []
  {
    if NamesAmd(vendorId) then
      match AmdCaches(q, maxExtFunc)
      case Diverges => Diverges
      case Returns(cs) => Returns((cs, None))
    else if NamesIntel(vendorId) then
      match IntelCaches(q, maxFunc)
      case Diverges => Diverges
      case Returns(cs) => Returns((cs, None))
    else Returns(([], Some(UnsupportedVendor)))
  }

  /** "AMD" does not occur in the upper-cased Intel identification string,
      and "INTEL" does: an Intel part takes the Intel path. */
  lemma IntelDispatch()
    ensures !NamesAmd("GenuineIntel") && NamesIntel("GenuineIntel")
  {
    var u := ToUpper("GenuineIntel");
    assert u == "GENUINEINTEL";
    assert OccursAt(u, "INTEL", 7);
    forall i | 0 <= i <= |u| - 3 ensures !OccursAt(u, "AMD", i) {
      assert u[i] != 'A';
    }
  }

  /** An AMD part takes the AMD path. */
  lemma AmdDispatch()
    ensures NamesAmd("AuthenticAMD")
  {
    var u := ToUpper("AuthenticAMD");
    assert u == "AUTHENTICAMD";
    assert OccursAt(u, "AMD", 9);
  }
}

=== FILE: capture.dfy ===
/** The snapshot capture sweep of `CaptureData` (`cpuid_capture.go`),
    whose leaf order and stop tests the 32-bit C writer
    (`writers/32bit/cpuidwrt.c`) follows: every standard leaf from 0 to the maximum of leaf 0, then every
    extended leaf from 8000_0000H to the maximum of leaf 8000_0000H. Leaves
    04H, 0BH and 0DH (standard) and 8000_001DH (extended) are swept over
    their subleaves until a leaf-specific stop test holds; every other leaf
    is recorded once, at subleaf 0.

    The leaf counters are 32-bit unsigned with `<=` as the loop test: a
    maximum of 2^32 - 1 makes the loop wrap and run forever, which the
    model reports as `Diverges`. */
module Capture {
  import opened Types
  import Sweep
  import RegisterSource

  /** Whether a leaf is swept over its subleaves: in the standard sweep
      leaves 04H, 0BH and 0DH, in the extended sweep leaf 8000_001DH. */
  predicate Iterated(extended: bool, leaf: u32)
  {
    if extended then leaf == 0x8000_001D else leaf == 4 || leaf == 0xB || leaf == 0xD
  }

  /** The stop tests, none of which applies at subleaf 0: leaves 04H and
      8000_001DH stop when EAX bits 0-4 (the cache type) are 0, leaf 0BH
      when EAX is 0, leaf 0DH when all four registers are 0. */
  predicate Stop(leaf: u32, s: u32, r: Regs)
  {
    s > 0 &&
    if leaf == 4 || leaf == 0x8000_001D then r.a & 0x1F == 0
    else if leaf == 0xB then r.a == 0
    else r.a == 0 && r.b == 0 && r.c == 0 && r.d == 0
  }

  function StopRule(leaf: u32): (u32, Regs) -> bool
  {
    (s: u32, r: Regs) => Stop(leaf, s, r)
  }

  lemma StopRuleMeaning(q: Source, leaf: u32)
    ensures forall s: u32 :: Sweep.StopsAt(q, leaf, StopRule(leaf), s) <==> Stop(leaf, s, q(leaf, s))
  {
  }

  /** The entries one leaf contributes. Subleaf 0 is always recorded; a
      swept leaf records subleaves 0, 1, ... up to (not including) the
      first one that meets its stop test. */
  function LeafRows(q: Source, leaf: u32, extended: bool): (r: Run<seq<Entry>>)
    ensures r.Returns? ==>
              && 1 <= |r.value| <= MaxU32
              && forall k | 0 <= k < |r.value| :: r.value[k] == Record(q, leaf, k)
    ensures !Iterated(extended, leaf) ==> r == Returns([Record(q, leaf, 0)])
    ensures Iterated(extended, leaf) ==>
              (r.Diverges? <==> forall s: u32 :: !Stop(leaf, s, q(leaf, s)))
    ensures Iterated(extended, leaf) && r.Returns? ==>
              && Stop(leaf, |r.value|, q(leaf, |r.value|))
              && forall k | 0 <= k < |r.value| :: !Stop(leaf, k, q(leaf, k))
  {
    if Iterated(extended, leaf) then
      Sweep.ScanFromZero(q, leaf, StopRule(leaf));
      StopRuleMeaning(q, leaf);
      var r := Sweep.Scan(q, leaf, StopRule(leaf), 0);
      if r.Returns? then
        assert |r.value| != 0;
        r
      else r
    else Returns([Record(q, leaf, 0)])
  }

  /** `a` is recorded before `b` in (leaf, subleaf) order. */
  predicate Before(a: Entry, b: Entry)
  {
    a.leaf < b.leaf || (a.leaf == b.leaf && a.subleaf < b.subleaf)
  }

  /** The leaf loop from `leaf` to `max`. */
  function LeafSweep(q: Source, leaf: u32, max: u32, extended: bool): (r: Run<seq<Entry>>)
    ensures r.Returns? ==> forall k | 0 <= k < |r.value| ::
              && r.value[k] == Record(q, r.value[k].leaf, r.value[k].subleaf)
              && leaf <= r.value[k].leaf <= max
    ensures r.Returns? ==> forall k | 0 <= k < |r.value| - 1 :: Before(r.value[k], r.value[k + 1])
    ensures r.Returns? && |r.value| > 0 ==> r.value[0].leaf == leaf
    ensures r.Returns? ==> SubleafZeroUnlessSwept(r.value, extended)
    ensures leaf > max ==> r == Returns([])
    decreases 0xFFFF_FFFF - leaf
  {
    if leaf > max then Returns([])
    else
      match LeafRows(q, leaf, extended)
      case Diverges => Diverges
      case Returns(rows) =>
        if leaf == MaxU32 then Diverges
        else
          match LeafSweep(q, leaf + 1, max, extended)
          case Diverges => Diverges
          case Returns(rest) =>
            JoinRows(q, leaf, max, rows, rest);
            assert SubleafZeroUnlessSwept(rows, extended);
            SubleafZeroAppend(rows, rest, extended);
            Returns(rows + rest)
  }

  /** The rows of one leaf, then those of the later leaves, keep the leaf
      loop's facts. */
  lemma JoinRows(q: Source, leaf: u32, max: u32, rows: seq<Entry>, rest: seq<Entry>)
    requires leaf < MaxU32 && leaf <= max
    requires 1 <= |rows| <= MaxU32 && forall k | 0 <= k < |rows| :: rows[k] == Record(q, leaf, k)
    requires forall k | 0 <= k < |rest| ::
               rest[k] == Record(q, rest[k].leaf, rest[k].subleaf) && leaf + 1 <= rest[k].leaf <= max
    requires forall k | 0 <= k < |rest| - 1 :: Before(rest[k], rest[k + 1])
    ensures var all := rows + rest;
            && (forall k | 0 <= k < |all| ::
                  && all[k] == Record(q, all[k].leaf, all[k].subleaf)
                  && leaf <= all[k].leaf <= max)
            && (forall k | 0 <= k < |all| - 1 :: Before(all[k], all[k + 1]))
            && all[0].leaf == leaf
  {
    var all := rows + rest;
    forall k | 0 <= k < |all| ensures all[k] == Record(q, all[k].leaf, all[k].subleaf) && leaf <= all[k].leaf <= max {
      if k >= |rows| { assert all[k] == rest[k - |rows|]; }
    }
    forall k | 0 <= k < |all| - 1 ensures Before(all[k], all[k + 1]) {
      if k + 1 < |rows| {
        assert all[k] == rows[k] && all[k + 1] == rows[k + 1];
      } else if k + 1 == |rows| {
        assert all[k + 1] == rest[0];
      } else {
        assert all[k] == rest[k - |rows|] && all[k + 1] == rest[k + 1 - |rows|];
      }
    }
  }

  /** One step of the leaf loop, when the loop ends. */
  lemma SweepStep(q: Source, leaf: u32, max: u32, extended: bool)
    requires leaf <= max && LeafSweep(q, leaf, max, extended).Returns?
    ensures leaf < MaxU32 && LeafRows(q, leaf, extended).Returns? && LeafSweep(q, leaf + 1, max, extended).Returns?
    ensures LeafSweep(q, leaf, max, extended).value
              == LeafRows(q, leaf, extended).value + LeafSweep(q, leaf + 1, max, extended).value
  {
  }

  lemma PresentInSuffix(a: seq<Entry>, b: seq<Entry>, leaf: u32, subleaf: u32)
    requires RegisterSource.Present(b, leaf, subleaf)
    ensures RegisterSource.Present(a + b, leaf, subleaf)
  {
    var k :| 0 <= k < |b| && RegisterSource.Matches(b[k], leaf, subleaf);
    assert (a + b)[|a| + k] == b[k];
  }

  /** The first entry of a leaf is its subleaf 0. */
  lemma LeafRowsStartAtZero(q: Source, leaf: u32, extended: bool)
    requires LeafRows(q, leaf, extended).Returns?
    ensures RegisterSource.Present(LeafRows(q, leaf, extended).value, leaf, 0)
  {
    assert RegisterSource.Matches(LeafRows(q, leaf, extended).value[0], leaf, 0);
  }

  /** Every leaf from `from` to `max` is recorded at subleaf 0. */
  predicate Covers(rows: seq<Entry>, from: int, max: int)
  {
    forall l: u32 | from <= l <= max :: RegisterSource.Present(rows, l, 0)
  }

  lemma CoversStep(rows: seq<Entry>, rest: seq<Entry>, leaf: u32, max: int)
    requires RegisterSource.Present(rows, leaf, 0)
    requires Covers(rest, leaf + 1, max)
    ensures Covers(rows + rest, leaf, max)
  {
    forall l: u32 | leaf <= l <= max ensures RegisterSource.Present(rows + rest, l, 0) {
      if l == leaf {
        PresentInPrefix(rows, rest, l, 0);
      } else {
        PresentInSuffix(rows, rest, l, 0);
      }
    }
  }

  lemma CoversSweepStep(q: Source, leaf: u32, max: u32, extended: bool)
    requires leaf <= max && leaf < MaxU32 && LeafSweep(q, leaf, max, extended).Returns?
    requires LeafSweep(q, leaf + 1, max, extended).Returns?
    requires Covers(LeafSweep(q, leaf + 1, max, extended).value, leaf + 1, max)
    ensures Covers(LeafSweep(q, leaf, max, extended).value, leaf, max)
  {
    SweepStep(q, leaf, max, extended);
    LeafRowsStartAtZero(q, leaf, extended);
    CoversStep(LeafRows(q, leaf, extended).value, LeafSweep(q, leaf + 1, max, extended).value, leaf, max);
  }

  /** Every leaf from `leaf` to `max` is recorded at subleaf 0. */
  lemma {:induction false} SweepCovers(q: Source, leaf: u32, max: u32, extended: bool)
    requires LeafSweep(q, leaf, max, extended).Returns?
    ensures Covers(LeafSweep(q, leaf, max, extended).value, leaf, max)
    decreases 0xFFFF_FFFF - leaf
  {
    if leaf <= max {
      SweepStep(q, leaf, max, extended);
      SweepCovers(q, leaf + 1, max, extended);
      CoversSweepStep(q, leaf, max, extended);
    }
  }

  /** Only swept leaves are recorded at a subleaf other than 0. */
  predicate SubleafZeroUnlessSwept(rows: seq<Entry>, extended: bool)
  {
    forall k | 0 <= k < |rows| && !Iterated(extended, rows[k].leaf) :: rows[k].subleaf == 0
  }

  lemma SubleafZeroAppend(rows: seq<Entry>, rest: seq<Entry>, extended: bool)
    requires SubleafZeroUnlessSwept(rows, extended) && SubleafZeroUnlessSwept(rest, extended)
    ensures SubleafZeroUnlessSwept(rows + rest, extended)
  {
    forall k | 0 <= k < |rows + rest| && !Iterated(extended, (rows + rest)[k].leaf)
      ensures (rows + rest)[k].subleaf == 0
    {
      if k >= |rows| {
        assert (rows + rest)[k] == rest[k - |rows|];
      }
    }
  }

  /** A leaf loop that ends had a maximum below 2^32 - 1 (or nothing to do)
      and reached no swept leaf whose stop test never holds. */
  lemma {:induction false} SweepEnds(q: Source, leaf: u32, max: u32, extended: bool)
    requires LeafSweep(q, leaf, max, extended).Returns?
    ensures leaf <= max ==> max < MaxU32
    ensures forall l: u32 | leaf <= l <= max :: LeafRows(q, l, extended).Returns?
    decreases 0xFFFF_FFFF - leaf
  {
    if leaf <= max {
      SweepStep(q, leaf, max, extended);
      SweepEnds(q, leaf + 1, max, extended);
    }
  }

  /** Conversely, with a maximum below 2^32 - 1 and every swept leaf
      stopping, the leaf loop ends. */
  lemma {:induction false} SweepEndsIf(q: Source, leaf: u32, max: u32, extended: bool)
    requires max < MaxU32
    requires forall l: u32 | leaf <= l <= max :: LeafRows(q, l, extended).Returns?
    ensures LeafSweep(q, leaf, max, extended).Returns?
    decreases 0xFFFF_FFFF - leaf
  {
    if leaf <= max {
      SweepEndsIf(q, leaf + 1, max, extended);
    }
  }

  /** In (leaf, subleaf) order, so no pair is recorded twice. */
  lemma {:induction false} SweepOrdered(rows: seq<Entry>)
    requires forall k | 0 <= k < |rows| - 1 :: Before(rows[k], rows[k + 1])
    ensures forall k1, k2 | 0 <= k1 < k2 < |rows| :: Before(rows[k1], rows[k2])
    decreases |rows|
  {
    if |rows| > 1 {
      var n := |rows|;
      var init := rows[..n - 1];
      assert forall k | 0 <= k < |init| :: init[k] == rows[k];
      SweepOrdered(init);
      forall k1 | 0 <= k1 < n - 1 ensures Before(rows[k1], rows[n - 1]) {
        if k1 < n - 2 {
          assert Before(init[k1], init[n - 2]);
        }
      }
    }
  }

  /** `CaptureData` without the file: the standard sweep followed by the
      extended sweep. The extended sweep runs only if the standard one
      ends. */
  function CaptureEntries(q: Source): (r: Run<seq<Entry>>)
    ensures r.Returns? ==> forall k | 0 <= k < |r.value| :: r.value[k] == Record(q, r.value[k].leaf, r.value[k].subleaf)
  {
    var (maxStandard, maxExtended) := RegisterSource.MaxFunctions(q);
    match LeafSweep(q, 0, maxStandard, false)
    case Diverges => Diverges
    case Returns(standard) =>
      match LeafSweep(q, 0x8000_0000, maxExtended, true)
      case Diverges => Diverges
      case Returns(ext) =>
        RecordedJoin(q, standard, ext);
        Returns(standard + ext)
  }

  lemma RecordedJoin(q: Source, a: seq<Entry>, b: seq<Entry>)
    requires forall k | 0 <= k < |a| :: a[k] == Record(q, a[k].leaf, a[k].subleaf)
    requires forall k | 0 <= k < |b| :: b[k] == Record(q, b[k].leaf, b[k].subleaf)
    ensures forall k | 0 <= k < |a + b| :: (a + b)[k] == Record(q, (a + b)[k].leaf, (a + b)[k].subleaf)
  {
    forall k | 0 <= k < |a + b| ensures (a + b)[k] == Record(q, (a + b)[k].leaf, (a + b)[k].subleaf) {
      if k >= |a| { assert (a + b)[k] == b[k - |a|]; }
    }
  }

  /** A capture that ends is the standard sweep followed by the extended
      sweep, both of which end. */
  lemma CaptureSplit(q: Source)
    requires CaptureEntries(q).Returns?
    ensures var (maxStandard, maxExtended) := RegisterSource.MaxFunctions(q);
            && LeafSweep(q, 0, maxStandard, false).Returns?
            && LeafSweep(q, 0x8000_0000, maxExtended, true).Returns?
            && CaptureEntries(q).value
                 == LeafSweep(q, 0, maxStandard, false).value + LeafSweep(q, 0x8000_0000, maxExtended, true).value
  {
  }

  lemma PresentInPrefix(a: seq<Entry>, b: seq<Entry>, leaf: u32, subleaf: u32)
    requires RegisterSource.Present(a, leaf, subleaf)
    ensures RegisterSource.Present(a + b, leaf, subleaf)
  {
    var k :| 0 <= k < |a| && RegisterSource.Matches(a[k], leaf, subleaf);
    assert (a + b)[k] == a[k];
  }

  /** Every standard leaf up to the maximum of leaf 0 is in the capture at
      subleaf 0. */
  lemma CaptureCovers(q: Source)
    requires CaptureEntries(q).Returns?
    ensures forall l: u32 | l <= RegisterSource.MaxFunctions(q).0 :: RegisterSource.Present(CaptureEntries(q).value, l, 0)
  {
    var (maxStandard, maxExtended) := RegisterSource.MaxFunctions(q);
    CaptureSplit(q);
    var standard := LeafSweep(q, 0, maxStandard, false).value;
    var ext := LeafSweep(q, 0x8000_0000, maxExtended, true).value;
    SweepCovers(q, 0, maxStandard, false);
    forall l: u32 | l <= maxStandard ensures RegisterSource.Present(standard + ext, l, 0) {
      PresentInPrefix(standard, ext, l, 0);
    }
  }

  /** No extended entry is recorded when the maximum of leaf 8000_0000H is
      below 8000_0000H. */
  lemma CaptureWithoutExtended(q: Source)
    requires CaptureEntries(q).Returns?
    requires RegisterSource.MaxFunctions(q).1 < 0x8000_0000
    ensures CaptureEntries(q).value == LeafSweep(q, 0, RegisterSource.MaxFunctions(q).0, false).value
  {
    CaptureSplit(q);
  }

  lemma OrderedAppend(a: seq<Entry>, b: seq<Entry>)
    requires forall k | 0 <= k < |a| - 1 :: Before(a[k], a[k + 1])
    requires forall k | 0 <= k < |b| - 1 :: Before(b[k], b[k + 1])
    requires |a| > 0 && |b| > 0 ==> Before(a[|a| - 1], b[0])
    ensures forall k | 0 <= k < |a + b| - 1 :: Before((a + b)[k], (a + b)[k + 1])
  {
    var ab := a + b;
    forall k | 0 <= k < |ab| - 1 ensures Before(ab[k], ab[k + 1]) {
      if k + 1 < |a| {
        assert ab[k] == a[k] && ab[k + 1] == a[k + 1];
      } else if k >= |a| {
        assert ab[k] == b[k - |a|] && ab[k + 1] == b[k + 1 - |a|];
      } else {
        assert ab[k] == a[k] && ab[k + 1] == b[0];
      }
    }
  }

  /** When the standard maximum is below 8000_0000H, the whole capture is
      in strict (leaf, subleaf) order, so no query is recorded twice and
      the standard entries precede the extended ones. */
  lemma CaptureOrdered(q: Source)
    requires CaptureEntries(q).Returns?
    requires RegisterSource.MaxFunctions(q).0 < 0x8000_0000
    ensures var es := CaptureEntries(q).value;
            forall k1, k2 | 0 <= k1 < k2 < |es| :: Before(es[k1], es[k2])
  {
    var (maxStandard, maxExtended) := RegisterSource.MaxFunctions(q);
    CaptureSplit(q);
    var standard := LeafSweep(q, 0, maxStandard, false).value;
    var ext := LeafSweep(q, 0x8000_0000, maxExtended, true).value;
    OrderedAppend(standard, ext);
    SweepOrdered(standard + ext);
  }

  /** Replaying the captured snapshot answers every recorded query with
      what the processor answered, every standard leaf at subleaf 0 among
      them, and zeros for queries that were not recorded. */
  lemma CaptureReplays(q: Source, leaf: u32, subleaf: u32)
    requires CaptureEntries(q).Returns?
    ensures var es := CaptureEntries(q).value;
            RegisterSource.Replay(Some(es), leaf, subleaf)
              == if RegisterSource.Present(es, leaf, subleaf) then q(leaf, subleaf) else ZeroRegs
    ensures subleaf == 0 && leaf <= RegisterSource.MaxFunctions(q).0 ==>
              RegisterSource.Replay(Some(CaptureEntries(q).value), leaf, subleaf) == q(leaf, subleaf)
  {
    var es := CaptureEntries(q).value;
    RegisterSource.LookupFaithful(es, q, leaf, subleaf);
    CaptureCovers(q);
  }
}

=== FILE: features.dfy ===
/** The feature catalog queries of `cpuid_features.go`.

    The catalog itself (`cpuFeaturesList`, a Go map from category to
    feature set) is not part of this model: every query takes it as a
    parameter. A Go map is an association list here, with distinct keys;
    the list order stands for the runtime's unspecified iteration order, so
    every result that depends on that order is stated up to it. The bit
    map of one feature set is an association list from bit position to
    feature in the same way. */
module Features {
  import opened Types
  import opened Text

  /** One feature: its name, description, vendor affinity ("intel", "amd"
      or "common") and the name of an equivalent feature of the other
      vendor, empty when there is none. */
  datatype Feature = Feature(name: string, description: string, vendor: string, equivalent: string)

  /** A feature set: display name, the leaf and subleaf to query, the
      register selector (0 to 3 for EAX to EDX), an optional applicability
      condition and the features by bit position. */
  datatype FeatureSet = FeatureSet(name: string, leaf: u32, subleaf: u32, register: int,
                                   condition: Option<int -> bool>, features: seq<(nat, Feature)>)

  type Catalog = seq<(string, FeatureSet)>

  function Keys(cat: Catalog): (ks: seq<string>)
    ensures |ks| == |cat| && forall i | 0 <= i < |cat| :: ks[i] == cat[i].0
  {
    seq(|cat|, i requires 0 <= i < |cat| => cat[i].0)
  }

  function Bits(features: seq<(nat, Feature)>): (bs: seq<nat>)
    ensures |bs| == |features| && forall k | 0 <= k < |features| :: bs[k] == features[k].0
  {
    seq(|features|, k requires 0 <= k < |features| => features[k].0)
  }

  function Names(features: seq<(nat, Feature)>): (ns: seq<string>)
    ensures |ns| == |features| && forall k | 0 <= k < |features| :: ns[k] == features[k].1.name
  {
    seq(|features|, k requires 0 <= k < |features| => features[k].1.name)
  }

  /** What a Go map guarantees: no key twice, here for the catalog and for
      every bit map in it. */
  predicate WellFormed(cat: Catalog)
  {
    && Distinct(Keys(cat))
    && forall i | 0 <= i < |cat| :: Distinct(Bits(cat[i].1.features))
  }

  // ---------------------------------------------------------------------
  // Categories

  /** `GetAllFeatureCategories`: the catalog keys, sorted. */
  function AllCategories(cat: Catalog): (r: seq<string>)
    requires WellFormed(cat)
    ensures Sorted(r)
    ensures multiset(r) == multiset(Keys(cat))
    ensures forall c :: c in r <==> exists i | 0 <= i < |cat| :: cat[i].0 == c
    ensures Distinct(r)
  {
    var r := SortStrings(Keys(cat));
    assert forall c :: c in r <==> c in multiset(Keys(cat));
    DistinctCounts(Keys(cat));
    DistinctCounts(r);
    r
  }

  /** The listing does not depend on the map's iteration order: two
      catalogs with the same keys, in any order, list the same categories. */
  lemma CategoriesIndependentOfOrder(cat1: Catalog, cat2: Catalog)
    requires WellFormed(cat1) && WellFormed(cat2)
    requires multiset(Keys(cat1)) == multiset(Keys(cat2))
    ensures AllCategories(cat1) == AllCategories(cat2)
  {
    SortedUnique(AllCategories(cat1), AllCategories(cat2));
  }

  /** The map lookup `cpuFeaturesList[category]`, as the position of the
      first entry with that key. */
  function Find(cat: Catalog, category: string): (r: Option<nat>)
    ensures r.None? <==> category !in Keys(cat)
    ensures r.Some? ==> r.value < |cat| && cat[r.value].0 == category
    decreases |cat|
  {
    if |cat| == 0 then None
    else if cat[0].0 == category then Some(0)
    else
      var r := Find(cat[1..], category);
      assert Keys(cat) == [cat[0].0] + Keys(cat[1..]);
      if r.Some? then Some(r.value + 1) else None
  }

  /** With distinct keys, the lookup finds the set stored under the key. */
  lemma FindStored(cat: Catalog, i: int)
    requires WellFormed(cat) && 0 <= i < |cat|
    ensures Find(cat, cat[i].0) == Some(i)
  {
    var r := Find(cat, cat[i].0);
    assert Keys(cat)[i] == Keys(cat)[r.value];
  }

  // ---------------------------------------------------------------------
  // Detailed listing

  /** One feature in the detailed listing: name, description and vendor,
      "common" shown as "both", and the equivalent only when there is one. */
  function DetailEntry(f: Feature): (m: map<string, string>)
    ensures "name" in m && m["name"] == f.name
    ensures "description" in m && m["description"] == f.description
    ensures "vendor" in m && (m["vendor"] == "both" <==> f.vendor == "common" || f.vendor == "both")
    ensures f.vendor != "common" ==> m["vendor"] == f.vendor
    ensures "equivalent" in m <==> f.equivalent != ""
    ensures "equivalent" in m ==> m["equivalent"] == f.equivalent
    ensures m.Keys <= {"name", "description", "vendor", "equivalent"}
  {
    var vendor := if f.vendor == "common" then "both" else f.vendor;
    var base := map["name" := f.name, "description" := f.description, "vendor" := vendor];
    if f.equivalent != "" then base["equivalent" := f.equivalent] else base
  }

  /** The detailed list of one set, in the order of its bit map. */
  function SetDetails(fs: FeatureSet): (ds: seq<map<string, string>>)
    ensures |ds| == |fs.features|
    ensures forall k | 0 <= k < |ds| :: ds[k] == DetailEntry(fs.features[k].1)
  {
    seq(|fs.features|, k requires 0 <= k < |fs.features| => DetailEntry(fs.features[k].1))
  }

  /** `GetAllFeatureCategoriesDetailed`: keyed by each set's own display
      name (not its catalog key); a later set with the same display name
      replaces an earlier one. */
  function Detailed(cat: Catalog): (d: map<string, seq<map<string, string>>>)
    ensures d.Keys == set i | 0 <= i < |cat| :: cat[i].1.name
    decreases |cat|
  {
    if |cat| == 0 then map[]
    else
      var init := cat[..|cat| - 1];
      var last := cat[|cat| - 1];
      assert forall i | 0 <= i < |init| :: init[i] == cat[i];
      assert (set i | 0 <= i < |cat| :: cat[i].1.name) == (set i | 0 <= i < |init| :: init[i].1.name) + {last.1.name};
      Detailed(init)[last.1.name := SetDetails(last.1)]
  }

  /** Each display name maps to the details of the last set that carries
      it; with distinct display names, every set's own details. */
  lemma {:induction false} DetailedLastWins(cat: Catalog, i: int)
    requires 0 <= i < |cat|
    requires forall j | i < j < |cat| :: cat[j].1.name != cat[i].1.name
    ensures cat[i].1.name in Detailed(cat) && Detailed(cat)[cat[i].1.name] == SetDetails(cat[i].1)
    decreases |cat|
  {
    if i < |cat| - 1 {
      var init := cat[..|cat| - 1];
      assert forall j | 0 <= j < |init| :: init[j] == cat[j];
      DetailedLastWins(init, i);
    }
  }

  // ---------------------------------------------------------------------
  // Known and supported features

  /** `GetAllKnownFeatures`: `None` (Go nil) for an unknown category, else
      the feature names of the set. */
  function KnownFeatures(cat: Catalog, category: string): (r: Option<seq<string>>)
    requires WellFormed(cat)
    ensures r.None? <==> category !in Keys(cat)
    ensures forall i | 0 <= i < |cat| && cat[i].0 == category ::
              r == Some(Names(cat[i].1.features))
  {
    var found := Find(cat, category);
    if found.None? then None
    else
      assert forall i | 0 <= i < |cat| && cat[i].0 == category :: found == Some(i) by {
        forall i | 0 <= i < |cat| && cat[i].0 == category ensures found == Some(i) {
          FindStored(cat, i);
        }
      }
      Some(Names(cat[found.value].1.features))
  }

  /** The set's condition, when it has one, holds for 0. */
  predicate Applies(fs: FeatureSet)
  {
    fs.condition.None? || fs.condition.value(0)
  }

  /** The register the selector picks; any selector other than 0 to 3
      leaves the value at zero. */
  function SelectRegister(r: Regs, selector: int): (x: bv32)
    ensures 0 <= selector <= 3 ==> x == [r.a, r.b, r.c, r.d][selector]
    ensures !(0 <= selector <= 3) ==> x == 0
  {
    if selector == 0 then r.a
    else if selector == 1 then r.b
    else if selector == 2 then r.c
    else if selector == 3 then r.d
    else 0
  }

  /** `(x >> bit) & 1 == 1` on a Go `uint32`: a shift by 32 or more gives
      zero. */
  predicate BitSet(x: bv32, bit: nat)
  {
    bit < 32 && (x >> bit) & 1 == 1
  }

  lemma ZeroHasNoBits(bit: nat)
    ensures !BitSet(0, bit)
  {
  }

  /** The register value a set's features are checked against. */
  function SetRegister(q: Source, fs: FeatureSet): bv32
  {
    SelectRegister(q(fs.leaf, fs.subleaf), fs.register)
  }

  /** `r` holds exactly the names of the features of `features` whose bit
      is set in `x` (as far as membership goes). */
  predicate ReportsSetBits(features: seq<(nat, Feature)>, x: bv32, r: seq<string>)
  {
    && (forall k | 0 <= k < |features| && BitSet(x, features[k].0) :: features[k].1.name in r)
    && (forall i | 0 <= i < |r| :: HasSetBit(features, x, r[i]))
  }

  /** Some feature called `name` has its bit set in `x`. */
  predicate HasSetBit(features: seq<(nat, Feature)>, x: bv32, name: string)
  {
    exists k | 0 <= k < |features| :: features[k].1.name == name && BitSet(x, features[k].0)
  }

  /** The names of the features whose bit is set in `x`, in bit-map order. */
  function SetBits(features: seq<(nat, Feature)>, x: bv32): (r: seq<string>)
    ensures |r| <= |features|
    ensures ReportsSetBits(features, x, r)
    decreases |features|
  {
    if |features| == 0 then []
    else
      var rest := SetBits(features[1..], x);
      SetBitsStep(features, x, rest);
      if BitSet(x, features[0].0) then [features[0].1.name] + rest else rest
  }

  /** One step of `SetBits`: the first feature, then the rest. */
  lemma SetBitsStep(features: seq<(nat, Feature)>, x: bv32, rest: seq<string>)
    requires |features| > 0 && ReportsSetBits(features[1..], x, rest)
    ensures ReportsSetBits(features, x, if BitSet(x, features[0].0) then [features[0].1.name] + rest else rest)
  {
    var r := if BitSet(x, features[0].0) then [features[0].1.name] + rest else rest;
    StepCovers(features, x, rest, r);
    StepSound(features, x, rest, r);
  }

  lemma StepCovers(features: seq<(nat, Feature)>, x: bv32, rest: seq<string>, r: seq<string>)
    requires |features| > 0 && ReportsSetBits(features[1..], x, rest)
    requires r == if BitSet(x, features[0].0) then [features[0].1.name] + rest else rest
    ensures forall k | 0 <= k < |features| && BitSet(x, features[k].0) :: features[k].1.name in r
  {
    forall k | 0 <= k < |features| && BitSet(x, features[k].0) ensures features[k].1.name in r {
      if k > 0 {
        assert features[k] == features[1..][k - 1];
      }
    }
  }

  lemma StepSound(features: seq<(nat, Feature)>, x: bv32, rest: seq<string>, r: seq<string>)
    requires |features| > 0 && ReportsSetBits(features[1..], x, rest)
    requires r == if BitSet(x, features[0].0) then [features[0].1.name] + rest else rest
    ensures forall i | 0 <= i < |r| :: HasSetBit(features, x, r[i])
  {
    forall i | 0 <= i < |r| ensures HasSetBit(features, x, r[i]) {
      if !BitSet(x, features[0].0) || i > 0 {
        var j := if !BitSet(x, features[0].0) then i else i - 1;
        assert r[i] == rest[j];
        var k :| 0 <= k < |features[1..]| && features[1..][k].1.name == rest[j] && BitSet(x, features[1..][k].0);
        assert features[k + 1] == features[1..][k];
        assert features[k + 1].1.name == r[i] && BitSet(x, features[k + 1].0);
      } else {
        assert features[0].1.name == r[0] && BitSet(x, features[0].0);
      }
    }
  }

  /** The reported names are a sub-multiset of the set's names. */
  lemma {:induction false} SetBitsAreNames(features: seq<(nat, Feature)>, x: bv32)
    ensures multiset(SetBits(features, x)) <= multiset(Names(features))
    decreases |features|
  {
    if |features| > 0 {
      SetBitsAreNames(features[1..], x);
      assert Names(features) == [features[0].1.name] + Names(features[1..]);
    }
  }

  /** With no name twice in a set, a feature is reported exactly when its
      bit is set. */
  lemma SetBitsExact(features: seq<(nat, Feature)>, x: bv32, k: int)
    requires Distinct(Names(features)) && 0 <= k < |features|
    ensures features[k].1.name in SetBits(features, x) <==> BitSet(x, features[k].0)
  {
    var r := SetBits(features, x);
    if features[k].1.name in r {
      var i :| 0 <= i < |r| && r[i] == features[k].1.name;
      var k' :| 0 <= k' < |features| && features[k'].1.name == r[i] && BitSet(x, features[k'].0);
      DistinctAt(Names(features), k, k');
    }
  }

  /** In a sequence without repeats, equal elements sit at the same index. */
  lemma DistinctAt(s: seq<string>, a: nat, b: nat)
    requires Distinct(s) && a < |s| && b < |s| && s[a] == s[b]
    ensures a == b
  {
  }

  /** `GetSupportedFeatures`: `None` for an unknown category or a set
      whose condition fails; otherwise the names of the features whose bit
      is set in the selected register of (leaf, subleaf). */
  function SupportedFeatures(cat: Catalog, category: string, q: Source): (r: Option<seq<string>>)
    requires WellFormed(cat)
    ensures category !in Keys(cat) ==> r.None?
    ensures forall i | 0 <= i < |cat| && cat[i].0 == category ::
              r == if Applies(cat[i].1) then Some(SetBits(cat[i].1.features, SetRegister(q, cat[i].1))) else None
  {
    var found := Find(cat, category);
    assert forall i | 0 <= i < |cat| && cat[i].0 == category :: found == Some(i) by {
      forall i | 0 <= i < |cat| && cat[i].0 == category ensures found == Some(i) {
        FindStored(cat, i);
      }
    }
    if found.None? || !Applies(cat[found.value].1) then None
    else
      var fs := cat[found.value].1;
      Some(SetBits(fs.features, SetRegister(q, fs)))
  }

  /** Every supported feature is a known feature of the same category. */
  lemma SupportedAreKnown(cat: Catalog, category: string, q: Source)
    requires WellFormed(cat)
    ensures SupportedFeatures(cat, category, q).Some? ==>
              && KnownFeatures(cat, category).Some?
              && multiset(SupportedFeatures(cat, category, q).value) <= multiset(KnownFeatures(cat, category).value)
  {
    var found := Find(cat, category);
    if found.Some? {
      SetBitsAreNames(cat[found.value].1.features, SetRegister(q, cat[found.value].1));
    }
  }

  /** A selector outside 0 to 3 reports nothing. */
  lemma BadSelectorReportsNothing(features: seq<(nat, Feature)>, r: Regs, selector: int)
    requires !(0 <= selector <= 3)
    ensures SetBits(features, SelectRegister(r, selector)) == []
  {
  }

  // ---------------------------------------------------------------------
  // Single feature

  /** The bit of the first entry of the bit map named `name`. */
  function BitOf(features: seq<(nat, Feature)>, name: string): (r: Option<nat>)
    ensures r.None? <==> name !in Names(features)
    ensures r.Some? ==> exists k | 0 <= k < |features| :: features[k].0 == r.value && features[k].1.name == name
    decreases |features|
  {
    if |features| == 0 then None
    else if features[0].1.name == name then Some(features[0].0)
    else
      var r := BitOf(features[1..], name);
      assert Names(features) == [features[0].1.name] + Names(features[1..]);
      if r.Some? then
        var k :| 0 <= k < |features[1..]| && features[1..][k].0 == r.value && features[1..][k].1.name == name;
        assert features[k + 1] == features[1..][k];
        r
      else r
  }

  /** The loop of `IsFeatureSupported` from catalog position `i` on: skips
      sets whose condition fails and sets without the name; the first set
      that has it decides by its bit. */
  function SupportedFrom(cat: Catalog, name: string, q: Source, i: nat): (r: bool)
    requires i <= |cat|
    ensures r ==> exists j, k | i <= j < |cat| && 0 <= k < |cat[j].1.features| ::
                    && Applies(cat[j].1)
                    && cat[j].1.features[k].1.name == name
                    && BitSet(SetRegister(q, cat[j].1), cat[j].1.features[k].0)
    decreases |cat| - i
  {
    if i == |cat| then false
    else
      var fs := cat[i].1;
      if !Applies(fs) then SupportedFrom(cat, name, q, i + 1)
      else
        match BitOf(fs.features, name)
        case None => SupportedFrom(cat, name, q, i + 1)
        case Some(bit) => BitSet(SetRegister(q, fs), bit)
  }

  /** `IsFeatureSupported`: true only if some applicable set names the
      feature with its bit set. */
  function IsFeatureSupported(cat: Catalog, name: string, q: Source): (r: bool)
    ensures r ==> exists j, k | 0 <= j < |cat| && 0 <= k < |cat[j].1.features| ::
                    && Applies(cat[j].1)
                    && cat[j].1.features[k].1.name == name
                    && BitSet(SetRegister(q, cat[j].1), cat[j].1.features[k].0)
  {
    SupportedFrom(cat, name, q, 0)
  }

  /** With the name unique in the whole catalog (held at bit map position
      `k` of set `j`), the answer is that set's bit when its condition
      holds, and false otherwise. */
  lemma {:induction false} UniqueNameDecides(cat: Catalog, name: string, q: Source, j: int, k: int, i: nat)
    requires 0 <= j < |cat| && 0 <= k < |cat[j].1.features| && cat[j].1.features[k].1.name == name
    requires forall j', k' | 0 <= j' < |cat| && 0 <= k' < |cat[j'].1.features| && cat[j'].1.features[k'].1.name == name ::
               j' == j && k' == k
    requires i <= j
    ensures SupportedFrom(cat, name, q, i)
              == (Applies(cat[j].1) && BitSet(SetRegister(q, cat[j].1), cat[j].1.features[k].0))
    decreases |cat| - i
  {
    var fs := cat[i].1;
    if i < j {
      assert name !in Names(fs.features);
      UniqueNameDecides(cat, name, q, j, k, i + 1);
    } else if Applies(fs) {
      var b := BitOf(fs.features, name);
      assert name in Names(fs.features) by { assert Names(fs.features)[k] == name; }
      var k' :| 0 <= k' < |fs.features| && fs.features[k'].0 == b.value && fs.features[k'].1.name == name;
    } else {
      assert i == j;
    }
  }
}

=== FILE: identity.dfy ===
/** The identity decoders of `cpuid_info.go`: the vendor identification
    string of leaf 0, the vendor name, the brand string of leaves
    8000_0002H..8000_0004H, and the processor signature of leaf 01H EAX with
    its effective model and family (the rule given for leaf 01H in the
    CPUID entry of the Intel 64 and IA-32 Architectures Software
    Developer's Manual, Volume 2A, chapter 3). */
module Identity {
  import opened Types
  import opened Text
  import Numerals

  // ---------------------------------------------------------------------
  // Vendor identification

  /** The four bytes of a register as text, least significant byte first. */
  function RegisterText(x: bv32): (s: string)
    ensures |s| == 4
  {
    ByteString(Int32ToBytes(x))
  }

  /** `GetVendorID`: the twelve bytes of EBX, EDX and ECX of leaf 0, in
      that order. */
  function VendorId(q: Source): (id: string)
    ensures |id| == 12
    ensures id[0..4] == RegisterText(q(0, 0).b)
    ensures id[4..8] == RegisterText(q(0, 0).d)
    ensures id[8..12] == RegisterText(q(0, 0).c)
  {
    var r := q(0, 0);
    RegisterText(r.b) + RegisterText(r.d) + RegisterText(r.c)
  }

  /** A source whose leaf 0 spells the twelve bytes `bs` (and answers zeros
      elsewhere). */
  function VendorSource(bs: seq<bv8>): Source
    requires |bs| == 12
  {
    (leaf: u32, subleaf: u32) =>
      if leaf == 0 && subleaf == 0 then Regs(0, FromBytes(bs[0..4]), FromBytes(bs[8..12]), FromBytes(bs[4..8]))
      else ZeroRegs
  }

  /** Any twelve bytes are the vendor string of some leaf 0, and of exactly
      the registers that spell them: the assembly loses and reorders
      nothing beyond the EBX, EDX, ECX order. */
  lemma VendorIdRoundTrip(bs: seq<bv8>)
    requires |bs| == 12
    ensures VendorId(VendorSource(bs)) == ByteString(bs)
  {
    BytesRoundTrip(bs[0..4]);
    BytesRoundTrip(bs[4..8]);
    BytesRoundTrip(bs[8..12]);
    assert bs == bs[0..4] + bs[4..8] + bs[8..12];
  }

  /** `GetVendorName`: only the two exact identification strings are
      recognised. */
  function VendorName(id: string): (name: string)
    ensures name == "Intel" <==> id == "GenuineIntel"
    ensures name == "AMD" <==> id == "AuthenticAMD"
    ensures name == "Unknown" <==> id != "GenuineIntel" && id != "AuthenticAMD"
  {
    if id == "GenuineIntel" then "Intel"
    else if id == "AuthenticAMD" then "AMD"
    else "Unknown"
  }

  /** The registers an Intel processor reports at leaf 0 spell
      "GenuineIntel". */
  lemma GenuineIntel(q: Source)
    requires q(0, 0).b == 0x756E_6547 && q(0, 0).d == 0x4965_6E69 && q(0, 0).c == 0x6C65_746E
    ensures VendorId(q) == "GenuineIntel"
    ensures VendorName(VendorId(q)) == "Intel"
  {
    assert RegisterText(q(0, 0).b) == "Genu";
    assert RegisterText(q(0, 0).d) == "ineI";
    assert RegisterText(q(0, 0).c) == "ntel";
  }

  // ---------------------------------------------------------------------
  // Brand string

  const FirstBrandLeaf: u32 := 0x8000_0002
  const LastBrandLeaf: u32 := 0x8000_0004

  /** The sixteen bytes of one brand leaf: EAX, EBX, ECX, EDX, each little
      endian. */
  function LeafBytes(r: Regs): (bs: seq<bv8>)
    ensures |bs| == 16
  {
    Int32ToBytes(r.a) + Int32ToBytes(r.b) + Int32ToBytes(r.c) + Int32ToBytes(r.d)
  }

  /** The 48-byte buffer `GetBrandString` fills from leaves 8000_0002H,
      8000_0003H and 8000_0004H. */
  function BrandBytes(q: Source): (bs: seq<bv8>)
    ensures |bs| == 48
  {
    LeafBytes(q(FirstBrandLeaf, 0)) + LeafBytes(q(FirstBrandLeaf + 1, 0)) + LeafBytes(q(LastBrandLeaf, 0))
  }

  /** `GetBrandString`: empty when the brand leaves are not implemented,
      otherwise the buffer with surrounding white space removed. Interior
      and trailing NUL bytes are kept: white-space trimming does not remove
      them. */
  function BrandString(q: Source, maxExtFunc: u32): (s: string)
    ensures |s| <= 48
    ensures maxExtFunc < LastBrandLeaf ==> s == ""
    ensures maxExtFunc >= LastBrandLeaf ==>
              var text := ByteString(BrandBytes(q));
              exists i, j :: 0 <= i <= j <= 48 && s == text[i..j] && AllSpace(text[..i]) && AllSpace(text[j..])
    ensures maxExtFunc >= LastBrandLeaf ==> (s == "" <==> AllSpace(ByteString(BrandBytes(q))))
    ensures |s| > 0 ==> !IsSpace(s[0]) && !IsSpace(s[|s| - 1])
  {
    if maxExtFunc >= LastBrandLeaf then TrimSpace(ByteString(BrandBytes(q))) else ""
  }

  /** The registers of one brand leaf that spell sixteen given bytes. */
  function LeafRegs(bs: seq<bv8>): Regs
    requires |bs| == 16
  {
    Regs(FromBytes(bs[0..4]), FromBytes(bs[4..8]), FromBytes(bs[8..12]), FromBytes(bs[12..16]))
  }

  lemma LeafRoundTrip(bs: seq<bv8>)
    requires |bs| == 16
    ensures LeafBytes(LeafRegs(bs)) == bs
  {
    BytesRoundTrip(bs[0..4]);
    BytesRoundTrip(bs[4..8]);
    BytesRoundTrip(bs[8..12]);
    BytesRoundTrip(bs[12..16]);
    assert bs == bs[0..4] + bs[4..8] + bs[8..12] + bs[12..16];
  }

  /** A source whose brand leaves spell the 48 bytes `bs`. */
  function BrandSource(bs: seq<bv8>): Source
    requires |bs| == 48
  {
    (leaf: u32, subleaf: u32) =>
      if leaf == FirstBrandLeaf && subleaf == 0 then LeafRegs(bs[0..16])
      else if leaf == FirstBrandLeaf + 1 && subleaf == 0 then LeafRegs(bs[16..32])
      else if leaf == LastBrandLeaf && subleaf == 0 then LeafRegs(bs[32..48])
      else ZeroRegs
  }

  /** Brand leaf `FirstBrandLeaf + k` of `BrandSource(bs)` spells the
      `k`-th sixteen bytes of `bs`. */
  lemma BrandLeafOf(bs: seq<bv8>, k: nat)
    requires |bs| == 48 && k < 3
    ensures LeafBytes(BrandSource(bs)(FirstBrandLeaf + k, 0)) == bs[16 * k..16 * k + 16]
  {
    assert BrandSource(bs)(FirstBrandLeaf + k, 0) == LeafRegs(bs[16 * k..16 * k + 16]);
    LeafRoundTrip(bs[16 * k..16 * k + 16]);
  }

  /** The brand leaves of `BrandSource(bs)` spell `bs`. */
  lemma BrandBytesOf(bs: seq<bv8>)
    requires |bs| == 48
    ensures BrandBytes(BrandSource(bs)) == bs
  {
    var q := BrandSource(bs);
    BrandLeafOf(bs, 0);
    BrandLeafOf(bs, 1);
    BrandLeafOf(bs, 2);
    assert LeafBytes(q(FirstBrandLeaf, 0)) == bs[0..16];
    assert LeafBytes(q(FirstBrandLeaf + 1, 0)) == bs[16..32];
    assert LeafBytes(q(LastBrandLeaf, 0)) == bs[32..48];
    assert bs[0..16] + bs[16..32] + bs[32..48] == bs;
  }

  /** Any 48-byte brand that neither starts nor ends with white space is
      reported unchanged by a processor whose brand leaves spell it. */
  lemma BrandRoundTrip(bs: seq<bv8>, maxExtFunc: u32)
    requires |bs| == 48 && maxExtFunc >= LastBrandLeaf
    requires !IsSpace(bs[0] as char) && !IsSpace(bs[47] as char)
    ensures BrandString(BrandSource(bs), maxExtFunc) == ByteString(bs)
  {
    BrandBytesOf(bs);
    TrimSpaceKeeps(ByteString(bs));
  }

  /** A brand padded with white space on either side, as Intel parts
      right-justify theirs, is reported without the padding. */
  lemma PaddedBrandRoundTrip(bs: seq<bv8>, i: nat, j: nat, maxExtFunc: u32)
    requires |bs| == 48 && i <= j <= 48 && maxExtFunc >= LastBrandLeaf
    requires AllSpace(ByteString(bs[..i])) && AllSpace(ByteString(bs[j..]))
    requires i < j ==> !IsSpace(bs[i] as char) && !IsSpace(bs[j - 1] as char)
    ensures BrandString(BrandSource(bs), maxExtFunc) == ByteString(bs[i..j])
  {
    BrandBytesOf(bs);
    ByteStringSplit(bs, i, j);
    TrimSpacePadded(ByteString(bs[..i]), ByteString(bs[i..j]), ByteString(bs[j..]));
  }

  // ---------------------------------------------------------------------
  // Processor signature, leaf 01H EAX

  /** The raw signature fields (`GetModelData`). */
  datatype Signature = Signature(stepping: bv32, model: bv32, family: bv32, processorType: bv32,
                                 extModel: bv32, extFamily: bv32)

  /** Field widths: 4 bits, except the 2-bit type and 8-bit extended family. */
  predicate ValidSignature(s: Signature)
  {
    s.stepping < 16 && s.model < 16 && s.family < 16 && s.processorType < 4 && s.extModel < 16 && s.extFamily < 256
  }

  /** Bits 0-3 stepping, 4-7 model, 8-11 family, 12-13 type, 16-19
      extended model, 20-27 extended family. */
  function DecodeSignature(a: bv32): (s: Signature)
    ensures ValidSignature(s)
  {
    Signature(a & 0xF, (a >> 4) & 0xF, (a >> 8) & 0xF, (a >> 12) & 0x3, (a >> 16) & 0xF, (a >> 20) & 0xFF)
  }

  /** The signature word with the given fields and the reserved bits clear. */
  function EncodeSignature(s: Signature): bv32
  {
    s.stepping | (s.model << 4) | (s.family << 8) | (s.processorType << 12) | (s.extModel << 16) | (s.extFamily << 20)
  }

  lemma SignatureRoundTrip(s: Signature)
    requires ValidSignature(s)
    ensures DecodeSignature(EncodeSignature(s)) == s
  {
  }

  /** Decoding keeps every bit except the reserved bits 14-15 and 28-31. */
  lemma SignatureKeepsFields(a: bv32)
    ensures EncodeSignature(DecodeSignature(a)) == a & 0x0FFF_3FFF
  {
  }

  /** The families whose extended model is part of the displayed model. */
  predicate UsesExtendedModel(s: Signature)
  {
    s.family == 0x6 || s.family == 0xF
  }

  /** Effective model: the model in the low nibble, and the extended model
      in the high nibble only for families 6 and 0FH. */
  function EffectiveModel(s: Signature): (m: bv32)
    requires ValidSignature(s)
    ensures m < 0x100
    ensures m & 0xF == s.model
    ensures m >> 4 == if UsesExtendedModel(s) then s.extModel else 0
  {
    if UsesExtendedModel(s) then s.model + (s.extModel << 4) else s.model
  }

  /** Effective family: the extended family is added only for family 0FH. */
  function EffectiveFamily(s: Signature): (f: bv32)
    requires ValidSignature(s)
    ensures f < 0x10F
    ensures s.family != 0xF ==> f == s.family
    ensures s.family == 0xF ==> f - 0xF == s.extFamily
  {
    if s.family == 0xF then s.family + s.extFamily else s.family
  }

  /** The effective values differ from the raw ones exactly when the rule
      applies and the extended field is non-zero. */
  lemma EffectiveValuesDiffer(s: Signature)
    requires ValidSignature(s)
    ensures EffectiveModel(s) != s.model <==> UsesExtendedModel(s) && s.extModel != 0
    ensures EffectiveFamily(s) != s.family <==> s.family == 0xF && s.extFamily != 0
  {
    var m := EffectiveModel(s);
    if UsesExtendedModel(s) && s.extModel != 0 {
      assert m >> 4 != s.model >> 4;
    }
  }

  /** `ProcessorModel`: the raw fields rendered as decimal text, and the
      two effective values. */
  datatype ProcessorModel = ProcessorModel(stepping: string, model: string, family: string, processorType: string,
                                           extModel: string, extFamily: string,
                                           effectiveModel: bv32, effectiveFamily: bv32)

  /** `GetModelData`: decodes leaf 01H EAX. */
  function ModelData(q: Source): (m: ProcessorModel)
    ensures var s := DecodeSignature(q(1, 0).a);
            && Numerals.Denotes(m.stepping, ToU32(s.stepping), 10)
            && Numerals.Denotes(m.model, ToU32(s.model), 10)
            && Numerals.Denotes(m.family, ToU32(s.family), 10)
            && Numerals.Denotes(m.processorType, ToU32(s.processorType), 10)
            && Numerals.Denotes(m.extModel, ToU32(s.extModel), 10)
            && Numerals.Denotes(m.extFamily, ToU32(s.extFamily), 10)
            && m.effectiveModel == EffectiveModel(s)
            && m.effectiveFamily == EffectiveFamily(s)
  {
    var s := DecodeSignature(q(1, 0).a);
    ProcessorModel(Numerals.Decimal(ToU32(s.stepping)), Numerals.Decimal(ToU32(s.model)),
                   Numerals.Decimal(ToU32(s.family)), Numerals.Decimal(ToU32(s.processorType)),
                   Numerals.Decimal(ToU32(s.extModel)), Numerals.Decimal(ToU32(s.extFamily)),
                   EffectiveModel(s), EffectiveFamily(s))
  }
}

=== FILE: numerals.dfy ===
/** Rendering of unsigned numbers as text: the `%d`/`%u` (decimal) and
    `%X` (upper-case hexadecimal) verbs of Go's `fmt.Sprintf` and C's
    `fprintf`, without padding or prefix. Each rendering reads back to the
    number it came from. */
module Numerals {
  import opened Types

  const DigitChars := "0123456789ABCDEF"

  /** The value of a digit character, 16 for a character that is no digit. */
  function DigitValue(c: char): (v: nat)
    ensures v <= 16
    ensures v < 16 ==> DigitChars[v] == c
  {
    if '0' <= c <= '9' then c as int - '0' as int
    else if 'A' <= c <= 'F' then c as int - 'A' as int + 10
    else 16
  }

  predicate IsNumeral(s: string, base: nat)
  {
    forall i | 0 <= i < |s| :: DigitValue(s[i]) < base
  }

  /** The number a string of digits denotes, most significant digit first. */
  function ValueOf(s: string, base: nat): nat
    requires IsNumeral(s, base)
  {
    if |s| == 0 then 0 else ValueOf(s[..|s| - 1], base) * base + DigitValue(s[|s| - 1])
  }

  /** `s` is a numeral in `base` for the number `n`. */
  predicate Denotes(s: string, n: nat, base: nat)
  {
    IsNumeral(s, base) && ValueOf(s, base) == n
  }

  /** The digits of `n` in `base`, without leading zeros. */
  function Numeral(n: nat, base: nat): (s: string)
    requires 2 <= base <= 16
    ensures 1 <= |s|
    ensures IsNumeral(s, base)
    ensures ValueOf(s, base) == n
    ensures s[0] == '0' ==> n == 0 && |s| == 1
    decreases n
  {
    if n < base then [DigitChars[n]]
    else
      DivMod(n, base);
      var high := Numeral(n / base, base);
      AppendDigit(high, n % base, base);
      high + [DigitChars[n % base]]
  }

  /** Appending a digit multiplies the value by the base and adds the digit. */
  lemma AppendDigit(high: string, d: nat, base: nat)
    requires 2 <= base <= 16 && d < base && IsNumeral(high, base)
    ensures IsNumeral(high + [DigitChars[d]], base)
    ensures ValueOf(high + [DigitChars[d]], base) == ValueOf(high, base) * base + d
    ensures |high| > 0 ==> (high + [DigitChars[d]])[0] == high[0]
  {
    var s := high + [DigitChars[d]];
    assert s[..|s| - 1] == high;
    assert DigitValue(s[|s| - 1]) == d;
  }

  lemma DivMod(n: nat, base: nat)
    requires 2 <= base <= n
    ensures 1 <= n / base < n && n % base < base
    ensures (n / base) * base + n % base == n
  {
  }

  /** `%d` / `%u`. */
  function Decimal(n: nat): (s: string)
    ensures 1 <= |s| && IsNumeral(s, 10) && ValueOf(s, 10) == n
  {
    Numeral(n, 10)
  }

  /** `%X`. */
  function Hex(n: nat): (s: string)
    ensures 1 <= |s| && IsNumeral(s, 16) && ValueOf(s, 16) == n
  {
    Numeral(n, 16)
  }

  /** Renderings of different numbers differ, so a rendered number can be
      read back unambiguously. */
  lemma NumeralInjective(m: nat, n: nat, base: nat)
    requires 2 <= base <= 16
    requires Numeral(m, base) == Numeral(n, base)
    ensures m == n
  {
  }

  // ---------------------------------------------------------------------
  // Reading a number back

  /** The number of leading characters that are digits in `base`. */
  function DigitRun(s: string, base: nat): (k: nat)
    ensures k <= |s|
    ensures IsNumeral(s[..k], base)
    ensures k < |s| ==> DigitValue(s[k]) >= base
  {
    if |s| == 0 || DigitValue(s[0]) >= base then 0
    else
      var k := 1 + DigitRun(s[1..], base);
      assert forall i | 1 <= i < k :: s[..k][i] == s[1..][..k - 1][i - 1];
      k
  }

  /** The number written in `base` at the front of `s`, and what follows
      it; `None` when `s` does not start with a digit. */
  function ReadNumeral(s: string, base: nat): (r: Option<(nat, string)>)
    ensures r.Some? ==> |r.value.1| < |s|
  {
    var k := DigitRun(s, base);
    if k == 0 then None else Some((ValueOf(s[..k], base), s[k..]))
  }

  lemma {:induction false} DigitRunOf(s: string, k: nat, base: nat)
    requires k <= |s| && IsNumeral(s[..k], base)
    requires k == |s| || DigitValue(s[k]) >= base
    ensures DigitRun(s, base) == k
    decreases k
  {
    if k > 0 {
      assert DigitValue(s[..k][0]) < base;
      assert s[1..][..k - 1] == s[..k][1..];
      DigitRunOf(s[1..], k - 1, base);
    }
  }

  /** A rendered number followed by anything that does not start with a
      digit reads back as the number and that rest. */
  lemma ReadNumeralOf(n: nat, t: string, base: nat)
    requires 2 <= base <= 16
    requires |t| == 0 || DigitValue(t[0]) >= base
    ensures ReadNumeral(Numeral(n, base) + t, base) == Some((n, t))
  {
    var d := Numeral(n, base);
    var s := d + t;
    assert s[..|d|] == d;
    assert s[|d|..] == t;
    DigitRunOf(s, |d|, base);
  }

  // ---------------------------------------------------------------------
  // Labelled numbers, as in "Leaf: 12" or "Part: 0xD03"

  /** The literal `lit`, the number `n` in `base`, then `rest`. */
  function Labelled(lit: string, n: nat, base: nat, rest: string): string
    requires 2 <= base <= 16
  {
    lit + (Numeral(n, base) + rest)
  }

  /** The literal `lit`, then a number in `base`. */
  function ReadLabelled(lit: string, s: string, base: nat): (r: Option<(nat, string)>)
    ensures r.Some? ==> |r.value.1| < |s|
  {
    if lit <= s then ReadNumeral(s[|lit|..], base) else None
  }

  lemma ReadLabelledOf(lit: string, n: nat, base: nat, t: string)
    requires 2 <= base <= 16
    requires |t| == 0 || DigitValue(t[0]) >= base
    ensures ReadLabelled(lit, Labelled(lit, n, base, t), base) == Some((n, t))
  {
    var s := Labelled(lit, n, base, t);
    assert lit <= s;
    assert s[|lit|..] == Numeral(n, base) + t;
    ReadNumeralOf(n, t, base);
  }

  /** A labelled number starts with its label. */
  lemma LabelledStart(lit: string, n: nat, base: nat, rest: string)
    requires 2 <= base <= 16 && |lit| > 0
    ensures |Labelled(lit, n, base, rest)| > 0 && Labelled(lit, n, base, rest)[0] == lit[0]
  {
  }

  /** Text appended after a labelled number belongs to its tail. */
  lemma LabelledThen(lit: string, n: nat, base: nat, rest: string, t: string)
    requires 2 <= base <= 16
    ensures Labelled(lit, n, base, rest) + t == Labelled(lit, n, base, rest + t)
  {
    Assoc(lit, Numeral(n, base) + rest, t);
    Assoc(Numeral(n, base), rest, t);
  }

  lemma Assoc(a: string, b: string, c: string)
    ensures (a + b) + c == a + (b + c)
  {
  }
}

=== FILE: oldapp.dfy ===
/** The earlier command-line front end (`cpuidcmd/oldapp/main.go`): its
    feature-flag bit scan, its two renderings of the processor signature,
    and its AMD core and thread counts.

    The front end shares `getVendorID`, `int32ToBytes` and
    `getCacheTypeString` with the library word for word; those are
    `Identity.VendorId`, `Types.Int32ToBytes` and `Cache.CacheTypeName`. */
module OldApp {
  import opened Types
  import opened Text
  import Numerals
  import Identity
  import Features
  import Topology

  // ---------------------------------------------------------------------
  // printFeatureFlags

  /** A set's features keyed by bit position (Go `map[int]Feature`). Only
      lookups by key are made, so the map's iteration order plays no part. */
  type FeatureMap = map<int, Features.Feature>

  /** The set bits of `reg` below `n`, ascending, that have a feature entry
      (`known`) or have none (`!known`). */
  function Flagged(features: FeatureMap, reg: bv32, known: bool, n: nat): (bits: seq<nat>)
    requires n <= 32
    ensures forall j | 0 <= j < |bits| :: bits[j] < n && Features.BitSet(reg, bits[j]) && (bits[j] in features) == known
    decreases n
  {
    if n == 0 then []
    else
      var bits := Flagged(features, reg, known, n - 1);
      if Features.BitSet(reg, n - 1) && ((n - 1) in features) == known then bits + [n - 1] else bits
  }

  /** The number of set bits of `reg` below `n`. */
  function PopCount(reg: bv32, n: nat): nat
    requires n <= 32
  {
    if n == 0 then 0 else PopCount(reg, n - 1) + (if Features.BitSet(reg, n - 1) then 1 else 0)
  }

  /** The label of a set bit without an entry: `fmt.Sprintf("Bit %d", i)`. */
  function BitLabel(i: nat): (s: string)
  {
    "Bit " + Numerals.Decimal(i)
  }

  function BitLabels(bits: seq<nat>): (ls: seq<string>)
    ensures |ls| == |bits|
  {
    seq(|bits|, j requires 0 <= j < |bits| => BitLabel(bits[j]))
  }

  /** The feature names of the given bits, in the same order. */
  function FeatureNames(features: FeatureMap, bits: seq<nat>): (ns: seq<string>)
    requires forall j | 0 <= j < |bits| :: bits[j] in features
    ensures |ns| == |bits|
  {
    seq(|bits|, j requires 0 <= j < |bits| => features[bits[j]].name)
  }

  /** Some set bit below 32 has a feature called `name`. */
  predicate NamesSetBit(features: FeatureMap, reg: bv32, name: string)
  {
    exists i | 0 <= i < 32 && i in features :: features[i].name == name && Features.BitSet(reg, i)
  }

  /** `printFeatureFlags`: the bit scan from bit 0 to bit 31. Set bits with
      an entry contribute their feature's name to `recognized`, which is
      sorted at the end; set bits without one contribute "Bit i" to
      `unrecognized`, in ascending order; clear bits contribute nothing. */
  method PrintFeatureFlags(features: FeatureMap, reg: bv32) returns (recognized: seq<string>, unrecognized: seq<string>)
    ensures Sorted(recognized)
    ensures multiset(recognized) == multiset(FeatureNames(features, Flagged(features, reg, true, 32)))
    ensures unrecognized == BitLabels(Flagged(features, reg, false, 32))
    ensures |recognized| + |unrecognized| == PopCount(reg, 32)
    ensures forall i | 0 <= i < 32 :: BitLabel(i) in unrecognized <==> Features.BitSet(reg, i) && i !in features
    ensures forall name :: name in recognized <==> NamesSetBit(features, reg, name)
  {
    var found: seq<string> := [];
    unrecognized := [];
    var i := 0;
    while i < 32
      invariant 0 <= i <= 32
      invariant found == FeatureNames(features, Flagged(features, reg, true, i))
      invariant unrecognized == BitLabels(Flagged(features, reg, false, i))
    {
      ScanStep(features, reg, i);
      if (reg >> i) & 1 == 1 {
        if i in features {
          found := found + [features[i].name];
        } else {
          unrecognized := unrecognized + [BitLabel(i)];
        }
      }
      i := i + 1;
    }
    recognized := SortStrings(found);
    FlaggedCount(features, reg, 32);
    UnrecognizedExactly(features, reg);
    RecognizedExactly(features, reg);
  }

  /** One step of the scan: bit `i` extends exactly one of the two lists
      when set, and neither when clear. */
  lemma ScanStep(features: FeatureMap, reg: bv32, i: nat)
    requires i < 32
    ensures var known := Flagged(features, reg, true, i);
            var unknown := Flagged(features, reg, false, i);
            && FeatureNames(features, Flagged(features, reg, true, i + 1))
               == FeatureNames(features, known) + (if (reg >> i) & 1 == 1 && i in features then [features[i].name] else [])
            && BitLabels(Flagged(features, reg, false, i + 1))
               == BitLabels(unknown) + (if (reg >> i) & 1 == 1 && i !in features then [BitLabel(i)] else [])
  {
    var known := Flagged(features, reg, true, i);
    var unknown := Flagged(features, reg, false, i);
    if (reg >> i) & 1 == 1 && i in features {
      NamesAppend(features, known, i);
    }
    if (reg >> i) & 1 == 1 && i !in features {
      LabelsAppend(unknown, i);
    }
  }

  lemma NamesAppend(features: FeatureMap, bits: seq<nat>, b: nat)
    requires forall j | 0 <= j < |bits| :: bits[j] in features
    requires b in features
    ensures FeatureNames(features, bits + [b]) == FeatureNames(features, bits) + [features[b].name]
  {
  }

  lemma LabelsAppend(bits: seq<nat>, b: nat)
    ensures BitLabels(bits + [b]) == BitLabels(bits) + [BitLabel(b)]
  {
  }

  /** A bit is listed exactly when it is below `n`, set, and has (or lacks)
      an entry as asked. */
  lemma {:induction false} FlaggedExactly(features: FeatureMap, reg: bv32, known: bool, n: nat, i: int)
    requires n <= 32
    ensures i in Flagged(features, reg, known, n) <==> 0 <= i < n && Features.BitSet(reg, i) && (i in features) == known
    decreases n
  {
    if n > 0 {
      FlaggedExactly(features, reg, known, n - 1, i);
    }
  }

  /** The listed bits ascend strictly, so "Bit i" labels come out in bit
      order, each at most once. */
  lemma {:induction false} FlaggedAscending(features: FeatureMap, reg: bv32, known: bool, n: nat)
    requires n <= 32
    ensures var bits := Flagged(features, reg, known, n);
            forall j, k | 0 <= j < k < |bits| :: bits[j] < bits[k]
    decreases n
  {
    if n > 0 {
      FlaggedAscending(features, reg, known, n - 1);
    }
  }

  /** Every set bit lands in exactly one of the two lists, and no clear bit
      lands in either. */
  lemma {:induction false} FlaggedCount(features: FeatureMap, reg: bv32, n: nat)
    requires n <= 32
    ensures |Flagged(features, reg, true, n)| + |Flagged(features, reg, false, n)| == PopCount(reg, n)
    decreases n
  {
    if n > 0 {
      FlaggedCount(features, reg, n - 1);
    }
  }

  /** Different bits have different labels. */
  lemma BitLabelInjective(i: nat, j: nat)
    requires BitLabel(i) == BitLabel(j)
    ensures i == j
  {
    assert BitLabel(i)[4..] == Numerals.Decimal(i);
    assert BitLabel(j)[4..] == Numerals.Decimal(j);
    Numerals.NumeralInjective(i, j, 10);
  }

  /** "Bit i" is reported exactly for the set bits below 32 without an
      entry. */
  lemma UnrecognizedExactly(features: FeatureMap, reg: bv32)
    ensures var labels := BitLabels(Flagged(features, reg, false, 32));
            forall i | 0 <= i < 32 :: BitLabel(i) in labels <==> Features.BitSet(reg, i) && i !in features
  {
    forall i | 0 <= i < 32 {
      LabelListed(features, reg, i);
    }
  }

  lemma LabelListed(features: FeatureMap, reg: bv32, i: nat)
    requires i < 32
    ensures BitLabel(i) in BitLabels(Flagged(features, reg, false, 32)) <==> Features.BitSet(reg, i) && i !in features
  {
    var bits := Flagged(features, reg, false, 32);
    FlaggedExactly(features, reg, false, 32, i);
    LabelIffListed(bits, i);
  }

  /** A bit's label is among the labels exactly when the bit is among the
      bits. */
  lemma LabelIffListed(bits: seq<nat>, i: nat)
    ensures BitLabel(i) in BitLabels(bits) <==> i in bits
  {
    var labels := BitLabels(bits);
    if i in bits {
      var j :| 0 <= j < |bits| && bits[j] == i;
      assert labels[j] == BitLabel(i);
    }
    if BitLabel(i) in labels {
      var j :| 0 <= j < |labels| && labels[j] == BitLabel(i);
      BitLabelInjective(i, bits[j]);
    }
  }

  /** A name is recognised exactly when some set bit below 32 carries a
      feature of that name. */
  lemma RecognizedExactly(features: FeatureMap, reg: bv32)
    ensures var names := FeatureNames(features, Flagged(features, reg, true, 32));
            forall name :: name in multiset(names) <==> NamesSetBit(features, reg, name)
  {
    forall name {
      NameRecognized(features, reg, name);
    }
  }

  lemma NameRecognized(features: FeatureMap, reg: bv32, name: string)
    ensures name in FeatureNames(features, Flagged(features, reg, true, 32)) <==> NamesSetBit(features, reg, name)
  {
    var bits := Flagged(features, reg, true, 32);
    var names := FeatureNames(features, bits);
    if name in names {
      var j :| 0 <= j < |names| && names[j] == name;
      FlaggedExactly(features, reg, true, 32, bits[j]);
      assert features[bits[j]].name == name;
    }
    if NamesSetBit(features, reg, name) {
      var i :| 0 <= i < 32 && i in features && features[i].name == name && Features.BitSet(reg, i);
      FlaggedExactly(features, reg, true, 32, i);
      var j :| 0 <= j < |bits| && bits[j] == i;
      assert names[j] == name;
    }
  }

  // ---------------------------------------------------------------------
  // The processor signature, rendered twice

  /** `printBasicInfo`'s effective model: the extended model is added in
      the high nibble for families 0FH and 6. */
  function BasicInfoModel(a: bv32): bv32
  {
    var model := (a >> 4) & 0xF;
    var family := (a >> 8) & 0xF;
    var extModel := (a >> 16) & 0xF;
    if family == 0xF || family == 0x6 then model + (extModel << 4) else model
  }

  /** `printBasicInfo`'s effective family: the extended family is added for
      family 0FH only. */
  function BasicInfoFamily(a: bv32): bv32
  {
    var family := (a >> 8) & 0xF;
    var extFamily := (a >> 20) & 0xFF;
    if family == 0xF then family + extFamily else family
  }

  /** The basic report follows the library's effective-model and
      effective-family rule. */
  lemma BasicInfoAgrees(a: bv32)
    ensures BasicInfoModel(a) == Identity.EffectiveModel(Identity.DecodeSignature(a))
    ensures BasicInfoFamily(a) == Identity.EffectiveFamily(Identity.DecodeSignature(a))
  {
  }

  /** `printProcessorInfo`'s model: the extended model shifted into the
      high nibble, whatever the family. */
  function ProcessorInfoModel(a: bv32): bv32
  {
    ((a >> 4) & 0xF) + (((a >> 16) & 0xF) << 4)
  }

  /** `printProcessorInfo`'s family: the extended family shifted left by
      four and added, whatever the family. */
  function ProcessorInfoFamily(a: bv32): bv32
  {
    ((a >> 8) & 0xF) + (((a >> 20) & 0xFF) << 4)
  }

  /** The processor-info model agrees with the effective model exactly when
      the family uses the extended model or the extended model is zero. */
  lemma ProcessorInfoModelAgrees(a: bv32)
    ensures var s := Identity.DecodeSignature(a);
            ProcessorInfoModel(a) == Identity.EffectiveModel(s) <==> Identity.UsesExtendedModel(s) || s.extModel == 0
  {
    var s := Identity.DecodeSignature(a);
    var m := ProcessorInfoModel(a);
    assert m >> 4 == s.extModel;
  }

  /** The processor-info family agrees with the effective family exactly
      when the extended family is zero, for every family. */
  lemma ProcessorInfoFamilyAgrees(a: bv32)
    ensures var s := Identity.DecodeSignature(a);
            ProcessorInfoFamily(a) == Identity.EffectiveFamily(s) <==> s.extFamily == 0
  {
    var s := Identity.DecodeSignature(a);
    var f := ProcessorInfoFamily(a);
    assert f == s.family + (s.extFamily << 4);
    assert s.extFamily << 4 < 0x1000;
  }

  /** A signature of family 10H (base family 0FH, extended family 1): the
      basic report shows family 10H, the processor-info report 1FH. */
  lemma FamilyTenDiverges()
    ensures BasicInfoFamily(0x0010_0F00) == 0x10
    ensures ProcessorInfoFamily(0x0010_0F00) == 0x1F
  {
  }

  /** A family 5 signature with extended model 1: the basic report shows
      model 0, the processor-info report 10H. */
  lemma ModelFiveDiverges()
    ensures BasicInfoModel(0x0001_0500) == 0
    ensures ProcessorInfoModel(0x0001_0500) == 0x10
  {
  }

  // ---------------------------------------------------------------------
  // AMD core and thread counts

  /** The AMD counts of `printBasicInfo`: both from ECX of leaf
      8000_0008H, bits 0-7 for cores and 8-15 for threads per core, each
      plus one. They are shown only for AMD when that leaf exists. */
  function OldAmdCounts(q: Source, maxExtFunc: u32, isAmd: bool): (r: Option<(bv32, bv32)>)
    ensures r.Some? <==> isAmd && maxExtFunc >= 0x8000_0008
    ensures r.Some? ==> 1 <= r.value.0 <= 0x100 && 1 <= r.value.1 <= 0x100
    ensures r.Some? ==> (r.value.0 - 1) | ((r.value.1 - 1) << 8) == q(0x8000_0008, 0).c & 0xFFFF
  {
    if isAmd && maxExtFunc >= 0x8000_0008 then
      var c := q(0x8000_0008, 0).c;
      Some(((c & 0xFF) + 1, ((c >> 8) & 0xFF) + 1))
    else None
  }

  /** Against the library's AMD branch (which needs leaf 8000_001EH): the
      core counts agree, and the thread counts agree exactly when bits 8-15
      of ECX of leaf 8000_0008H equal bits 8-15 of EBX of leaf 8000_001EH. */
  lemma OldAmdCountsAgainstLibrary(q: Source, maxFunc: u32, maxExtFunc: u32, maxLogical: bv32)
    requires maxLogical <= 0xFF && maxExtFunc >= 0x8000_001E
    ensures var before := OldAmdCounts(q, maxExtFunc, true).value;
            var lib := Topology.AmdCounts(q, maxFunc, maxExtFunc, maxLogical);
            && before.0 as int == lib.0
            && (before.1 as int == lib.1 <==> (q(0x8000_0008, 0).c >> 8) & 0xFF == (q(0x8000_001E, 0).b >> 8) & 0xFF)
  {
  }
}

=== FILE: register_source.dfy ===
/** Where register values come from (`cpuid.go`): the live instruction or
    the replay of a captured snapshot, chosen per call; and the two small
    decoders that read a single leaf, the maximum-leaf query and the
    hybrid-core leaf 1AH.

    The snapshot file is represented by what loading it yields: `None` when
    it cannot be opened or decoded, `Some(entries)` otherwise. */
module RegisterSource {
  import opened Types

  /** The file name replay uses when the caller gives none. */
  const DefaultSnapshotFile := "cpuid_data.json"

  predicate Matches(e: Entry, leaf: u32, subleaf: u32)
  {
    e.leaf == leaf && e.subleaf == subleaf
  }

  predicate Present(entries: seq<Entry>, leaf: u32, subleaf: u32)
  {
    exists k | 0 <= k < |entries| :: Matches(entries[k], leaf, subleaf)
  }

  /** `k` is the position of the first entry recorded for (leaf, subleaf). */
  predicate FirstMatch(entries: seq<Entry>, leaf: u32, subleaf: u32, k: int)
  {
    && 0 <= k < |entries|
    && Matches(entries[k], leaf, subleaf)
    && forall m | 0 <= m < k :: !Matches(entries[m], leaf, subleaf)
  }

  /** The snapshot search of `cpuidoffline`: the registers of the first
      entry recorded for (leaf, subleaf), or all zeros when there is none. */
  function Lookup(entries: seq<Entry>, leaf: u32, subleaf: u32): (r: Regs)
    ensures !Present(entries, leaf, subleaf) ==> r == ZeroRegs
    ensures Present(entries, leaf, subleaf) ==>
              exists k :: FirstMatch(entries, leaf, subleaf, k) && r == entries[k].Registers()
    decreases |entries|
  {
    if |entries| == 0 then ZeroRegs
    else if Matches(entries[0], leaf, subleaf) then
      assert FirstMatch(entries, leaf, subleaf, 0);
      entries[0].Registers()
    else
      var r := Lookup(entries[1..], leaf, subleaf);
      if Present(entries[1..], leaf, subleaf) then
        var k :| FirstMatch(entries[1..], leaf, subleaf, k) && r == entries[1..][k].Registers();
        assert FirstMatch(entries, leaf, subleaf, k + 1);
        r
      else
        assert !Present(entries, leaf, subleaf) by {
          forall k | 1 <= k < |entries| ensures !Matches(entries[k], leaf, subleaf) {
            assert entries[k] == entries[1..][k - 1];
          }
        }
        r
  }

  /** `cpuidoffline`: a snapshot that fails to load answers every query
      with zeros; a loaded one is searched. */
  function Replay(load: Option<seq<Entry>>, leaf: u32, subleaf: u32): (r: Regs)
    ensures load.None? ==> r == ZeroRegs
    ensures load.Some? && !Present(load.value, leaf, subleaf) ==> r == ZeroRegs
    ensures load.Some? && Present(load.value, leaf, subleaf) ==>
              exists k :: FirstMatch(load.value, leaf, subleaf, k) && r == load.value[k].Registers()
  {
    match load
    case None => ZeroRegs
    case Some(entries) => Lookup(entries, leaf, subleaf)
  }

  /** `CPUIDWithMode`: the live source unless `offline`; offline, the
      snapshot file named by `filename`, or the default file when the name
      is empty. `load` gives what loading a named file yields. */
  function WithMode(live: Source, load: string -> Option<seq<Entry>>, offline: bool, filename: string,
                    leaf: u32, subleaf: u32): (r: Regs)
    ensures !offline ==> r == live(leaf, subleaf)
    ensures offline && filename == "" ==> r == Replay(load(DefaultSnapshotFile), leaf, subleaf)
    ensures offline && filename != "" ==> r == Replay(load(filename), leaf, subleaf)
  {
    if !offline then live(leaf, subleaf)
    else
      var name := if filename == "" then DefaultSnapshotFile else filename;
      Replay(load(name), leaf, subleaf)
  }

  /** The source a decoder reads when called with `offline` and `filename`. */
  function Select(live: Source, load: string -> Option<seq<Entry>>, offline: bool, filename: string): Source
  {
    (leaf: u32, subleaf: u32) => WithMode(live, load, offline, filename, leaf, subleaf)
  }

  /** Replaying a snapshot whose entries all record what `q` answers gives
      `q`'s answer for every recorded query and zeros for the rest,
      whether or not a query was recorded more than once. */
  lemma {:induction false} LookupFaithful(entries: seq<Entry>, q: Source, leaf: u32, subleaf: u32)
    requires forall k | 0 <= k < |entries| :: entries[k] == Record(q, entries[k].leaf, entries[k].subleaf)
    ensures Lookup(entries, leaf, subleaf) == if Present(entries, leaf, subleaf) then q(leaf, subleaf) else ZeroRegs
  {
    var r := Lookup(entries, leaf, subleaf);
    if Present(entries, leaf, subleaf) {
      var k :| FirstMatch(entries, leaf, subleaf, k) && r == entries[k].Registers();
      assert entries[k] == Record(q, leaf, subleaf);
    }
  }

  // ---------------------------------------------------------------------
  // Maximum leaves

  /** `GetMaxFunctions`: EAX of leaf 0 (highest standard leaf) and of leaf
      8000_0000H (highest extended leaf), read from the chosen source. */
  function MaxFunctions(q: Source): (r: (u32, u32))
    ensures r.0 as bv32 == q(0, 0).a
    ensures r.1 as bv32 == q(0x8000_0000, 0).a
  {
    (ToU32(q(0, 0).a), ToU32(q(0x8000_0000, 0).a))
  }

  // ---------------------------------------------------------------------
  // Hybrid information, leaf 1AH

  /** `IntelHybridInfo`. */
  datatype HybridInfo = HybridInfo(hybridCpu: bool, nativeModelId: bv32, coreType: bv32, coreTypeName: string)

  const NotHybrid := HybridInfo(false, 0, 0, "")

  function CoreTypeName(coreType: bv32): string
  {
    if coreType == 1 then "Performance core (P-core)"
    else if coreType == 2 then "Efficient core (E-core)"
    else "Unknown core type"
  }

  /** The decode of leaf 1AH EAX done by `GetIntelHybrid`: bit 0 says
      whether the part is hybrid; bits 24-31 are the native model ID and
      bits 16-23 the core type. */
  function DecodeHybrid(a: bv32): (h: HybridInfo)
    ensures !h.hybridCpu <==> a & 1 == 0
    ensures !h.hybridCpu ==> h == NotHybrid
    ensures h.hybridCpu ==> h.nativeModelId < 0x100 && h.coreType < 0x100
    ensures h.hybridCpu ==> h.coreTypeName == CoreTypeName(h.coreType)
  {
    if a & 1 == 0 then NotHybrid
    else HybridInfo(true, (a >> 24) & 0xFF, (a >> 16) & 0xFF, CoreTypeName((a >> 16) & 0xFF))
  }

  /** `GetIntelHybrid`: reads EAX of leaf 1AH, subleaf 0, from the chosen
      source. Not hybrid unless bit 0 is set; otherwise the native model ID
      is bits 24-31, the core type bits 16-23, and the name follows the
      core type. */
  function IntelHybrid(q: Source): (h: HybridInfo)
    ensures h.hybridCpu <==> q(0x1A, 0).a & 1 == 1
    ensures !h.hybridCpu ==> h == NotHybrid
    ensures h.hybridCpu ==>
              && h.nativeModelId == (q(0x1A, 0).a >> 24) & 0xFF
              && h.coreType == (q(0x1A, 0).a >> 16) & 0xFF
              && h.coreTypeName == CoreTypeName(h.coreType)
  {
    DecodeHybrid(q(0x1A, 0).a)
  }

  /** The EAX value a hybrid part with the given fields reports; `low`
      carries the bits below 16, whose bit 0 is the hybrid flag. */
  function EncodeHybrid(nativeModelId: bv32, coreType: bv32, low: bv32): bv32
  {
    (nativeModelId << 24) | (coreType << 16) | low
  }

  /** Every hybrid report decodes to the fields it was built from, so the
      decoder loses nothing of bits 16-31. */
  lemma HybridRoundTrip(nativeModelId: bv32, coreType: bv32, low: bv32)
    requires nativeModelId < 0x100 && coreType < 0x100 && low < 0x1_0000 && low & 1 == 1
    ensures DecodeHybrid(EncodeHybrid(nativeModelId, coreType, low))
              == HybridInfo(true, nativeModelId, coreType, CoreTypeName(coreType))
  {
  }

  /** A source whose leaf 1AH reports a hybrid part with the given fields
      is read back as exactly that part. */
  lemma IntelHybridRoundTrip(q: Source, nativeModelId: bv32, coreType: bv32, low: bv32)
    requires nativeModelId < 0x100 && coreType < 0x100 && low < 0x1_0000 && low & 1 == 1
    requires q(0x1A, 0).a == EncodeHybrid(nativeModelId, coreType, low)
    ensures IntelHybrid(q) == HybridInfo(true, nativeModelId, coreType, CoreTypeName(coreType))
  {
    HybridRoundTrip(nativeModelId, coreType, low);
  }

  /** Both the P-core and E-core names are produced only for their own
      core-type codes. */
  lemma CoreTypeNames(coreType: bv32)
    ensures CoreTypeName(coreType) == "Performance core (P-core)" <==> coreType == 1
    ensures CoreTypeName(coreType) == "Efficient core (E-core)" <==> coreType == 2
  {
  }
}

=== FILE: sweep.dfy ===
/** The sentinel-terminated subleaf loop shared by the cache enumeration,
    the extended-topology scan, the structured TLB leaf and the snapshot
    capture: query subleaf 0, 1, 2, ... of one leaf until a leaf-specific
    stop test holds, recording every subleaf before the stopping one.

    The Go and C loops count subleaves in a 32-bit unsigned variable with
    no other bound. If no subleaf in 0..2^32-1 stops, the counter wraps to 0
    and the loop runs forever; the model reports that as `Diverges`. */
module Sweep {
  import opened Types

  /** The loop's stop test at subleaf `s` of `leaf`. */
  predicate StopsAt(q: Source, leaf: u32, stop: (u32, Regs) -> bool, s: u32)
  {
    stop(s, q(leaf, s))
  }

  /** `rows` are the records of `leaf` at consecutive subleaves starting
      at `j`, and none of them meets the stop test. */
  predicate Consecutive(q: Source, leaf: u32, stop: (u32, Regs) -> bool, j: u32, rows: seq<Entry>)
  {
    && (forall k | 0 <= k < |rows| ::
          rows[k] == Record(q, leaf, rows[k].subleaf) && !StopsAt(q, leaf, stop, rows[k].subleaf))
    && (|rows| > 0 ==> rows[0].subleaf == j)
    && (forall k | 0 <= k < |rows| - 1 :: Follows(rows[k], rows[k + 1]))
  }

  /** `b` records the subleaf right after `a`'s, with no wrap-around. */
  predicate Follows(a: Entry, b: Entry)
  {
    a.subleaf < 0xFFFF_FFFF && b.subleaf == a.subleaf + 1
  }

  /** The subleaf after the last row: where a loop that produced `rows`
      starting at `j` stopped. */
  function Next(j: u32, rows: seq<Entry>): int
  {
    if |rows| == 0 then j as int else rows[|rows| - 1].subleaf as int + 1
  }

  predicate Recorded(rows: seq<Entry>, s: u32)
  {
    exists k | 0 <= k < |rows| :: rows[k].subleaf == s
  }

  /** The loop from subleaf `j`: the rows before the first stopping
      subleaf, or `Diverges` when no subleaf from `j` on stops. */
  function Scan(q: Source, leaf: u32, stop: (u32, Regs) -> bool, j: u32): (r: Run<seq<Entry>>)
    decreases 0xFFFF_FFFF - j
    ensures r.Returns? ==> Consecutive(q, leaf, stop, j, r.value)
    ensures r.Returns? ==> Next(j, r.value) <= MaxU32 && StopsAt(q, leaf, stop, Next(j, r.value))
    ensures r.Diverges? ==> forall s: u32 | j <= s :: !StopsAt(q, leaf, stop, s)
  {
    if StopsAt(q, leaf, stop, j) then Returns([])
    else if j == MaxU32 then Diverges
    else
      match Scan(q, leaf, stop, j + 1)
      case Diverges => Diverges
      case Returns(rest) =>
        Extend(q, leaf, stop, j, rest);
        Returns([Record(q, leaf, j)] + rest)
  }

  /** One more loop iteration in front of consecutive rows. */
  lemma Extend(q: Source, leaf: u32, stop: (u32, Regs) -> bool, j: u32, rest: seq<Entry>)
    requires j < 0xFFFF_FFFF && !StopsAt(q, leaf, stop, j)
    requires Consecutive(q, leaf, stop, j + 1, rest)
    ensures Consecutive(q, leaf, stop, j, [Record(q, leaf, j)] + rest)
    ensures Next(j, [Record(q, leaf, j)] + rest) == Next(j + 1, rest)
  {
    var rows := [Record(q, leaf, j)] + rest;
    forall k | 0 <= k < |rows| - 1 ensures Follows(rows[k], rows[k + 1]) {
      if k > 0 { assert rows[k] == rest[k - 1] && rows[k + 1] == rest[k]; }
    }
    forall k | 0 <= k < |rows|
      ensures rows[k] == Record(q, leaf, rows[k].subleaf) && !StopsAt(q, leaf, stop, rows[k].subleaf)
    {
      if k > 0 { assert rows[k] == rest[k - 1]; }
    }
  }

  /** Consecutive rows cover exactly the subleaves from `j` up to (not
      including) `Next`, in strictly increasing order, without wrapping. */
  lemma {:induction false} ConsecutiveSpan(q: Source, leaf: u32, stop: (u32, Regs) -> bool, j: u32, rows: seq<Entry>)
    requires Consecutive(q, leaf, stop, j, rows)
    ensures Next(j, rows) == j + |rows|
    ensures forall k | 0 <= k < |rows| :: rows[k].subleaf == j + k
    ensures forall k1, k2 | 0 <= k1 < k2 < |rows| :: rows[k1].subleaf < rows[k2].subleaf
    ensures forall s: u32 | j <= s < Next(j, rows) :: Recorded(rows, s)
    decreases |rows|
  {
    if |rows| > 0 {
      var rest := rows[1..];
      if |rest| == 0 {
        assert Recorded(rows, j);
      } else {
        assert Follows(rows[0], rows[1]);
        assert rest[0].subleaf == j + 1;
        assert Consecutive(q, leaf, stop, j + 1, rest) by {
          forall k | 0 <= k < |rest| - 1 ensures Follows(rest[k], rest[k + 1]) {
            assert rest[k] == rows[k + 1] && rest[k + 1] == rows[k + 2];
          }
        }
        ConsecutiveSpan(q, leaf, stop, j + 1, rest);
        assert Next(j + 1, rest) == Next(j, rows);
        forall s: u32 | j <= s < Next(j, rows) ensures Recorded(rows, s) {
          if s == j {
            assert rows[0].subleaf == s;
          } else {
            assert Recorded(rest, s);
            var k :| 0 <= k < |rest| && rest[k].subleaf == s;
            assert rows[k + 1].subleaf == s;
          }
        }
        forall k1, k2 | 0 <= k1 < k2 < |rows| ensures rows[k1].subleaf < rows[k2].subleaf {
          assert rows[k2] == rest[k2 - 1];
          if k1 > 0 { assert rows[k1] == rest[k1 - 1]; }
        }
        forall k | 0 <= k < |rows| ensures rows[k].subleaf == j + k {
          if k > 0 { assert rows[k] == rest[k - 1]; }
        }
      }
    }
  }

  /** The loop started at subleaf 0 records exactly the subleaves before
      the first stopping one, in order, and diverges exactly when none
      stops. */
  lemma ScanFromZero(q: Source, leaf: u32, stop: (u32, Regs) -> bool)
    ensures Scan(q, leaf, stop, 0).Diverges? <==> forall s: u32 :: !StopsAt(q, leaf, stop, s)
    ensures Scan(q, leaf, stop, 0).Returns? ==>
              var rows := Scan(q, leaf, stop, 0).value;
              && |rows| <= MaxU32
              && StopsAt(q, leaf, stop, |rows|)
              && (forall k | 0 <= k < |rows| :: rows[k] == Record(q, leaf, k) && !StopsAt(q, leaf, stop, k))
  {
    var r := Scan(q, leaf, stop, 0);
    if r.Returns? {
      ConsecutiveSpan(q, leaf, stop, 0, r.value);
    } else {
      assert !StopsAt(q, leaf, stop, Next(0, []));
    }
  }
}

=== FILE: text.dfy ===
/** The string operations the library relies on, restricted to the byte
    strings it builds: Go's `string([]byte)`, `strings.ToUpper`,
    `strings.Contains`, `strings.TrimSpace` and `sort.Strings`.

    A Go string is a byte sequence; here a string is a `seq<char>` whose
    characters carry the byte values. Go compares strings byte-wise, and
    UTF-8 byte order coincides with code-point order, so the lexicographic
    order below is the order `sort.Strings` uses. */
module Text {

  /** `string(bytes)`: each byte becomes the character with the same code. */
  function ByteString(bs: seq<bv8>): (s: string)
    ensures |s| == |bs|
  {
    seq(|bs|, i requires 0 <= i < |bs| => bs[i] as char)
  }

  // ---------------------------------------------------------------------
  // Case mapping and substring search

  function UpperChar(c: char): char
  {
    if 'a' <= c <= 'z' then (c as int - 32) as char else c
  }

  /** `strings.ToUpper` on ASCII text. */
  function ToUpper(s: string): (u: string)
    ensures |u| == |s|
  {
    seq(|s|, i requires 0 <= i < |s| => UpperChar(s[i]))
  }

  predicate OccursAt(s: string, sub: string, i: int)
  {
    0 <= i && i + |sub| <= |s| && s[i..i + |sub|] == sub
  }

  /** `strings.Contains`: `sub` occurs somewhere in `s`. */
  predicate Contains(s: string, sub: string)
  {
    exists i | 0 <= i <= |s| - |sub| :: OccursAt(s, sub, i)
  }

  lemma ContainsPrefix(s: string, sub: string)
    requires sub <= s
    ensures Contains(s, sub)
  {
    assert OccursAt(s, sub, 0);
  }

  // ---------------------------------------------------------------------
  // Whitespace trimming

  /** The ASCII white space `strings.TrimSpace` removes: tab, line feed,
      vertical tab, form feed, carriage return and space. */
  predicate IsSpace(c: char)
  {
    c == ' ' || c == '\t' || c == '\n' || c == '\r' || c as int == 0x0B || c as int == 0x0C
  }

  predicate AllSpace(s: string)
  {
    forall i | 0 <= i < |s| :: IsSpace(s[i])
  }

  /** Length of the longest all-space prefix. */
  function LeadingSpaces(s: string): (n: nat)
    ensures n <= |s| && AllSpace(s[..n])
    ensures n < |s| ==> !IsSpace(s[n])
  {
    if |s| > 0 && IsSpace(s[0]) then 1 + LeadingSpaces(s[1..]) else 0
  }

  /** Length of the longest all-space suffix. */
  function TrailingSpaces(s: string): (n: nat)
    ensures n <= |s| && AllSpace(s[|s| - n..])
    ensures n < |s| ==> !IsSpace(s[|s| - n - 1])
  {
    if |s| > 0 && IsSpace(s[|s| - 1]) then 1 + TrailingSpaces(s[..|s| - 1]) else 0
  }

  /** `strings.TrimSpace`: the result is a contiguous piece of the input,
      everything cut away is white space, and the result neither starts nor
      ends with white space. */
  function TrimSpace(s: string): (r: string)
    ensures |r| <= |s|
    ensures exists i, j :: 0 <= i <= j <= |s| && r == s[i..j] && AllSpace(s[..i]) && AllSpace(s[j..])
    ensures |r| > 0 ==> !IsSpace(r[0]) && !IsSpace(r[|r| - 1])
    ensures AllSpace(s) <==> r == []
  {
    var i := LeadingSpaces(s);
    var k := TrailingSpaces(s[i..]);
    TrimEnds(s, i, k);
    TrimBounds(s, i, |s| - k);
    s[i..|s| - k]
  }

  /** Where trimming cuts: spaces outside, non-spaces at both ends inside. */
  lemma TrimEnds(s: string, i: nat, k: nat)
    requires i == LeadingSpaces(s) && k == TrailingSpaces(s[i..])
    ensures i <= |s| - k && AllSpace(s[|s| - k..])
    ensures i < |s| - k ==> !IsSpace(s[|s| - k - 1])
  {
    SuffixOfRest(s, i, k);
  }

  /** A suffix of `s[i..]` is the same suffix of `s`. */
  lemma SuffixOfRest(s: string, i: nat, k: nat)
    requires i <= |s| && k <= |s| - i
    ensures s[i..][|s| - i - k..] == s[|s| - k..]
    ensures k < |s| - i ==> s[i..][|s| - i - k - 1] == s[|s| - k - 1]
  {
  }

  /** A text without surrounding white space is left alone by trimming. */
  lemma TrimSpaceKeeps(s: string)
    requires |s| > 0 ==> !IsSpace(s[0]) && !IsSpace(s[|s| - 1])
    ensures TrimSpace(s) == s
  {
    assert LeadingSpaces(s) == 0;
    assert TrailingSpaces(s) == 0;
    assert s[0..|s|] == s;
  }

  /** Trimming removes exactly the white space around a text that starts
      and ends with something else: `strings.TrimSpace` inverts padding. */
  lemma TrimSpacePadded(pre: string, mid: string, post: string)
    requires AllSpace(pre) && AllSpace(post)
    requires |mid| > 0 ==> !IsSpace(mid[0]) && !IsSpace(mid[|mid| - 1])
    ensures TrimSpace(pre + mid + post) == mid
  {
    if |mid| == 0 {
      assert pre + mid + post == pre + post;
      PaddingOnly(pre, post);
    } else {
      PaddedText(pre, mid, post);
    }
  }

  lemma PaddingOnly(pre: string, post: string)
    requires AllSpace(pre) && AllSpace(post)
    ensures TrimSpace(pre + post) == []
  {
    var s := pre + post;
    forall m | 0 <= m < |s| ensures IsSpace(s[m]) {
      assert m < |pre| ==> s[m] == pre[m];
      assert m >= |pre| ==> s[m] == post[m - |pre|];
    }
  }

  lemma PaddedText(pre: string, mid: string, post: string)
    requires AllSpace(pre) && AllSpace(post)
    requires |mid| > 0 && !IsSpace(mid[0]) && !IsSpace(mid[|mid| - 1])
    ensures TrimSpace(pre + mid + post) == mid
  {
    var s := pre + mid + post;
    var a, b := |pre|, |pre| + |mid|;
    var i, j := TrimCut(s);
    assert s[a] == mid[0] && s[b - 1] == mid[|mid| - 1];
    assert !AllSpace(s) by {
      assert !IsSpace(s[a]);
    }
    var r := TrimSpace(s);
    assert |r| > 0 && r[0] == s[i] && r[|r| - 1] == s[j - 1];
    assert s[..a] == pre && s[b..] == post;
    SameLeadingCut(s, i, a);
    SameTrailingCut(s, j, b);
    assert s[a..b] == mid;
  }

  /** Where `TrimSpace` cut. */
  lemma TrimCut(s: string) returns (i: nat, j: nat)
    ensures i <= j <= |s| && TrimSpace(s) == s[i..j] && AllSpace(s[..i]) && AllSpace(s[j..])
  {
    i, j :| 0 <= i <= j <= |s| && TrimSpace(s) == s[i..j] && AllSpace(s[..i]) && AllSpace(s[j..]);
  }

  /** Two all-space prefixes that both end before a non-space character
      have the same length. */
  lemma SameLeadingCut(s: string, i: nat, a: nat)
    requires i < |s| && a < |s|
    requires AllSpace(s[..i]) && !IsSpace(s[i])
    requires AllSpace(s[..a]) && !IsSpace(s[a])
    ensures i == a
  {
    forall m | 0 <= m < i ensures IsSpace(s[m]) {
      assert s[m] == s[..i][m];
    }
    forall m | 0 <= m < a ensures IsSpace(s[m]) {
      assert s[m] == s[..a][m];
    }
  }

  /** Two all-space suffixes that both start after a non-space character
      have the same length. */
  lemma SameTrailingCut(s: string, j: nat, b: nat)
    requires 0 < j <= |s| && 0 < b <= |s|
    requires AllSpace(s[j..]) && !IsSpace(s[j - 1])
    requires AllSpace(s[b..]) && !IsSpace(s[b - 1])
    ensures j == b
  {
    forall m | j <= m < |s| ensures IsSpace(s[m]) {
      assert s[m] == s[j..][m - j];
    }
    forall m | b <= m < |s| ensures IsSpace(s[m]) {
      assert s[m] == s[b..][m - b];
    }
  }

  /** `string` of a concatenation is the concatenation of the strings. */
  lemma ByteStringSplit(bs: seq<bv8>, i: nat, j: nat)
    requires i <= j <= |bs|
    ensures ByteString(bs) == ByteString(bs[..i]) + ByteString(bs[i..j]) + ByteString(bs[j..])
  {
  }

  lemma TrimBounds(s: string, i: nat, j: nat)
    requires i <= j <= |s|
    requires AllSpace(s[..i]) && AllSpace(s[j..])
    requires i < |s| ==> !IsSpace(s[i])
    requires i < j ==> !IsSpace(s[j - 1])
    ensures AllSpace(s) <==> i == j
    ensures i < j ==> !IsSpace(s[i..j][0]) && !IsSpace(s[i..j][j - i - 1])
  {
    if i == j {
      // the requires force i == |s| here: s[i] would be both space and not
      forall m | 0 <= m < |s| ensures IsSpace(s[m]) {
        assert s[m] == s[..i][m];
      }
    }
  }

  // ---------------------------------------------------------------------
  // Lexicographic order and sorting

  /** `a` sorts no later than `b` under byte-wise comparison. */
  predicate LexLe(a: string, b: string)
    decreases |a|
  {
    |a| == 0 || (|b| > 0 && (a[0] < b[0] || (a[0] == b[0] && LexLe(a[1..], b[1..]))))
  }

  lemma {:induction false} LexLeReflexive(a: string)
    ensures LexLe(a, a)
    decreases |a|
  {
    if |a| > 0 {
      LexLeReflexive(a[1..]);
    }
  }

  lemma {:induction false} LexLeTotal(a: string, b: string)
    ensures LexLe(a, b) || LexLe(b, a)
    decreases |a|
  {
    if |a| > 0 && |b| > 0 && a[0] == b[0] {
      LexLeTotal(a[1..], b[1..]);
    }
  }

  lemma {:induction false} LexLeAntisymmetric(a: string, b: string)
    requires LexLe(a, b) && LexLe(b, a)
    ensures a == b
    decreases |a|
  {
    if |a| > 0 {
      LexLeAntisymmetric(a[1..], b[1..]);
      assert a == [a[0]] + a[1..];
      assert b == [b[0]] + b[1..];
    }
  }

  lemma {:induction false} LexLeTransitive(a: string, b: string, c: string)
    requires LexLe(a, b) && LexLe(b, c)
    ensures LexLe(a, c)
    decreases |a|
  {
    if |a| > 0 && a[0] == b[0] && b[0] == c[0] {
      LexLeTransitive(a[1..], b[1..], c[1..]);
    }
  }

  predicate Sorted(s: seq<string>)
  {
    forall i, j | 0 <= i < j < |s| :: LexLe(s[i], s[j])
  }

  /** Inserts `x` into a sorted sequence, keeping it sorted. */
  function Insert(x: string, s: seq<string>): (r: seq<string>)
    requires Sorted(s)
    ensures Sorted(r)
    ensures multiset(r) == multiset(s) + multiset{x}
  {
    if |s| == 0 then [x]
    else if LexLe(x, s[0]) then
      InsertFront(x, s);
      [x] + s
    else
      var tail := Insert(x, s[1..]);
      InsertAfterHead(x, s, tail);
      [s[0]] + tail
  }

  lemma InsertFront(x: string, s: seq<string>)
    requires Sorted(s) && |s| > 0 && LexLe(x, s[0])
    ensures Sorted([x] + s)
  {
    forall k | 0 <= k < |s| ensures LexLe(x, s[k]) {
      if k > 0 { LexLeTransitive(x, s[0], s[k]); }
    }
    var r := [x] + s;
    forall i, j | 0 <= i < j < |r| ensures LexLe(r[i], r[j]) {
      assert r[j] == s[j - 1];
      if i > 0 { assert r[i] == s[i - 1]; }
    }
  }

  lemma InsertAfterHead(x: string, s: seq<string>, tail: seq<string>)
    requires Sorted(s) && |s| > 0 && !LexLe(x, s[0])
    requires Sorted(tail) && multiset(tail) == multiset(s[1..]) + multiset{x}
    ensures Sorted([s[0]] + tail)
    ensures multiset([s[0]] + tail) == multiset(s) + multiset{x}
  {
    assert s == [s[0]] + s[1..];
    assert LexLe(s[0], x) by { LexLeTotal(x, s[0]); }
    forall k | 0 <= k < |tail| ensures LexLe(s[0], tail[k]) {
      var y := tail[k];
      assert y in multiset(tail);
      if y != x {
        assert y in multiset(s[1..]);
        var m :| 0 <= m < |s[1..]| && s[1..][m] == y;
        assert s[m + 1] == y;
      }
    }
    var r := [s[0]] + tail;
    forall i, j | 0 <= i < j < |r| ensures LexLe(r[i], r[j]) {
      assert r[j] == tail[j - 1];
      if i > 0 { assert r[i] == tail[i - 1]; }
    }
  }

  /** `sort.Strings`: a sorted permutation of the input. */
  function SortStrings(s: seq<string>): (r: seq<string>)
    ensures Sorted(r)
    ensures multiset(r) == multiset(s)
  {
    if |s| == 0 then []
    else
      assert s == [s[0]] + s[1..];
      Insert(s[0], SortStrings(s[1..]))
  }

  /** The first element of a sorted sequence is at most any element in it. */
  lemma SortedFirstIsLeast(s: seq<string>, x: string)
    requires Sorted(s) && x in multiset(s)
    ensures LexLe(s[0], x)
  {
    var i :| 0 <= i < |s| && s[i] == x;
    if i == 0 { LexLeReflexive(x); }
  }

  /** Dropping the first element keeps a sequence sorted and removes one
      copy of that element. */
  lemma SortedTail(s: seq<string>)
    requires Sorted(s) && |s| > 0
    ensures Sorted(s[1..]) && multiset(s[1..]) == multiset(s) - multiset{s[0]}
  {
    assert s == [s[0]] + s[1..];
  }

  /** Sorting determines its result: two sorted sequences holding the same
      strings are equal. So the sorted listing does not depend on the order
      the strings were collected in. */
  lemma {:induction false} SortedUnique(a: seq<string>, b: seq<string>)
    requires Sorted(a) && Sorted(b)
    requires multiset(a) == multiset(b)
    ensures a == b
    decreases |a|
  {
    if |a| == 0 {
      assert |b| == |multiset(b)| == 0;
    } else {
      assert |b| == |multiset(b)| == |multiset(a)| == |a|;
      SortedFirstIsLeast(b, a[0]);
      SortedFirstIsLeast(a, b[0]);
      LexLeAntisymmetric(a[0], b[0]);
      SortedTail(a);
      SortedTail(b);
      SortedUnique(a[1..], b[1..]);
      assert a == [a[0]] + a[1..];
    }
  }

  // ---------------------------------------------------------------------
  // Distinct elements

  predicate Distinct<T(==)>(s: seq<T>)
  {
    forall i, j | 0 <= i < j < |s| :: s[i] != s[j]
  }

  /** A sequence has no repeated element exactly when no element occurs
      in it more than once as a multiset. */
  lemma {:induction false} DistinctCounts<T>(s: seq<T>)
    ensures Distinct(s) <==> forall x :: multiset(s)[x] <= 1
    decreases |s|
  {
    if |s| > 0 {
      var h, t := s[0], s[1..];
      assert s == [h] + t;
      DistinctCounts(t);
      if Distinct(s) {
        assert Distinct(t) by {
          forall i, j | 0 <= i < j < |t| ensures t[i] != t[j] {
            assert t[i] == s[i + 1] && t[j] == s[j + 1];
          }
        }
      } else {
        var i, j :| 0 <= i < j < |s| && s[i] == s[j];
        if i == 0 {
          assert s[j] in t by { assert t[j - 1] == s[j]; }
          assert multiset(s)[h] == multiset(t)[h] + 1;
        } else {
          assert t[i - 1] == t[j - 1];
          assert !Distinct(t);
          var x :| multiset(t)[x] > 1;
          assert multiset(s)[x] >= multiset(t)[x];
        }
      }
    }
  }
}

=== FILE: tlb.dfy ===
/** TLB description (`cpuid_tlb.go`): the fixed-offset AMD layout of leaves
    8000_0005H, 8000_0006H and 8000_0019H, and for Intel the legacy
    descriptor leaf 02H followed by the structured subleaf loop of leaf 18H,
    whose entries are routed by level and type.

    Three helpers of the source are not part of this model and are taken
    as parameters: the AMD associativity text (`getAssociativity`), the
    Intel associativity text (`getIntelAssociativity`) and the leaf 02H
    descriptor table (`processIntelDescriptors`), which may change the
    record in any way. The vendor tests `isAMD`/`isIntel` are parameters
    too. */
module Tlb {
  import opened Types
  import Sweep

  /** `TLBEntry`. `entries` holds the Go `int` count, whose value here is
      always below 2^12 + 1. */
  datatype TlbEntry = TlbEntry(pageSize: string, entries: bv32, associativity: string)

  /** `TLBLevel`: the entries of one level, by kind. */
  datatype TlbLevel = TlbLevel(data: seq<TlbEntry>, instruction: seq<TlbEntry>, unified: seq<TlbEntry>)

  /** `TLBInfo`. */
  datatype TlbInfo = TlbInfo(vendor: string, l1: TlbLevel, l2: TlbLevel, l3: TlbLevel)

  const EmptyLevel := TlbLevel([], [], [])

  type AssocText = bv32 -> string
  type Descriptors = (TlbInfo, bv32, bv32, bv32, bv32) -> TlbInfo

  // ---------------------------------------------------------------------
  // AMD

  /** Level 1 from leaf 8000_0005H: for data (EAX) and instructions (EBX),
      the 2 MB/4 MB entry count in bits 16-23 and the 4 KB count in bits
      24-31, both with the associativity code of bits 8-15. */
  function AmdL1(r: Regs, assoc: AssocText): (lv: TlbLevel)
    ensures |lv.data| == 2 && |lv.instruction| == 2 && lv.unified == []
    ensures lv.data[0].pageSize == lv.instruction[0].pageSize == "2MB/4MB"
    ensures lv.data[1].pageSize == lv.instruction[1].pageSize == "4KB"
    ensures lv.data[0].entries == (r.a >> 16) & 0xFF && lv.data[1].entries == r.a >> 24
    ensures lv.instruction[0].entries == (r.b >> 16) & 0xFF && lv.instruction[1].entries == r.b >> 24
    ensures lv.data[0].associativity == lv.data[1].associativity == assoc((r.a >> 8) & 0xFF)
    ensures lv.instruction[0].associativity == lv.instruction[1].associativity == assoc((r.b >> 8) & 0xFF)
  {
    TlbLevel(
      [TlbEntry("2MB/4MB", (r.a >> 16) & 0xFF, assoc((r.a >> 8) & 0xFF)),
       TlbEntry("4KB", (r.a >> 24) & 0xFF, assoc((r.a >> 8) & 0xFF))],
      [TlbEntry("2MB/4MB", (r.b >> 16) & 0xFF, assoc((r.b >> 8) & 0xFF)),
       TlbEntry("4KB", (r.b >> 24) & 0xFF, assoc((r.b >> 8) & 0xFF))],
      [])
  }

  /** Level 2 from leaf 8000_0006H: the 2 MB/4 MB count in bits 16-27 and
      the 4 KB count in bits 28-31, with the associativity code of bits
      12-15. */
  function AmdL2(r: Regs, assoc: AssocText): (lv: TlbLevel)
    ensures |lv.data| == 2 && |lv.instruction| == 2 && lv.unified == []
    ensures lv.data[0].pageSize == lv.instruction[0].pageSize == "2MB/4MB"
    ensures lv.data[1].pageSize == lv.instruction[1].pageSize == "4KB"
    ensures lv.data[0].entries == (r.a >> 16) & 0xFFF && lv.data[1].entries == r.a >> 28
    ensures lv.instruction[0].entries == (r.b >> 16) & 0xFFF && lv.instruction[1].entries == r.b >> 28
    ensures lv.data[0].associativity == lv.data[1].associativity == assoc((r.a >> 12) & 0xF)
    ensures lv.instruction[0].associativity == lv.instruction[1].associativity == assoc((r.b >> 12) & 0xF)
  {
    TlbLevel(
      [TlbEntry("2MB/4MB", (r.a >> 16) & 0xFFF, assoc((r.a >> 12) & 0xF)),
       TlbEntry("4KB", (r.a >> 28) & 0xF, assoc((r.a >> 12) & 0xF))],
      [TlbEntry("2MB/4MB", (r.b >> 16) & 0xFFF, assoc((r.b >> 12) & 0xF)),
       TlbEntry("4KB", (r.b >> 28) & 0xF, assoc((r.b >> 12) & 0xF))],
      [])
  }

  /** An L1 register word: the associativity code in bits 8-15, the
      2 MB/4 MB count in bits 16-23, the 4 KB count in bits 24-31, and
      anything in bits 0-7. */
  function L1Word(large: bv32, small: bv32, code: bv32, low: bv32): bv32
  {
    low | (code << 8) | (large << 16) | (small << 24)
  }

  /** An L2 (and L3) register word: the associativity code in bits 12-15,
      the 2 MB/4 MB (or 1 GB) count in bits 16-27, the 4 KB count in bits
      28-31, and anything in bits 0-11. */
  function L2Word(large: bv32, small: bv32, code: bv32, low: bv32): bv32
  {
    low | (code << 12) | (large << 16) | (small << 28)
  }

  /** The two entries of one kind at an AMD level. */
  function AmdPair(large: bv32, small: bv32, associativity: string): seq<TlbEntry>
  {
    [TlbEntry("2MB/4MB", large, associativity), TlbEntry("4KB", small, associativity)]
  }

  lemma L1WordFields(large: bv32, small: bv32, code: bv32, low: bv32)
    requires large < 0x100 && small < 0x100 && code < 0x100 && low < 0x100
    ensures var w := L1Word(large, small, code, low);
            (w >> 16) & 0xFF == large && w >> 24 == small && (w >> 8) & 0xFF == code
  {
  }

  lemma L2WordFields(large: bv32, small: bv32, code: bv32, low: bv32)
    requires large < 0x1000 && small < 0x10 && code < 0x10 && low < 0x1000
    ensures var w := L2Word(large, small, code, low);
            (w >> 16) & 0xFFF == large && w >> 28 == small && (w >> 12) & 0xF == code
  {
  }

  /** Leaf 8000_0005H registers built from chosen counts and codes describe
      exactly those entries, whatever the low bytes and ECX/EDX hold. */
  lemma AmdL1RoundTrip(dLarge: bv32, dSmall: bv32, dCode: bv32, dLow: bv32,
                       iLarge: bv32, iSmall: bv32, iCode: bv32, iLow: bv32, c: bv32, d: bv32, assoc: AssocText)
    requires dLarge < 0x100 && dSmall < 0x100 && dCode < 0x100 && dLow < 0x100
    requires iLarge < 0x100 && iSmall < 0x100 && iCode < 0x100 && iLow < 0x100
    ensures AmdL1(Regs(L1Word(dLarge, dSmall, dCode, dLow), L1Word(iLarge, iSmall, iCode, iLow), c, d), assoc)
              == TlbLevel(AmdPair(dLarge, dSmall, assoc(dCode)), AmdPair(iLarge, iSmall, assoc(iCode)), [])
  {
    L1WordFields(dLarge, dSmall, dCode, dLow);
    L1WordFields(iLarge, iSmall, iCode, iLow);
  }

  /** The same for leaf 8000_0006H. */
  lemma AmdL2RoundTrip(dLarge: bv32, dSmall: bv32, dCode: bv32, dLow: bv32,
                       iLarge: bv32, iSmall: bv32, iCode: bv32, iLow: bv32, c: bv32, d: bv32, assoc: AssocText)
    requires dLarge < 0x1000 && dSmall < 0x10 && dCode < 0x10 && dLow < 0x1000
    requires iLarge < 0x1000 && iSmall < 0x10 && iCode < 0x10 && iLow < 0x1000
    ensures AmdL2(Regs(L2Word(dLarge, dSmall, dCode, dLow), L2Word(iLarge, iSmall, iCode, iLow), c, d), assoc)
              == TlbLevel(AmdPair(dLarge, dSmall, assoc(dCode)), AmdPair(iLarge, iSmall, assoc(iCode)), [])
  {
    L2WordFields(dLarge, dSmall, dCode, dLow);
    L2WordFields(iLarge, iSmall, iCode, iLow);
  }

  /** A processor whose leaf 8000_0019H EAX is built from a 1 GB count and
      a code reports exactly that level-3 entry, from leaf 8000_0019H on. */
  lemma AmdL3RoundTrip(q: Source, maxExtFunc: u32, count: bv32, code: bv32, small: bv32, low: bv32, assoc: AssocText)
    requires maxExtFunc >= 0x8000_0019
    requires count < 0x1000 && code < 0x10 && small < 0x10 && low < 0x1000
    requires q(0x8000_0019, 0).a == L2Word(count, small, code, low)
    ensures AmdTlb(q, maxExtFunc, assoc).l3 == TlbLevel([TlbEntry("1GB", count, assoc(code))], [], [])
  {
    L2WordFields(count, small, code, low);
  }

  /** `GetAMDTLBInfo`. */
  function AmdTlb(q: Source, maxExtFunc: u32, assoc: AssocText): (info: TlbInfo)
    ensures info.vendor == "AMD"
    ensures info.l1 == AmdL1(q(0x8000_0005, 0), assoc)
    ensures maxExtFunc < 0x8000_0006 ==> info.l2 == EmptyLevel && info.l3 == EmptyLevel
    ensures maxExtFunc >= 0x8000_0006 ==> info.l2 == AmdL2(q(0x8000_0006, 0), assoc)
    ensures maxExtFunc < 0x8000_0019 ==> info.l3 == EmptyLevel
    ensures maxExtFunc >= 0x8000_0019 ==>
              var a := q(0x8000_0019, 0).a;
              info.l3 == TlbLevel([TlbEntry("1GB", (a >> 16) & 0xFFF, assoc((a >> 12) & 0xF))], [], [])
    ensures info.l1.unified == info.l2.unified == info.l3.unified == []
  {
    var l1 := AmdL1(q(0x8000_0005, 0), assoc);
    if maxExtFunc >= 0x8000_0006 then
      var l2 := AmdL2(q(0x8000_0006, 0), assoc);
      var l3 :=
        if maxExtFunc >= 0x8000_0019 then
          var a := q(0x8000_0019, 0).a;
          TlbLevel([TlbEntry("1GB", (a >> 16) & 0xFFF, assoc((a >> 12) & 0xF))], [], [])
        else EmptyLevel;
      TlbInfo("AMD", l1, l2, l3)
    else TlbInfo("AMD", l1, EmptyLevel, EmptyLevel)
  }

  // ---------------------------------------------------------------------
  // Intel leaf 18H

  /** `getTLBPageSize`: the code in the low four bits. */
  function PageSizeName(value: bv32): (name: string)
    ensures value & 0xF == 1 <==> name == "4KB"
    ensures value & 0xF == 2 <==> name == "2MB"
    ensures value & 0xF == 3 <==> name == "4MB"
    ensures value & 0xF == 4 <==> name == "1GB"
    ensures value & 0xF == 5 <==> name == "256MB"
    ensures value & 0xF == 0xF <==> name == "Reserved"
    ensures name == "Unknown" <==> value & 0xF == 0 || 6 <= value & 0xF <= 0xE
  {
    var code := value & 0xF;
    if code == 1 then "4KB"
    else if code == 2 then "2MB"
    else if code == 3 then "4MB"
    else if code == 4 then "1GB"
    else if code == 5 then "256MB"
    else if code == 0xF then "Reserved"
    else "Unknown"
  }

  /** `getTLBType`. */
  function TlbTypeName(value: bv32): (name: string)
    ensures name == "Invalid" <==> value == 0
    ensures name == "Data" <==> value == 1
    ensures name == "Instruction" <==> value == 2
    ensures name == "Unified" <==> value == 3
    ensures name == "Unknown" <==> value > 3
  {
    if value == 0 then "Invalid"
    else if value == 1 then "Data"
    else if value == 2 then "Instruction"
    else if value == 3 then "Unified"
    else "Unknown"
  }

  /** The source passes a two-bit field, so "Unknown" never arises. */
  lemma TlbTypeNeverUnknown(c: bv32)
    ensures TlbTypeName((c >> 8) & 0x3) != "Unknown"
  {
  }

  /** `addIntelTLBEntry`: appends to the list of the named kind; any other
      kind ("Invalid") leaves the level unchanged. */
  function AddEntry(lv: TlbLevel, kind: string, e: TlbEntry): (r: TlbLevel)
    ensures kind == "Data" ==> r == lv.(data := lv.data + [e])
    ensures kind == "Instruction" ==> r == lv.(instruction := lv.instruction + [e])
    ensures kind == "Unified" ==> r == lv.(unified := lv.unified + [e])
    ensures kind !in {"Data", "Instruction", "Unified"} ==> r == lv
  {
    if kind == "Data" then lv.(data := lv.data + [e])
    else if kind == "Instruction" then lv.(instruction := lv.instruction + [e])
    else if kind == "Unified" then lv.(unified := lv.unified + [e])
    else lv
  }

  /** The entry one leaf 18H subleaf describes. */
  function StructuredEntry(r: Regs, intelAssoc: AssocText): (e: TlbEntry)
    ensures 1 <= e.entries <= 0x1000
    ensures (e.entries - 1) << 16 == r.b & 0x0FFF_0000
    ensures e.pageSize == PageSizeName(r.b)
    ensures e.associativity == intelAssoc(r.b >> 8)
  {
    TlbEntry(PageSizeName(r.b), ((r.b >> 16) & 0xFFF) + 1, intelAssoc(r.b >> 8))
  }

  function EntryLevel(r: Regs): bv32 { (r.c >> 5) & 0x7 }

  function EntryKind(r: Regs): string { TlbTypeName((r.c >> 8) & 0x3) }

  /** One iteration of the leaf 18H loop: the entry goes to level 1, 2 or 3
      by ECX bits 5-7, and to the list of its kind (ECX bits 8-9). */
  function Route(info: TlbInfo, r: Regs, intelAssoc: AssocText): TlbInfo
  {
    var e := StructuredEntry(r, intelAssoc);
    var level := EntryLevel(r);
    var kind := EntryKind(r);
    if level == 1 then info.(l1 := AddEntry(info.l1, kind, e))
    else if level == 2 then info.(l2 := AddEntry(info.l2, kind, e))
    else if level == 3 then info.(l3 := AddEntry(info.l3, kind, e))
    else info
  }

  /** The loop over the recorded subleaves, in order. */
  function RouteAll(info: TlbInfo, rows: seq<Entry>, intelAssoc: AssocText): TlbInfo
    decreases |rows|
  {
    if |rows| == 0 then info
    else RouteAll(Route(info, rows[0].Registers(), intelAssoc), rows[1..], intelAssoc)
  }

  /** Reference: the entries of the subleaves routed to (level, kind), in
      subleaf order. */
  function Routed(rows: seq<Entry>, level: bv32, kind: string, intelAssoc: AssocText): seq<TlbEntry>
    decreases |rows|
  {
    if |rows| == 0 then []
    else
      var r := rows[0].Registers();
      (if EntryLevel(r) == level && EntryKind(r) == kind then [StructuredEntry(r, intelAssoc)] else [])
        + Routed(rows[1..], level, kind, intelAssoc)
  }

  /** A level with the routed entries appended to each list. */
  function WithRouted(lv: TlbLevel, rows: seq<Entry>, level: bv32, intelAssoc: AssocText): TlbLevel
  {
    TlbLevel(lv.data + Routed(rows, level, "Data", intelAssoc),
             lv.instruction + Routed(rows, level, "Instruction", intelAssoc),
             lv.unified + Routed(rows, level, "Unified", intelAssoc))
  }

  /** The whole record after the loop, by the reference reading. */
  function AfterLoop(info: TlbInfo, rows: seq<Entry>, intelAssoc: AssocText): TlbInfo
  {
    TlbInfo(info.vendor, WithRouted(info.l1, rows, 1, intelAssoc), WithRouted(info.l2, rows, 2, intelAssoc),
            WithRouted(info.l3, rows, 3, intelAssoc))
  }

  /** The reference reading of a single subleaf. */
  lemma RoutedSingle(x: Entry, level: bv32, kind: string, intelAssoc: AssocText)
    ensures Routed([x], level, kind, intelAssoc)
              == if EntryLevel(x.Registers()) == level && EntryKind(x.Registers()) == kind
                 then [StructuredEntry(x.Registers(), intelAssoc)] else []
  {
    assert [x][1..] == [];
  }

  lemma RoutedCons(x: Entry, rest: seq<Entry>, level: bv32, kind: string, intelAssoc: AssocText)
    ensures Routed([x] + rest, level, kind, intelAssoc) == Routed([x], level, kind, intelAssoc) + Routed(rest, level, kind, intelAssoc)
  {
    assert ([x] + rest)[0] == x;
    assert ([x] + rest)[1..] == rest;
    RoutedSingle(x, level, kind, intelAssoc);
  }

  lemma AppendRoutedCons(l: seq<TlbEntry>, x: Entry, rest: seq<Entry>, level: bv32, kind: string, intelAssoc: AssocText)
    ensures l + Routed([x] + rest, level, kind, intelAssoc)
              == (l + Routed([x], level, kind, intelAssoc)) + Routed(rest, level, kind, intelAssoc)
  {
    RoutedCons(x, rest, level, kind, intelAssoc);
  }

  lemma WithRoutedCons(lv: TlbLevel, x: Entry, rest: seq<Entry>, level: bv32, intelAssoc: AssocText)
    ensures WithRouted(lv, [x] + rest, level, intelAssoc)
              == WithRouted(WithRouted(lv, [x], level, intelAssoc), rest, level, intelAssoc)
  {
    AppendRoutedCons(lv.data, x, rest, level, "Data", intelAssoc);
    AppendRoutedCons(lv.instruction, x, rest, level, "Instruction", intelAssoc);
    AppendRoutedCons(lv.unified, x, rest, level, "Unified", intelAssoc);
  }

  /** One subleaf routed to `level` (or elsewhere) changes this level as
      the loop body does. */
  lemma WithRoutedSingle(lv: TlbLevel, x: Entry, level: bv32, intelAssoc: AssocText)
    ensures WithRouted(lv, [x], level, intelAssoc)
              == if EntryLevel(x.Registers()) == level
                 then AddEntry(lv, EntryKind(x.Registers()), StructuredEntry(x.Registers(), intelAssoc))
                 else lv
  {
    RoutedSingle(x, level, "Data", intelAssoc);
    RoutedSingle(x, level, "Instruction", intelAssoc);
    RoutedSingle(x, level, "Unified", intelAssoc);
  }

  /** One loop iteration agrees with the reference reading of one subleaf. */
  lemma RouteStep(info: TlbInfo, x: Entry, intelAssoc: AssocText)
    ensures Route(info, x.Registers(), intelAssoc) == AfterLoop(info, [x], intelAssoc)
  {
    WithRoutedSingle(info.l1, x, 1, intelAssoc);
    WithRoutedSingle(info.l2, x, 2, intelAssoc);
    WithRoutedSingle(info.l3, x, 3, intelAssoc);
  }

  /** The leaf 18H loop appends, to each (level, kind) list, exactly the
      entries of the subleaves routed there, in subleaf order; entries with
      a level outside 1..3 or the invalid kind are dropped, and nothing
      else of the record changes. */
  lemma {:induction false} RouteAllIsReference(info: TlbInfo, rows: seq<Entry>, intelAssoc: AssocText)
    ensures RouteAll(info, rows, intelAssoc) == AfterLoop(info, rows, intelAssoc)
    decreases |rows|
  {
    if |rows| == 0 {
      assert AfterLoop(info, rows, intelAssoc) == info;
    } else {
      var x := rows[0];
      var rest := rows[1..];
      var info' := Route(info, x.Registers(), intelAssoc);
      RouteAllIsReference(info', rest, intelAssoc);
      RouteStep(info, x, intelAssoc);
      assert rows == [x] + rest;
      WithRoutedCons(info.l1, x, rest, 1, intelAssoc);
      WithRoutedCons(info.l2, x, rest, 2, intelAssoc);
      WithRoutedCons(info.l3, x, rest, 3, intelAssoc);
    }
  }

  /** The leaf 18H loop stops at the first subleaf whose EDX bits 0-4 are
      not 1 (the "TLB entry" code). */
  const TlbStop: (u32, Regs) -> bool := (s: u32, r: Regs) => r.d & 0x1F != 1

  lemma TlbStops(q: Source)
    ensures forall s: u32 :: Sweep.StopsAt(q, 0x18, TlbStop, s) <==> q(0x18, s).d & 0x1F != 1
  {
  }

  const IntelOnly := TlbInfo("Intel", EmptyLevel, EmptyLevel, EmptyLevel)

  /** `GetIntelTLBInfo`. */
  function IntelTlb(q: Source, maxFunc: u32, descriptors: Descriptors, intelAssoc: AssocText): (r: Run<TlbInfo>)
    ensures r.Diverges? <==> maxFunc >= 0x18 && forall s: u32 :: q(0x18, s).d & 0x1F == 1
    ensures maxFunc < 2 ==> r == Returns(IntelOnly)
    ensures 2 <= maxFunc < 0x18 ==> r == Returns(LegacyTlb(q, descriptors))
    ensures maxFunc >= 0x18 ==>
              r == match Sweep.Scan(q, 0x18, TlbStop, 0)
                   case Diverges => Diverges
                   case Returns(rows) => Returns(AfterLoop(LegacyTlb(q, descriptors), rows, intelAssoc))
  {
    Sweep.ScanFromZero(q, 0x18, TlbStop);
    TlbStops(q);
    if maxFunc < 2 then Returns(IntelOnly)
    else
      var base := LegacyTlb(q, descriptors);
      if maxFunc >= 0x18 then
        match Sweep.Scan(q, 0x18, TlbStop, 0)
        case Diverges => Diverges
        case Returns(rows) =>
          RouteAllIsReference(base, rows, intelAssoc);
          Returns(RouteAll(base, rows, intelAssoc))
      else Returns(base)
  }

  /** The record after the leaf 02H descriptors: EAX without its low byte
      (the iteration count), then EBX, ECX and EDX. */
  function LegacyTlb(q: Source, descriptors: Descriptors): TlbInfo
  {
    var r := q(2, 0);
    descriptors(IntelOnly, r.a >> 8, r.b, r.c, r.d)
  }

  /** `GetTLBInfo`: AMD first, then Intel; any other vendor gives an empty
      record and an error. */
  function TlbInfoOf(q: Source, maxFunc: u32, maxExtFunc: u32, isAmd: bool, isIntel: bool,
                     assoc: AssocText, descriptors: Descriptors, intelAssoc: AssocText)
    : (r: Run<(TlbInfo, Option<string>)>)
    ensures isAmd ==> r == Returns((AmdTlb(q, maxExtFunc, assoc), None))
    ensures !isAmd && isIntel ==>
              r == match IntelTlb(q, maxFunc, descriptors, intelAssoc)
                   case Diverges => Diverges
                   case Returns(info) => Returns((info, None))
    ensures !isAmd && !isIntel ==>
              r == Returns((TlbInfo("", EmptyLevel, EmptyLevel, EmptyLevel), Some("Unknown/Unsupported CPU vendor")))
  {
    if isAmd then Returns((AmdTlb(q, maxExtFunc, assoc), None))
    else if isIntel then
      match IntelTlb(q, maxFunc, descriptors, intelAssoc)
      case Diverges => Diverges
      case Returns(info) => Returns((info, None))
    else Returns((TlbInfo("", EmptyLevel, EmptyLevel, EmptyLevel), Some("Unknown/Unsupported CPU vendor")))
  }
}

=== FILE: topology.dfy ===
/** `GetProcessorInfo` (`cpuid_info.go`): logical-processor count and
    initial APIC ID from leaf 01H, address widths from leaf 8000_0008H, and
    the vendor-dependent derivation of the core count and threads per core.

    Which vendor the processor is (`isAMD`, `isIntel`) is decided by code
    that is not part of this model; the two answers are parameters. */
module Topology {
  import opened Types
  import Sweep

  // ---------------------------------------------------------------------
  // Intel extended topology, leaf 0BH

  const TopologyLeaf: u32 := 0xB

  /** Level type of one leaf 0BH subleaf: 1 is the thread (SMT) level, 2
      the core level, 0 marks the end of the enumeration. */
  function LevelType(r: Regs): (t: bv32)
    ensures t < 0x100
    ensures t << 8 == r.c & 0xFF00
  {
    (r.c >> 8) & 0xFF
  }

  /** Number of logical processors at a level (EBX bits 0-15). */
  function LevelCount(r: Regs): (n: bv32)
    ensures n <= 0xFFFF
    ensures n | (r.b & 0xFFFF_0000) == r.b
  {
    r.b & 0xFFFF
  }

  /** A subleaf built from a level type and a processor count reads back
      as exactly those, whatever the other bits hold. */
  lemma LevelRoundTrip(t: bv32, n: bv32, other: Regs)
    requires t < 0x100 && n <= 0xFFFF
    ensures var r := Regs(other.a, (other.b & 0xFFFF_0000) | n, (other.c & 0xFFFF_00FF) | (t << 8), other.d);
            LevelType(r) == t && LevelCount(r) == n
  {
  }

  /** The leaf 0BH loop ends at the first subleaf whose level type is 0. */
  const TopologyStop: (u32, Regs) -> bool := (s: u32, r: Regs) => LevelType(r) == 0

  lemma TopologyStops(q: Source)
    ensures forall s: u32 :: Sweep.StopsAt(q, TopologyLeaf, TopologyStop, s) <==> LevelType(q(TopologyLeaf, s)) == 0
  {
  }

  /** The loop body over the recorded subleaves: a thread-level subleaf
      sets the threads-per-core count, a core-level subleaf the total;
      every other level type leaves both alone. */
  function CountLevels(rows: seq<Entry>, threads: bv32, total: bv32): (bv32, bv32)
    decreases |rows|
  {
    if |rows| == 0 then (threads, total)
    else
      var r := rows[0].Registers();
      CountLevels(rows[1..],
                  if LevelType(r) == 1 then LevelCount(r) else threads,
                  if LevelType(r) == 2 then LevelCount(r) else total)
  }

  /** Reference reading: the count of the last subleaf of level type `t`,
      or `default` when there is none. */
  function LastCount(rows: seq<Entry>, t: bv32, default: bv32): bv32
    decreases |rows|
  {
    if |rows| == 0 then default
    else if LevelType(rows[|rows| - 1].Registers()) == t then LevelCount(rows[|rows| - 1].Registers())
    else LastCount(rows[..|rows| - 1], t, default)
  }

  lemma {:induction false} LastCountCons(x: Entry, rest: seq<Entry>, t: bv32, default: bv32)
    ensures LastCount([x] + rest, t, default)
              == LastCount(rest, t, if LevelType(x.Registers()) == t then LevelCount(x.Registers()) else default)
    decreases |rest|
  {
    if |rest| > 0 {
      var all := [x] + rest;
      assert all[..|all| - 1] == [x] + rest[..|rest| - 1];
      LastCountCons(x, rest[..|rest| - 1], t, default);
    }
  }

  /** The loop keeps the count of the last thread-level and the last
      core-level subleaf it saw. */
  lemma {:induction false} CountLevelsIsLast(rows: seq<Entry>, threads: bv32, total: bv32)
    ensures CountLevels(rows, threads, total) == (LastCount(rows, 1, threads), LastCount(rows, 2, total))
    decreases |rows|
  {
    if |rows| > 0 {
      var r := rows[0].Registers();
      var threads' := if LevelType(r) == 1 then LevelCount(r) else threads;
      var total' := if LevelType(r) == 2 then LevelCount(r) else total;
      CountLevelsIsLast(rows[1..], threads', total');
      assert rows == [rows[0]] + rows[1..];
      LastCountCons(rows[0], rows[1..], 1, threads);
      LastCountCons(rows[0], rows[1..], 2, total);
    }
  }

  /** The loop's result on leaf 0BH is the reference reading of the
      subleaves before the first level type 0. */
  lemma LeafBReference(q: Source)
    ensures Sweep.Scan(q, TopologyLeaf, TopologyStop, 0).Returns? ==>
              var rows := Sweep.Scan(q, TopologyLeaf, TopologyStop, 0).value;
              CountLevels(rows, 0, 0) == (LastCount(rows, 1, 0), LastCount(rows, 2, 0))
  {
    if Sweep.Scan(q, TopologyLeaf, TopologyStop, 0).Returns? {
      CountLevelsIsLast(Sweep.Scan(q, TopologyLeaf, TopologyStop, 0).value, 0, 0);
    }
  }

  /** Threads per core from the HTT flag: bit 28 of the leaf 01H register
      the source reads, which is EBX (the HTT flag itself lives in EDX). */
  function HttThreads(q: Source): (n: u32)
    ensures n == 2 <==> q(1, 0).b & 0x1000_0000 != 0
    ensures n == 1 <==> q(1, 0).b & 0x1000_0000 == 0
  {
    if q(1, 0).b & (1 << 28) != 0 then 2 else 1
  }

  /** Cores are the logical processors of the core level divided by the
      threads per core (unsigned division); both counts must be non-zero,
      else (0, 0). */
  function CoresAndThreads(threads: bv32, total: bv32): (r: (u32, u32))
    ensures threads != 0 && total != 0 ==>
              && r.1 == threads as int
              && r.0 * threads as int <= total as int < (r.0 + 1) * threads as int
    ensures threads == 0 || total == 0 ==> r == (0, 0)
  {
    if total != 0 && threads != 0 then
      var t, n := total as int, threads as int;
      assert t < 0x1_0000_0000;
      QuotientBounds(t, n);
      (t / n, n)
    else (0, 0)
  }

  lemma QuotientBounds(total: int, threads: int)
    requires 0 <= total && 0 < threads
    ensures 0 <= total / threads <= total
    ensures total / threads * threads <= total < (total / threads + 1) * threads
  {
    var quot, rem := total / threads, total % threads;
    assert total == quot * threads + rem && 0 <= rem < threads;
    assert (quot + 1) * threads == quot * threads + threads;
    assert 0 <= quot by {
      assert quot * threads > -threads;
    }
    assert quot * threads == quot * (threads - 1) + quot;
    NonNegativeProduct(quot, threads - 1);
  }

  lemma NonNegativeProduct(x: int, y: int)
    requires 0 <= x && 0 <= y
    ensures 0 <= x * y
  {
  }

  /** Cores and threads from leaf 0BH, or (0, 0) when the leaf is not
      implemented or did not give both counts. */
  function LeafBCounts(q: Source, maxFunc: u32): (r: Run<(u32, u32)>)
  {
    if maxFunc >= TopologyLeaf then
      match Sweep.Scan(q, TopologyLeaf, TopologyStop, 0)
      case Diverges => Diverges
      case Returns(rows) =>
        var (threads, total) := CountLevels(rows, 0, 0);
        Returns(CoresAndThreads(threads, total))
    else Returns((0, 0))
  }

  /** `LeafBCounts` diverges exactly when every subleaf of leaf 0BH has a
      non-zero level type; otherwise it is the reference reading, or (0, 0)
      below leaf 0BH. */
  lemma LeafBCountsMeaning(q: Source, maxFunc: u32)
    ensures LeafBCounts(q, maxFunc).Diverges? <==> maxFunc >= TopologyLeaf && forall s: u32 :: LevelType(q(TopologyLeaf, s)) != 0
    ensures maxFunc < TopologyLeaf ==> LeafBCounts(q, maxFunc) == Returns((0, 0))
    ensures maxFunc >= TopologyLeaf && Sweep.Scan(q, TopologyLeaf, TopologyStop, 0).Returns? ==>
              LeafBCounts(q, maxFunc) == Returns(LeafBReading(Sweep.Scan(q, TopologyLeaf, TopologyStop, 0).value))
  {
    Sweep.ScanFromZero(q, TopologyLeaf, TopologyStop);
    TopologyStops(q);
    LeafBReference(q);
  }

  /** The fallback when leaf 0BH gave no core count: leaf 04H EAX bits
      26-31 plus one when leaf 04H is implemented, else a single core; the
      threads per core from the HTT bit. */
  function OlderIntelCounts(q: Source, maxFunc: u32): (r: (u32, u32))
    ensures r.1 == HttThreads(q)
    ensures maxFunc >= 4 ==> r.0 - 1 == ((q(4, 0).a >> 26) & 0x3F) as int
    ensures maxFunc < 4 ==> r.0 == 1
  {
    if maxFunc >= 4 then (((q(4, 0).a >> 26) & 0x3F) as int + 1, HttThreads(q))
    else (1, HttThreads(q))
  }

  /** The reference reading of leaf 0BH: cores and threads from the last
      thread-level and core-level subleaves before level type 0. */
  function LeafBReading(rows: seq<Entry>): (u32, u32)
  {
    CoresAndThreads(LastCount(rows, 1, 0), LastCount(rows, 2, 0))
  }

  /** The Intel branch: leaf 0BH, then, if that left the core count at 0,
      leaf 04H or a single core, with threads from the HTT bit. */
  function IntelCounts(q: Source, maxFunc: u32): (r: Run<(u32, u32)>)
    ensures r.Diverges? <==> maxFunc >= TopologyLeaf && forall s: u32 :: LevelType(q(TopologyLeaf, s)) != 0
    ensures r.Returns? && maxFunc >= 1 ==> r.value.0 >= 1
    ensures r.Returns? && maxFunc < 1 ==> r.value == (0, 0)
    ensures 1 <= maxFunc < TopologyLeaf ==> r == Returns(OlderIntelCounts(q, maxFunc))
    ensures maxFunc >= TopologyLeaf && Sweep.Scan(q, TopologyLeaf, TopologyStop, 0).Returns? ==>
              var counts := LeafBReading(Sweep.Scan(q, TopologyLeaf, TopologyStop, 0).value);
              r == Returns(if counts.0 != 0 then counts else OlderIntelCounts(q, maxFunc))
  {
    LeafBCountsMeaning(q, maxFunc);
    match LeafBCounts(q, maxFunc)
    case Diverges => Diverges
    case Returns((cores, threads)) =>
      if cores != 0 then Returns((cores, threads))
      else if maxFunc >= 1 then Returns(OlderIntelCounts(q, maxFunc))
      else Returns((cores, threads))
  }

  /** The AMD branch: leaf 8000_001EH gives threads per core and leaf
      8000_0008H the core count; without them, half the logical processors
      with two threads each, assuming SMT. */
  function AmdCounts(q: Source, maxFunc: u32, maxExtFunc: u32, maxLogical: bv32): (r: (u32, u32))
    requires maxLogical <= 0xFF
    ensures maxExtFunc >= 0x8000_001E ==>
              && 1 <= r.0 <= 0x100 && 1 <= r.1 <= 0x100
              && r.0 - 1 == (q(0x8000_0008, 0).c & 0xFF) as int
              && (r.1 - 1) * 0x100 == (q(0x8000_001E, 0).b & 0xFF00) as int
    ensures maxExtFunc < 0x8000_001E && maxFunc >= 1 ==> r.1 == 2 && maxLogical as int <= 2 * r.0 <= maxLogical as int + 1
    ensures maxExtFunc < 0x8000_001E && maxFunc < 1 ==> r == (0, 0)
  {
    if maxExtFunc >= 0x8000_001E then
      var threads := ((q(0x8000_001E, 0).b >> 8) & 0xFF) as int + 1;
      // leaf 8000_001EH implies leaf 8000_0008H, so the source's inner test always holds
      var cores := if maxExtFunc >= 0x8000_0008 then (q(0x8000_0008, 0).c & 0xFF) as int + 1 else 0;
      (cores, threads)
    else if maxFunc >= 1 then ((maxLogical as int + 1) / 2, 2)
    else (0, 0)
  }

  /** A processor whose leaf 8000_0008H ECX low byte holds `cores - 1` and
      whose leaf 8000_001EH EBX bits 8-15 hold `threads - 1` reports exactly
      those counts, whatever the other bits hold. */
  lemma AmdCountsRoundTrip(q: Source, maxFunc: u32, maxExtFunc: u32, maxLogical: bv32, cores: bv32, threads: bv32)
    requires maxLogical <= 0xFF && maxExtFunc >= 0x8000_001E
    requires 1 <= cores <= 0x100 && 1 <= threads <= 0x100
    requires q(0x8000_0008, 0).c & 0xFF == cores - 1
    requires (q(0x8000_001E, 0).b >> 8) & 0xFF == threads - 1
    ensures AmdCounts(q, maxFunc, maxExtFunc, maxLogical) == (cores as int, threads as int)
  {
  }

  /** `ProcessorInfo`. */
  datatype ProcessorInfo = ProcessorInfo(maxLogicalProcessors: bv32, initialApicId: bv32,
                                         physicalAddressBits: bv32, linearAddressBits: bv32,
                                         coreCount: u32, threadPerCore: u32)

  /** The vendor-independent part of `GetProcessorInfo`: leaf 01H EBX
      bits 16-23 and 24-31, and the address widths of leaf 8000_0008H EAX
      when that leaf is implemented (zero otherwise). */
  function BasicInfo(q: Source, maxExtFunc: u32): (p: ProcessorInfo)
    ensures p.maxLogicalProcessors == (q(1, 0).b >> 16) & 0xFF
    ensures p.initialApicId == q(1, 0).b >> 24
    ensures maxExtFunc < 0x8000_0008 ==> p.physicalAddressBits == 0 && p.linearAddressBits == 0
    ensures maxExtFunc >= 0x8000_0008 ==>
              && p.physicalAddressBits == q(0x8000_0008, 0).a & 0xFF
              && p.linearAddressBits == (q(0x8000_0008, 0).a >> 8) & 0xFF
    ensures p.coreCount == 0 && p.threadPerCore == 0
  {
    var b := q(1, 0).b;
    var a8 := q(0x8000_0008, 0).a;
    var physical: bv32 := if maxExtFunc >= 0x8000_0008 then a8 & 0xFF else 0;
    var linear: bv32 := if maxExtFunc >= 0x8000_0008 then (a8 >> 8) & 0xFF else 0;
    ProcessorInfo((b >> 16) & 0xFF, (b >> 24) & 0xFF, physical, linear, 0, 0)
  }

  /** `GetProcessorInfo`. `Diverges` when the leaf 0BH loop never meets a
      level type of 0. */
  function ProcessorInfoOf(q: Source, maxFunc: u32, maxExtFunc: u32, isAmd: bool, isIntel: bool): (r: Run<ProcessorInfo>)
    ensures r.Diverges? <==> !isAmd && isIntel && IntelCounts(q, maxFunc).Diverges?
    ensures r.Returns? ==> r.value.(coreCount := 0, threadPerCore := 0) == BasicInfo(q, maxExtFunc)
    ensures isAmd ==> && r.Returns?
                      && (r.value.coreCount, r.value.threadPerCore)
                           == AmdCounts(q, maxFunc, maxExtFunc, r.value.maxLogicalProcessors)
    ensures !isAmd && isIntel && r.Returns? ==>
              (r.value.coreCount, r.value.threadPerCore) == IntelCounts(q, maxFunc).value
    ensures !isAmd && !isIntel ==> r == Returns(BasicInfo(q, maxExtFunc))
  {
    var basic := BasicInfo(q, maxExtFunc);
    if isAmd then
      var (cores, threads) := AmdCounts(q, maxFunc, maxExtFunc, basic.maxLogicalProcessors);
      Returns(basic.(coreCount := cores, threadPerCore := threads))
    else if isIntel then
      match IntelCounts(q, maxFunc)
      case Diverges => Diverges
      case Returns((cores, threads)) => Returns(basic.(coreCount := cores, threadPerCore := threads))
    else Returns(basic)
  }
}

=== FILE: types.dfy ===
/** Shared vocabulary of the CPUID model: the four result registers, the
    register source every decoder reads from, the captured snapshot entry,
    and the little-endian byte split of a 32-bit register.

    Registers are `bv32`: Go's `uint32` bit operations and arithmetic on
    register values wrap modulo 2^32 exactly as `bv32` does. Leaf and
    subleaf numbers, and the maximum-leaf values read from registers, are
    counted and compared as integers in 0..2^32-1 (`u32`); where the source
    increments such a counter past 2^32-1 the model says what happens. */
module Types {

  /** An unsigned 32-bit number used as a count or leaf number. */
  type u32 = x: int | 0 <= x < 0x1_0000_0000

  const MaxU32: u32 := 0xFFFF_FFFF

  /** A register value read as a number (Go uses the same `uint32`). */
  function ToU32(x: bv32): (n: u32)
    ensures n as bv32 == x
  {
    x as int
  }

  datatype Option<+T> = None | Some(value: T)

  /** The outcome of a computation whose source loop may never terminate:
      `Diverges` stands for "the Go code loops forever on these inputs". */
  datatype Run<+T> = Returns(value: T) | Diverges

  /** The four result registers of one CPUID query (EAX, EBX, ECX, EDX). */
  datatype Regs = Regs(a: bv32, b: bv32, c: bv32, d: bv32)

  const ZeroRegs := Regs(0, 0, 0, 0)

  /** A register source answers a query at (leaf, subleaf). The hardware
      instruction and the snapshot replay are both sources. */
  type Source = (u32, u32) -> Regs

  /** One recorded query: the `CPUIDEntry` record of the snapshot file. */
  datatype Entry = Entry(leaf: u32, subleaf: u32, eax: bv32, ebx: bv32, ecx: bv32, edx: bv32)
  {
    function Registers(): Regs { Regs(eax, ebx, ecx, edx) }
  }

  /** The entry that records what `q` answers at (leaf, subleaf). */
  function Record(q: Source, leaf: u32, subleaf: u32): (e: Entry)
    ensures e.leaf == leaf && e.subleaf == subleaf
    ensures e.Registers() == q(leaf, subleaf)
  {
    var r := q(leaf, subleaf);
    Entry(leaf, subleaf, r.a, r.b, r.c, r.d)
  }

  /** Reassembles four little-endian bytes into a register. */
  function FromBytes(bs: seq<bv8>): bv32
    requires |bs| == 4
  {
    (bs[0] as bv32) | ((bs[1] as bv32) << 8) | ((bs[2] as bv32) << 16) | ((bs[3] as bv32) << 24)
  }

  /** `int32ToBytes`: the four bytes of a register, least significant first. */
  function Int32ToBytes(x: bv32): (r: seq<bv8>)
    ensures |r| == 4
    ensures FromBytes(r) == x
  {
    [(x & 0xFF) as bv8, ((x >> 8) & 0xFF) as bv8, ((x >> 16) & 0xFF) as bv8, ((x >> 24) & 0xFF) as bv8]
  }

  /** The split is injective on byte sequences too: any four bytes are the
      split of the register they assemble into. */
  lemma BytesRoundTrip(bs: seq<bv8>)
    requires |bs| == 4
    ensures Int32ToBytes(FromBytes(bs)) == bs
  {
  }
}

=== FILE: writer.dfy ===
/** The 32-bit C snapshot writer (`writers/32bit/cpuidwrt.c`): the leaf
    order and stop tests of `CaptureData`, collected into a growable array,
    then printed as the JSON text the replay reads.

    The sweep is modelled by `Capture.CaptureEntries`, which asks every
    query with an explicit subleaf. The writer's own `__get_cpuid(leaf, ...)`
    calls leave ECX unset, and it does not check whether its 8000_0000H
    query succeeded; both are taken as the subleaf-0 answer of the register
    source here.

    The array is a sequence with a separate capacity; `malloc`/`realloc`
    failure is not part of this model. Whether the CPUID instruction exists
    and whether the output file opens are parameters; `__get_cpuid(0, ...)`
    also fails when leaf 0 reports a maximum of 0. */
module Writer {
  import opened Types
  import Numerals
  import Capture

  // ---------------------------------------------------------------------
  // The growable array

  const InitialEntries: nat := 64

  /** The entries stored so far (`count` is their number) and the
      allocated capacity. */
  datatype Buffer = Buffer(cells: seq<Entry>, capacity: nat)

  /** Capacities the doubling rule produces: 64, 128, 256, ... */
  predicate Doubled(c: nat)
    decreases c
  {
    c == InitialEntries || (c > InitialEntries && c % 2 == 0 && Doubled(c / 2))
  }

  /** The array never holds more than its capacity, the capacity is 64
      doubled some number of times, and it is never more than twice what
      is needed (it is 64, or below twice the count). */
  predicate Valid(b: Buffer)
  {
    && |b.cells| <= b.capacity
    && Doubled(b.capacity)
    && (b.capacity == InitialEntries || b.capacity < 2 * |b.cells|)
  }

  const Empty := Buffer([], InitialEntries)

  /** `APPEND_ENTRY`: doubles the capacity when the array is full, then
      stores the entry at index `count`. */
  function Append(b: Buffer, e: Entry): (b': Buffer)
    requires Valid(b)
    ensures Valid(b')
    ensures |b'.cells| == |b.cells| + 1
    ensures b'.cells[..|b.cells|] == b.cells && b'.cells[|b.cells|] == e
    ensures b'.capacity == if |b.cells| >= b.capacity then 2 * b.capacity else b.capacity
  {
    var capacity := if |b.cells| >= b.capacity then 2 * b.capacity else b.capacity;
    assert capacity != b.capacity ==> capacity / 2 == b.capacity;
    Buffer(b.cells + [e], capacity)
  }

  /** The capture loop's appends, one entry at a time. */
  method Collect(es: seq<Entry>) returns (b: Buffer)
    ensures Valid(b)
    ensures b.cells == es
  {
    b := Empty;
    var i := 0;
    while i < |es|
      invariant 0 <= i <= |es|
      invariant Valid(b)
      invariant b.cells == es[..i]
    {
      b := Append(b, es[i]);
      i := i + 1;
    }
    assert es[..|es|] == es;
  }

  // ---------------------------------------------------------------------
  // The JSON text

  const Header := "{\n  \"entries\": [\n"
  const Footer := "  ]\n}\n"

  /** A label, then a register or leaf number as `%u`, then `rest`. */
  function Field(lit: string, n: u32, rest: string): string
  {
    Numerals.Labelled(lit, n, 10, rest)
  }

  /** The six fields in order, in unsigned decimal, then `end`. */
  function EntryWith(e: Entry, end: string): string
  {
    Field("    { \"leaf\": ", e.leaf,
      Field(", \"subleaf\": ", e.subleaf,
        Field(", \"eax\": ", ToU32(e.eax),
          Field(", \"ebx\": ", ToU32(e.ebx),
            Field(", \"ecx\": ", ToU32(e.ecx),
              Field(", \"edx\": ", ToU32(e.edx), end))))))
  }

  /** One entry. */
  function EntryText(e: Entry): string
  {
    EntryWith(e, " }")
  }

  /** The line end: a comma before it on every line but the last. */
  function Separator(last: bool): string
  {
    if last then "\n" else ",\n"
  }

  /** One output line: a comma after every entry but the last. */
  function LineText(e: Entry, last: bool): string
  {
    EntryText(e) + Separator(last)
  }

  /** The output lines, one per entry, in order. */
  function Lines(es: seq<Entry>): (ls: seq<string>)
    ensures |ls| == |es|
  {
    seq(|es|, k requires 0 <= k < |es| => LineText(es[k], k + 1 == |es|))
  }

  /** Texts written one after another. */
  function Concat(ls: seq<string>): string
  {
    if |ls| == 0 then "" else Concat(ls[..|ls| - 1]) + ls[|ls| - 1]
  }

  /** The whole output file. */
  function JsonText(es: seq<Entry>): string
  {
    Header + Concat(Lines(es)) + Footer
  }

  /** The print loop. */
  method Emit(es: seq<Entry>) returns (out: string)
    ensures out == JsonText(es)
  {
    var lines := Lines(es);
    var body := PrintAll(lines);
    out := Header + body + Footer;
  }

  /** Writes the lines one after another. */
  method PrintAll(ls: seq<string>) returns (out: string)
    ensures out == Concat(ls)
  {
    out := "";
    var i := 0;
    while i < |ls|
      invariant 0 <= i <= |ls|
      invariant out == Concat(ls[..i])
    {
      assert ls[..i + 1][..i] == ls[..i];
      out := out + ls[i];
      i := i + 1;
    }
    assert ls[..|ls|] == ls;
  }

  // ---------------------------------------------------------------------
  // Reading the text back

  /** The literal `lit`, then an unsigned 32-bit decimal number. */
  function ReadField(lit: string, s: string): (r: Option<(u32, string)>)
    ensures r.Some? ==> |r.value.1| < |s|
  {
    match Numerals.ReadLabelled(lit, s, 10)
    case Some((n, rest)) => if n <= MaxU32 then Some((n, rest)) else None
    case None => None
  }

  /** One entry line without its line end. */
  function ReadEntry(s: string): (r: Option<(Entry, string)>)
    ensures r.Some? ==> |r.value.1| < |s|
  {
    var leaf := ReadField("    { \"leaf\": ", s);
    if leaf.None? then None else
    var subleaf := ReadField(", \"subleaf\": ", leaf.value.1);
    if subleaf.None? then None else
    var eax := ReadField(", \"eax\": ", subleaf.value.1);
    if eax.None? then None else
    var ebx := ReadField(", \"ebx\": ", eax.value.1);
    if ebx.None? then None else
    var ecx := ReadField(", \"ecx\": ", ebx.value.1);
    if ecx.None? then None else
    var edx := ReadField(", \"edx\": ", ecx.value.1);
    if edx.None? || !(" }" <= edx.value.1) then None else
    Some((Entry(leaf.value.0, subleaf.value.0, eax.value.0 as bv32, ebx.value.0 as bv32, ecx.value.0 as bv32,
                edx.value.0 as bv32),
          edx.value.1[2..]))
  }

  /** The entry lines and the closing text: a line followed by ",\n" must
      be followed by another line, a line followed by "\n" by the end. */
  function ReadLines(s: string): Option<seq<Entry>>
    decreases |s|
  {
    if s == Footer then Some([])
    else
      var line := ReadEntry(s);
      if line.None? then None
      else
        var (e, rest) := line.value;
        if rest == "\n" + Footer then Some([e])
        else if ",\n" <= rest then
          var more := ReadLines(rest[2..]);
          if more.Some? && |more.value| > 0 then Some([e] + more.value) else None
        else None
  }

  /** Reads a snapshot text. */
  function ReadJson(s: string): Option<seq<Entry>>
  {
    if Header <= s then ReadLines(s[|Header|..]) else None
  }

  // ---------------------------------------------------------------------
  // Round trip

  lemma ReadFieldOf(lit: string, n: u32, t: string)
    requires |t| == 0 || Numerals.DigitValue(t[0]) >= 10
    ensures ReadField(lit, Field(lit, n, t)) == Some((n, t))
  {
    Numerals.ReadLabelledOf(lit, n, 10, t);
  }

  /** A field starts with its label. */
  lemma FieldStart(lit: string, n: u32, rest: string)
    requires |lit| > 0
    ensures |Field(lit, n, rest)| > 0 && Field(lit, n, rest)[0] == lit[0]
  {
  }

  /** Text appended after a field belongs to the field's tail. */
  lemma FieldThen(lit: string, n: u32, rest: string, t: string)
    ensures Field(lit, n, rest) + t == Field(lit, n, rest + t)
  {
    Numerals.LabelledThen(lit, n, 10, rest, t);
  }

  /** Text appended after an entry belongs to its end. */
  lemma EntryWithThen(e: Entry, end: string, t: string)
    ensures EntryWith(e, end) + t == EntryWith(e, end + t)
  {
    var r5 := Field(", \"edx\": ", ToU32(e.edx), end);
    var r4 := Field(", \"ecx\": ", ToU32(e.ecx), r5);
    var r3 := Field(", \"ebx\": ", ToU32(e.ebx), r4);
    var r2 := Field(", \"eax\": ", ToU32(e.eax), r3);
    var r1 := Field(", \"subleaf\": ", e.subleaf, r2);
    FieldThen(", \"edx\": ", ToU32(e.edx), end, t);
    FieldThen(", \"ecx\": ", ToU32(e.ecx), r5, t);
    FieldThen(", \"ebx\": ", ToU32(e.ebx), r4, t);
    FieldThen(", \"eax\": ", ToU32(e.eax), r3, t);
    FieldThen(", \"subleaf\": ", e.subleaf, r2, t);
    FieldThen("    { \"leaf\": ", e.leaf, r1, t);
  }

  /** The six fields read back, followed by " }" and anything. */
  lemma ReadEntryWith(e: Entry, t: string)
    ensures ReadEntry(EntryWith(e, " }" + t)) == Some((e, t))
  {
    var t6 := " }" + t;
    var t5 := Field(", \"edx\": ", ToU32(e.edx), t6);
    var t4 := Field(", \"ecx\": ", ToU32(e.ecx), t5);
    var t3 := Field(", \"ebx\": ", ToU32(e.ebx), t4);
    var t2 := Field(", \"eax\": ", ToU32(e.eax), t3);
    var t1 := Field(", \"subleaf\": ", e.subleaf, t2);
    FieldStart(", \"edx\": ", ToU32(e.edx), t6);
    FieldStart(", \"ecx\": ", ToU32(e.ecx), t5);
    FieldStart(", \"ebx\": ", ToU32(e.ebx), t4);
    FieldStart(", \"eax\": ", ToU32(e.eax), t3);
    FieldStart(", \"subleaf\": ", e.subleaf, t2);
    assert Numerals.DigitValue(',') >= 10 && Numerals.DigitValue(' ') >= 10;
    ReadFieldOf("    { \"leaf\": ", e.leaf, t1);
    ReadFieldOf(", \"subleaf\": ", e.subleaf, t2);
    ReadFieldOf(", \"eax\": ", ToU32(e.eax), t3);
    ReadFieldOf(", \"ebx\": ", ToU32(e.ebx), t4);
    ReadFieldOf(", \"ecx\": ", ToU32(e.ecx), t5);
    ReadFieldOf(", \"edx\": ", ToU32(e.edx), t6);
    assert t6[2..] == t;
  }

  /** Every entry text reads back as the entry, whatever line end follows. */
  lemma ReadEntryOf(e: Entry, t: string)
    ensures ReadEntry(EntryText(e) + t) == Some((e, t))
  {
    EntryWithThen(e, " }", t);
    ReadEntryWith(e, t);
  }

  /** Concatenation, split after the first text. */
  lemma {:induction false} ConcatFront(ls: seq<string>)
    requires |ls| > 0
    ensures Concat(ls) == ls[0] + Concat(ls[1..])
    decreases |ls|
  {
    if |ls| == 1 {
      assert ls[..0] == [];
      assert ls[1..] == [];
    } else {
      var init := ls[..|ls| - 1];
      ConcatFront(init);
      assert init[1..] == ls[1..][..|ls| - 2];
      Numerals.Assoc(ls[0], Concat(init[1..]), ls[|ls| - 1]);
    }
  }

  /** The lines after the first are the lines of the remaining entries. */
  lemma LinesTail(es: seq<Entry>)
    requires |es| > 0
    ensures Lines(es)[1..] == Lines(es[1..])
  {
  }

  /** A line followed by more text: the entry, then its separator. */
  lemma LineThen(e: Entry, last: bool, x: string)
    ensures LineText(e, last) + x == EntryText(e) + (Separator(last) + x)
  {
    Numerals.Assoc(EntryText(e), Separator(last), x);
  }

  /** The last line, then the closing text. */
  lemma ReadLastLine(e: Entry)
    ensures ReadLines(EntryText(e) + ("\n" + Footer)) == Some([e])
  {
    var s := EntryText(e) + ("\n" + Footer);
    ReadEntryOf(e, "\n" + Footer);
    assert s != Footer by {
      assert |Footer| < |s|;
    }
  }

  /** An entry text is longer than the closing text. */
  lemma EntryTextLong(e: Entry)
    ensures |EntryText(e)| > |Footer|
  {
    var lit := "    { \"leaf\": ";
    assert |lit| == 14;
    assert EntryText(e) == Field(lit, e.leaf, Field(", \"subleaf\": ", e.subleaf,
      Field(", \"eax\": ", ToU32(e.eax), Field(", \"ebx\": ", ToU32(e.ebx),
        Field(", \"ecx\": ", ToU32(e.ecx), Field(", \"edx\": ", ToU32(e.edx), " }"))))));
  }

  /** A line followed by a comma, then further lines. */
  lemma ReadNextLine(e: Entry, tail: string, more: seq<Entry>)
    requires ReadLines(tail) == Some(more) && |more| > 0
    ensures ReadLines(EntryText(e) + (Separator(false) + tail)) == Some([e] + more)
  {
    var rest := ",\n" + tail;
    var s := EntryText(e) + rest;
    ReadEntryOf(e, rest);
    assert ReadEntry(s) == Some((e, rest));
    assert s != Footer by {
      EntryTextLong(e);
    }
    assert rest != "\n" + Footer by {
      assert ("\n" + Footer)[0] != rest[0];
    }
    assert ",\n" <= rest && rest[2..] == tail;
  }

  /** The printed lines, split after the first: its text, its line end,
      and the lines of the remaining entries. */
  lemma LinesFront(es: seq<Entry>)
    requires |es| > 0
    ensures Concat(Lines(es)) + Footer
            == EntryText(es[0]) + (Separator(|es| == 1) + (Concat(Lines(es[1..])) + Footer))
  {
    var ls := Lines(es);
    ConcatFront(ls);
    LinesTail(es);
    Numerals.Assoc(ls[0], Concat(Lines(es[1..])), Footer);
    LineThen(es[0], |es| == 1, Concat(Lines(es[1..])) + Footer);
  }

  lemma ReadNoLines(es: seq<Entry>)
    requires |es| == 0
    ensures ReadLines(Concat(Lines(es)) + Footer) == Some(es)
  {
    assert Concat(Lines(es)) + Footer == Footer;
  }

  lemma ReadOneLine(es: seq<Entry>)
    requires |es| == 1
    ensures ReadLines(Concat(Lines(es)) + Footer) == Some(es)
  {
    LinesFront(es);
    assert Lines(es[1..]) == [];
    assert Concat(Lines(es[1..])) + Footer == Footer;
    assert Separator(|es| == 1) == "\n";
    ReadLastLine(es[0]);
    assert es == [es[0]];
  }

  lemma ReadMoreLines(es: seq<Entry>)
    requires |es| > 1
    requires ReadLines(Concat(Lines(es[1..])) + Footer) == Some(es[1..])
    ensures ReadLines(Concat(Lines(es)) + Footer) == Some(es)
  {
    var tail := Concat(Lines(es[1..])) + Footer;
    LinesFront(es);
    ReadNextLine(es[0], tail, es[1..]);
    FirstAndRest(es);
  }

  lemma FirstAndRest(es: seq<Entry>)
    requires |es| > 0
    ensures [es[0]] + es[1..] == es
  {
  }

  lemma {:induction false} ReadLinesOf(es: seq<Entry>)
    ensures ReadLines(Concat(Lines(es)) + Footer) == Some(es)
    decreases |es|
  {
    if |es| == 0 {
      ReadNoLines(es);
    } else if |es| == 1 {
      ReadOneLine(es);
    } else {
      ReadLinesOf(es[1..]);
      ReadMoreLines(es);
    }
  }

  /** The printed file reads back as exactly the entries it was printed
      from, for any number of entries including none: no field is lost or
      reordered, and the comma rule leaves no separator after the last
      entry. */
  lemma JsonRoundTrip(es: seq<Entry>)
    ensures ReadJson(JsonText(es)) == Some(es)
  {
    var s := JsonText(es);
    Numerals.Assoc(Header, Concat(Lines(es)), Footer);
    assert s[|Header|..] == Concat(Lines(es)) + Footer;
    ReadLinesOf(es);
  }

  // ---------------------------------------------------------------------
  // The program

  /** The program's observable result: its exit status and the text of
      `cpuid_data.json` when it writes one. */
  datatype Outcome = Outcome(exitCode: int, file: Option<string>)

  /** Whether `__get_cpuid(0, ...)` succeeds: the instruction exists
      (`cpuidPresent`) and leaf 0 reports a maximum leaf other than 0, for
      the compiler's helper fails on a maximum of 0. */
  predicate LeafZeroAnswers(q: Source, cpuidPresent: bool)
  {
    cpuidPresent && q(0, 0).a != 0
  }

  /** `main`: exits with 1 and writes nothing when the leaf 0 query fails
      or the file cannot be opened; otherwise writes the JSON text of the
      capture of `q` and exits with 0. Here `q` stands for the answers the
      writer's queries see, with ECX taken as 0 where the writer leaves it
      unset. */
  function WriterMain(q: Source, cpuidPresent: bool, fileOpens: bool): (r: Run<Outcome>)
    ensures !LeafZeroAnswers(q, cpuidPresent) ==> r == Returns(Outcome(1, None))
    ensures LeafZeroAnswers(q, cpuidPresent) ==> (r.Diverges? <==> Capture.CaptureEntries(q).Diverges?)
    ensures LeafZeroAnswers(q, cpuidPresent) && fileOpens && Capture.CaptureEntries(q).Returns? ==>
              r.Returns? && r.value.exitCode == 0
    ensures r.Returns? && r.value.exitCode == 0 ==>
              && LeafZeroAnswers(q, cpuidPresent) && fileOpens
              && Capture.CaptureEntries(q).Returns?
              && r.value.file.Some?
              && ReadJson(r.value.file.value) == Some(Capture.CaptureEntries(q).value)
    ensures r.Returns? && r.value.exitCode != 0 ==> r.value == Outcome(1, None)
  {
    if !LeafZeroAnswers(q, cpuidPresent) then Returns(Outcome(1, None))
    else
      match Capture.CaptureEntries(q)
      case Diverges => Diverges
      case Returns(es) =>
        if !fileOpens then Returns(Outcome(1, None))
        else
          JsonRoundTrip(es);
          Returns(Outcome(0, Some(JsonText(es))))
  }
}
